=== FILE: README.md ===
# Rivershark core, modelled in Dafny

Rivershark builds and runs OSGi "products": a set of bundles and modules with
a launcher configuration. This project models its core parts:

- **Bundle repository** (`repository.dfy`, `repository_configuration.dfy`).
  - `install` validates a batch of candidate files. Each file must be readable
    as a bundle and have an `osgi.identity` name and a parseable `version`.
    Every failure is collected, and any failure rejects the whole batch.
  - Each accepted file is copied to `bundles/{name}-{version}.jar` through a
    `.jar.tmp` staging file.
  - The OBR index `obr.xml` is regenerated from the `.jar` files of
    `bundles/`, through `obr.xml.tmp`.
  - The repository directory is modelled by role: the lock file, the
    `bundles/` directory as a map from file names to contents, and the index
    with its temporary sibling.
- **Launcher configuration** (`launcher_configuration.dfy`).
  - The builder.
  - `toProperties`, which flattens the configuration into numbered
    `rivershark.*` keys.
  - `parseFile`, which recovers it.
  - The proved round trip `parseFile(toProperties(c)) == c`, under the
    conditions the platform libraries must meet.
- **Product descriptions** (`product.dfy`, `product_serializers.dfy`,
  `product_parsers.dfy`, `product_round_trip.dfy`).
  - The mapping between a product and its XML binding tree, in both
    directions.
  - The proof that parsing undoes serialising.
- **Hashes** (`hash.dfy`, `hash_algorithm.dfy`, `hex.dfy`).
  - `RSHash` ordering, equality, hash code and `toString`.
  - The JSS algorithm-name table.
  - Upper-case hexadecimal encoding and decoding.
- **Dependency collector** (`dependency_collector.dfy`).
  - The Maven plugin's walk over a project's artifacts and its runtime
    dependency graph.
  - The walk keeps `jar`/`bundle` artifacts keyed by `group:artifact:version`.

Supporting modules:

- `java_ints.dfy`: Java's 8-, 32- and 64-bit integers and their casts.
- `strings.dfy`: `startsWith`, `endsWith` and `String.compareTo`.
- `orders.dfy`: total orders and sorted enumeration.
- `decimal.dfy`: `%d` formatting.
- `paths.dfy`: `Path.resolve`.

Platform and library code the model cannot see is passed in as
function-valued parameters. This covers:

- the bnd resource reader;
- the OSGi version parser and printer;
- `Path.toAbsolutePath`, `normalize` and `toUri`;
- the sunburst package identifier's `parse`, `toString` and order.

Where a round trip depends on these, it is a stated precondition of the
lemma.

Two facts about the code shape the repository model:

- The lock file is `index.lock` (RSRepository.java line 104).
- `create` makes only the base directory. `bundles/` is made when the first
  bundle is copied in, so an empty batch installed into a fresh repository
  fails when the index is generated. `Repository.FreshRepositoryEmptyInstall`
  states this.

## Model

| member | source | states |
|---|---|---|
| JavaInts.Wrap32 | com.io7m.rivershark.product/src/main/java/com/io7m/rivershark/product/RSHash.java:109-111 | Java `int` arithmetic wraps: the result is the 32-bit value congruent to the exact one |
| JavaInts.ToUnsignedLong | com.io7m.rivershark.product.xml/src/main/java/com/io7m/rivershark/product/xml/RSProductSerializers.java:228-230 | `Integer.toUnsignedLong` gives the value in [0, 2^32) congruent to the int |
| JavaInts.LongToInt | com.io7m.rivershark.product.xml/src/main/java/com/io7m/rivershark/product/xml/RSProductParsers.java:227-231 | the `(int)` cast of a long keeps its value modulo 2^32 |
| JavaInts.UnsignedToByte | com.io7m.rivershark.product.xml/src/main/java/com/io7m/rivershark/product/xml/RSProductParsers.java:181-185 | a decoded octet 0..255 becomes the congruent signed byte |
| JavaInts.ByteToUnsigned | com.io7m.rivershark.product.xml/src/main/java/com/io7m/rivershark/product/xml/RSProductSerializers.java:199 | a signed byte is formatted as its unsigned octet 0..255, congruent modulo 256 |
| JavaInts.CongruentInt32AreEqual | com.io7m.rivershark.product.xml/src/main/java/com/io7m/rivershark/product/xml/RSProductParsers.java:227-231 | two ints congruent modulo 2^32 are the same int |
| JavaInts.CastUndoesToUnsignedLong | com.io7m.rivershark.product.xml/src/main/java/com/io7m/rivershark/product/xml/RSProductParsers.java:227-231 | casting the unsigned long written for a version component back to int restores the component |
| JavaInts.ByteRoundTrip | com.io7m.rivershark.product.xml/src/main/java/com/io7m/rivershark/product/xml/RSProductParsers.java:181-185 | a byte's unsigned octet converts back to the same byte |
| Strings.StrLeReflexive | com.io7m.rivershark.product.xml/src/main/java/com/io7m/rivershark/product/xml/RSProductSerializers.java:209-212 | the string order used to sort metadata keys is reflexive |
| Strings.StrLeAntisymmetric | com.io7m.rivershark.product.xml/src/main/java/com/io7m/rivershark/product/xml/RSProductSerializers.java:209-212 | two strings ordered both ways are equal |
| Strings.StrLeTransitive | com.io7m.rivershark.product.xml/src/main/java/com/io7m/rivershark/product/xml/RSProductSerializers.java:209-212 | the string order is transitive |
| Strings.StrLeTotal | com.io7m.rivershark.product.xml/src/main/java/com/io7m/rivershark/product/xml/RSProductSerializers.java:209-212 | any two strings are comparable |
| Strings.EndsWithLastChar | com.io7m.rivershark.obrcontrol/src/main/java/com/io7m/rivershark/obrcontrol/internal/RSRepository.java:130-136 | a name ending in one suffix cannot end in another whose last character differs (a `.jar.tmp` name is not a `.jar` name) |
| Orders.LeastExists | com.io7m.rivershark.product.xml/src/main/java/com/io7m/rivershark/product/xml/RSProductSerializers.java:209-212 | every non-empty finite set has a least element under a total order |
| Orders.SortSet | com.io7m.rivershark.launcher.api/src/main/java/com/io7m/rivershark/launcher/api/RSLauncherConfiguration.java:105-106 | sorting a set gives each element exactly once, in ascending order |
| Orders.SortSetElements | com.io7m.rivershark.launcher.api/src/main/java/com/io7m/rivershark/launcher/api/RSLauncherConfiguration.java:105-106 | the sorted list holds exactly the elements of the set, no more and no fewer |
| Orders.StrLeIsTotalOrder | com.io7m.rivershark.product.xml/src/main/java/com/io7m/rivershark/product/xml/RSProductSerializers.java:212 | `Map.Entry.comparingByKey` on strings is a total order, so sorting by it is well defined |
| Decimal.DigitChar | com.io7m.rivershark.launcher.api/src/main/java/com/io7m/rivershark/launcher/api/RSLauncherConfiguration.java:94-95 | each digit 0..9 has a decimal digit character of that value |
| Decimal.NatToString | com.io7m.rivershark.launcher.api/src/main/java/com/io7m/rivershark/launcher/api/RSLauncherConfiguration.java:94-95 | `%d` of a non-negative index is a non-empty string of decimal digits |
| Decimal.DigitsValueOfNatToString | com.io7m.rivershark.launcher.api/src/main/java/com/io7m/rivershark/launcher/api/RSLauncherConfiguration.java:94-95 | reading back the digits `%d` wrote gives the index |
| Decimal.NatToStringInjective | com.io7m.rivershark.launcher.api/src/main/java/com/io7m/rivershark/launcher/api/RSLauncherConfiguration.java:94-95 | distinct indices are written as distinct strings |
| Hex.HexChar | com.io7m.rivershark.product/src/main/java/com/io7m/rivershark/product/RSHash.java:87 | every nibble has an upper-case hexadecimal digit |
| Hex.DigitValue | com.io7m.rivershark.product.xml/src/main/java/com/io7m/rivershark/product/xml/RSProductParsers.java:184 | every hex digit of either case stands for a nibble below 16 |
| Hex.UpperDigit | com.io7m.rivershark.product/src/main/java/com/io7m/rivershark/product/RSHash.java:87 | a hex digit becomes an upper-case hex digit; every character other than `a`-`f` is left alone |
| Hex.DigitValueOfHexChar | com.io7m.rivershark.product.xml/src/main/java/com/io7m/rivershark/product/xml/RSProductParsers.java:184 | decoding the digit written for a nibble gives the nibble |
| Hex.HexCharOfDigitValue | com.io7m.rivershark.product/src/main/java/com/io7m/rivershark/product/RSHash.java:87 | re-encoding a decoded digit gives its upper-case form |
| Hex.FormatByte | com.io7m.rivershark.product.xml/src/main/java/com/io7m/rivershark/product/xml/RSProductSerializers.java:199 | each byte is written as exactly two digits |
| Hex.FormatHex | com.io7m.rivershark.product.xml/src/main/java/com/io7m/rivershark/product/xml/RSProductSerializers.java:199 | `formatHex` writes two upper-case hex digits per byte |
| Hex.ParsePairs | com.io7m.rivershark.product.xml/src/main/java/com/io7m/rivershark/product/xml/RSProductParsers.java:181-185 | an even-length string decodes exactly when every character is a hex digit, one byte per pair |
| Hex.ParseHex | com.io7m.rivershark.product.xml/src/main/java/com/io7m/rivershark/product/xml/RSProductParsers.java:181-185 | `parseHex` succeeds exactly on even-length strings of hex digits of either case, and yields half as many bytes |
| Hex.ParseFormatHex | com.io7m.rivershark.product.xml/src/main/java/com/io7m/rivershark/product/xml/RSProductParsers.java:181-185 | decoding what `formatHex` wrote gives the original bytes |
| Hex.UpperHex | com.io7m.rivershark.product.xml/src/main/java/com/io7m/rivershark/product/xml/RSProductSerializers.java:199 | upper-casing a hex string keeps its length and upper-cases it position by position |
| Hex.FormatParsedByte | com.io7m.rivershark.product.xml/src/main/java/com/io7m/rivershark/product/xml/RSProductSerializers.java:199 | re-formatting a decoded pair gives the pair in upper case |
| Hex.FormatParseHex | com.io7m.rivershark.product.xml/src/main/java/com/io7m/rivershark/product/xml/RSProductSerializers.java:199 | decoding then re-encoding a hex string normalises it to upper case and loses nothing else |
| HashAlgorithms.EnumName | com.io7m.rivershark.product/src/main/java/com/io7m/rivershark/product/RSHashAlgorithm.java:36-42 | the constant's name, as `toString` prints it, is non-empty and holds no `:` |
| HashAlgorithms.JssAlgorithmName | com.io7m.rivershark.product/src/main/java/com/io7m/rivershark/product/RSHashAlgorithm.java:36-41 | `SHA2_256` is named `SHA-256`, one of the `MessageDigest` names every Java platform must support |
| HashAlgorithms.Ordinal | com.io7m.rivershark.product/src/main/java/com/io7m/rivershark/product/RSHashAlgorithm.java:36-42 | each algorithm sits at its ordinal in the declaration |
| HashAlgorithms.NameTable | com.io7m.rivershark.product/src/main/java/com/io7m/rivershark/product/RSHashAlgorithm.java:44-49 | `toMap` succeeds exactly when no two algorithms share a JSS name; then it maps each name to its algorithm and nothing else |
| HashAlgorithms.Values | com.io7m.rivershark.product/src/main/java/com/io7m/rivershark/product/RSHashAlgorithm.java:44-49 | the table maps every algorithm's JSS name to that algorithm, and holds no other names |
| HashAlgorithms.OfJssName | com.io7m.rivershark.product/src/main/java/com/io7m/rivershark/product/RSHashAlgorithm.java:57-64 | a name is accepted exactly when it is some algorithm's JSS name; any other name fails with "Unrecognized hash algorithm value: " and the name |
| HashAlgorithms.OfJssNameRoundTrip | com.io7m.rivershark.product/src/main/java/com/io7m/rivershark/product/RSHashAlgorithm.java:57-64 | looking up an algorithm's JSS name gives that algorithm |
| HashAlgorithms.AlgorithmNamesDistinct | com.io7m.rivershark.product/src/main/java/com/io7m/rivershark/product/RSHashAlgorithm.java:44-49 | the static table is built without a duplicate-key error, and JSS names identify algorithms |
| Hashes.ArraysCompare | com.io7m.rivershark.product/src/main/java/com/io7m/rivershark/product/RSHash.java:77 | `Arrays.compare` is zero exactly when the two byte arrays are equal (the order itself is stated by `ArraysCompareNegativeIffLexLess`) |
| Hashes.CompareTo | com.io7m.rivershark.product/src/main/java/com/io7m/rivershark/product/RSHash.java:74-79 | `compareTo` is zero exactly when the hashes are equal; for different algorithms its sign follows the algorithms' declaration order |
| Hashes.ArraysEquals | com.io7m.rivershark.product/src/main/java/com/io7m/rivershark/product/RSHash.java:103 | `Arrays.equals` holds exactly when the two arrays have the same length and the same bytes |
| Hashes.Equals | com.io7m.rivershark.product/src/main/java/com/io7m/rivershark/product/RSHash.java:101-103 | `equals` holds exactly when both the algorithm and the bytes are the same |
| Hashes.LexLessTail | com.io7m.rivershark.product/src/main/java/com/io7m/rivershark/product/RSHash.java:77 | a common first byte does not affect lexicographic order |
| Hashes.ArraysCompareNegativeIffLexLess | com.io7m.rivershark.product/src/main/java/com/io7m/rivershark/product/RSHash.java:77 | `Arrays.compare` is negative exactly when the first array is lexicographically smaller (first differing signed byte, or proper prefix) |
| Hashes.ArraysCompareZeroIffEqual | com.io7m.rivershark.product/src/main/java/com/io7m/rivershark/product/RSHash.java:77 | `Arrays.compare` is zero exactly when `Arrays.equals` holds |
| Hashes.ArraysCompareAntisymmetric | com.io7m.rivershark.product/src/main/java/com/io7m/rivershark/product/RSHash.java:77 | swapping the arrays negates the comparison |
| Hashes.ArraysCompareTransitive | com.io7m.rivershark.product/src/main/java/com/io7m/rivershark/product/RSHash.java:77 | the array order is transitive |
| Hashes.CompareToZeroIffEquals | com.io7m.rivershark.product/src/main/java/com/io7m/rivershark/product/RSHash.java:74-79 | `compareTo` is consistent with `equals` (lines 101-103) |
| Hashes.EqualsIsIdentity | com.io7m.rivershark.product/src/main/java/com/io7m/rivershark/product/RSHash.java:101-103 | `equals` holds exactly for hashes with the same algorithm and the same bytes |
| Hashes.CompareToAntisymmetric | com.io7m.rivershark.product/src/main/java/com/io7m/rivershark/product/RSHash.java:74-79 | `a.compareTo(b) == -b.compareTo(a)` |
| Hashes.CompareToTransitive | com.io7m.rivershark.product/src/main/java/com/io7m/rivershark/product/RSHash.java:74-79 | `compareTo` is transitive, so it is a valid `Comparable` order |
| Hashes.CompareToIsLexicographic | com.io7m.rivershark.product/src/main/java/com/io7m/rivershark/product/RSHash.java:74-79 | hashes order first by algorithm ordinal, then lexicographically by bytes |
| Hashes.WrapCongruent | com.io7m.rivershark.product/src/main/java/com/io7m/rivershark/product/RSHash.java:110 | wrapped values depend only on the exact value modulo 2^32 |
| Hashes.ArraysHashCode | com.io7m.rivershark.product/src/main/java/com/io7m/rivershark/product/RSHash.java:110 | `Arrays.hashCode` with int overflow at every step equals the polynomial `31^n + Σ 31^(n-1-i)·b[i]` wrapped to 32 bits once at the end |
| Hashes.HashCode | com.io7m.rivershark.product/src/main/java/com/io7m/rivershark/product/RSHash.java:107-112 | the hash code is `31 * (31 + h(algorithm)) + Arrays.hashCode(value)` wrapped to 32 bits, where `h(algorithm)` is the enum constant's own hash code |
| Hashes.HashCodeConsistentWithEquals | com.io7m.rivershark.product/src/main/java/com/io7m/rivershark/product/RSHash.java:107-112 | equal hashes have equal hash codes |
| Hashes.ToString | com.io7m.rivershark.product/src/main/java/com/io7m/rivershark/product/RSHash.java:85-88 | `toString` is the algorithm's enum name, a colon, then upper-case hex digits that decode back to the hash's bytes |
| Paths.Resolve | com.io7m.rivershark.obrcontrol/src/main/java/com/io7m/rivershark/obrcontrol/internal/RSRepository.java:103-110 | a resolved path is the directory, then one `/`, then the child name: its length, prefix, separator and suffix are each stated |
| ProductSerializers.SerializeVersion | com.io7m.rivershark.product.xml/src/main/java/com/io7m/rivershark/product/xml/RSProductSerializers.java:224-235 | each component is written as an unsigned long congruent to it; the qualifier is written exactly when present |
| ProductSerializers.SerializeHashAlgorithm | com.io7m.rivershark.product.xml/src/main/java/com/io7m/rivershark/product/xml/RSProductSerializers.java:194-198 | `SHA2_256` becomes the schema constant `SHA_2_256`; its partner `ProductRoundTrip.HashAlgorithmRoundTrip` proves that `ParseHashAlgorithm` inverts it, in both directions |
| ProductSerializers.SerializeHash | com.io7m.rivershark.product.xml/src/main/java/com/io7m/rivershark/product/xml/RSProductSerializers.java:190-201 | the hash value is written in upper-case hex that decodes back to the bytes |
| ProductSerializers.MetaEntries | com.io7m.rivershark.product.xml/src/main/java/com/io7m/rivershark/product/xml/RSProductSerializers.java:214-219 | one `meta` element per key, carrying the key's value |
| ProductSerializers.SerializeMetadata | com.io7m.rivershark.product.xml/src/main/java/com/io7m/rivershark/product/xml/RSProductSerializers.java:203-222 | every entry appears exactly once with its value, and no key is written twice |
| ProductSerializers.SerializeMetadataSorted | com.io7m.rivershark.product.xml/src/main/java/com/io7m/rivershark/product/xml/RSProductSerializers.java:209-212 | the entries are written in ascending key order |
| ProductSerializers.SerializeDependency | com.io7m.rivershark.product.xml/src/main/java/com/io7m/rivershark/product/xml/RSProductSerializers.java:142-188 | each dependency becomes an element of its own kind, with its group and name (or its package name), its version written as a version element, and a hash element exactly when it has a hash, holding that hash written out |
| ProductSerializers.SerializeDependencies | com.io7m.rivershark.product.xml/src/main/java/com/io7m/rivershark/product/xml/RSProductSerializers.java:128-140 | the dependencies are written one for one, in order, each of its own kind |
| ProductSerializers.SerializeProduct | com.io7m.rivershark.product.xml/src/main/java/com/io7m/rivershark/product/xml/RSProductSerializers.java:104-114 | the identifier is kept and the version is serialised; the metadata list has one entry per key with that key's value and no key twice; the dependency list serialises each dependency at its own position |
| ProductParsers.ParseVersion | com.io7m.rivershark.product.xml/src/main/java/com/io7m/rivershark/product/xml/RSProductParsers.java:217-233 | each component is the `(int)` cast of the long read; the qualifier is present exactly when the element has one |
| ProductParsers.ParseHashAlgorithm | com.io7m.rivershark.product.xml/src/main/java/com/io7m/rivershark/product/xml/RSProductParsers.java:187-193 | the schema constant `SHA_2_256` becomes `SHA2_256`; with one constant on each side no contract of its own can constrain it, so the property is the inverse stated by `ProductRoundTrip.HashAlgorithmRoundTrip` |
| ProductParsers.ParseHashOptional | com.io7m.rivershark.product.xml/src/main/java/com/io7m/rivershark/product/xml/RSProductParsers.java:166-193 | no hash element gives no hash; otherwise it fails exactly when `parseHex` rejects the value, and gives the mapped algorithm with the decoded bytes |
| ProductParsers.ParseMetadata | com.io7m.rivershark.product.xml/src/main/java/com/io7m/rivershark/product/xml/RSProductParsers.java:128-136 | the map has at most one entry per `meta` element |
| ProductParsers.ParseMetadataKeys | com.io7m.rivershark.product.xml/src/main/java/com/io7m/rivershark/product/xml/RSProductParsers.java:128-136 | the keys of the map are exactly the keys of the `meta` elements |
| ProductParsers.ParseMetadataLastWins | com.io7m.rivershark.product.xml/src/main/java/com/io7m/rivershark/product/xml/RSProductParsers.java:132-134 | for a repeated key the last `meta` element's value is kept |
| ProductParsers.ParseDependency | com.io7m.rivershark.product.xml/src/main/java/com/io7m/rivershark/product/xml/RSProductParsers.java:142-215 | each element becomes a dependency of the matching kind with its group and name (or its package name), its parsed version and its parsed hash; among the checks this model covers, only a bad hash value fails. The checks of the domain constructors are not modelled (see "## Left out") |
| ProductParsers.ParseDependencies | com.io7m.rivershark.product.xml/src/main/java/com/io7m/rivershark/product/xml/RSProductParsers.java:138-154 | the list succeeds exactly when every element parses, and is the elements' dependencies in order |
| ProductParsers.ParseProduct | com.io7m.rivershark.product.xml/src/main/java/com/io7m/rivershark/product/xml/RSProductParsers.java:117-126 | the product keeps the identifier and holds the parsed version, metadata and dependencies; among the checks this model covers, it fails exactly when a dependency's hash value fails. The checks of the domain constructors are not modelled (see "## Left out") |
| ProductParsers.Execute | com.io7m.rivershark.product.xml/src/main/java/com/io7m/rivershark/product/xml/RSProductParsers.java:235-291 | any failure becomes `ParseException("Parsing failed.", statuses)` with the statuses collected so far; it succeeds exactly when a tree was unmarshalled and rebuilding it succeeds. A document that does not unmarshal, or lacks a required element, is given as no tree |
| ProductRoundTrip.VersionRoundTrip | com.io7m.rivershark.product.xml/src/main/java/com/io7m/rivershark/product/xml/RSProductParsers.java:217-233 | parsing a serialised version gives the version, negative components included |
| ProductRoundTrip.HashAlgorithmRoundTrip | com.io7m.rivershark.product.xml/src/main/java/com/io7m/rivershark/product/xml/RSProductParsers.java:191 | the schema's algorithm constant and the enum map to each other, in both directions |
| ProductRoundTrip.HashRoundTrip | com.io7m.rivershark.product.xml/src/main/java/com/io7m/rivershark/product/xml/RSProductParsers.java:166-185 | parsing a serialised optional hash gives it back |
| ProductRoundTrip.DependencyRoundTrip | com.io7m.rivershark.product.xml/src/main/java/com/io7m/rivershark/product/xml/RSProductParsers.java:156-215 | parsing a serialised dependency gives it back |
| ProductRoundTrip.DependenciesRoundTrip | com.io7m.rivershark.product.xml/src/main/java/com/io7m/rivershark/product/xml/RSProductParsers.java:138-154 | parsing serialised dependencies gives the same list |
| ProductRoundTrip.MetadataRoundTrip | com.io7m.rivershark.product.xml/src/main/java/com/io7m/rivershark/product/xml/RSProductParsers.java:128-136 | parsing serialised metadata gives the same map |
| ProductRoundTrip.MetadataRoundTripAt | com.io7m.rivershark.product.xml/src/main/java/com/io7m/rivershark/product/xml/RSProductParsers.java:128-136 | each key of serialised metadata parses back to its original value, and no other key appears |
| ProductRoundTrip.ProductRoundTrip | com.io7m.rivershark.product.xml/src/main/java/com/io7m/rivershark/product/xml/RSProductParsers.java:117-126 | parsing a serialised product gives the product |
| ProductRoundTrip.ExecuteRoundTrip | com.io7m.rivershark.product.xml/src/main/java/com/io7m/rivershark/product/xml/RSProductParsers.java:235-291 | a serialised product that unmarshals parses back to itself, whatever statuses were reported |
| RepositoryConfiguration.NewBuilder | com.io7m.rivershark.obrcontrol.api/src/main/java/com/io7m/rivershark/obrcontrol/api/RSRepositoryConfiguration.java:50-56 | a new builder holds the absolute directory and the default name "Rivershark" (lines 88-91) |
| RepositoryConfiguration.SetDirectory | com.io7m.rivershark.obrcontrol.api/src/main/java/com/io7m/rivershark/obrcontrol/api/RSRepositoryConfiguration.java:102-107 | the directory is replaced as given and the name is kept |
| RepositoryConfiguration.SetName | com.io7m.rivershark.obrcontrol.api/src/main/java/com/io7m/rivershark/obrcontrol/api/RSRepositoryConfiguration.java:117-122 | the name is replaced and the directory is kept |
| RepositoryConfiguration.Build | com.io7m.rivershark.obrcontrol.api/src/main/java/com/io7m/rivershark/obrcontrol/api/RSRepositoryConfiguration.java:128-134 | the configuration holds the builder's current directory and name |
| RepositoryConfiguration.BuildDefaults | com.io7m.rivershark.obrcontrol.api/src/main/java/com/io7m/rivershark/obrcontrol/api/RSRepositoryConfiguration.java:85-92 | building at once gives the absolute directory and the default name |
| RepositoryConfiguration.SetDirectoryOverrides | com.io7m.rivershark.obrcontrol.api/src/main/java/com/io7m/rivershark/obrcontrol/api/RSRepositoryConfiguration.java:102-107 | the last directory set is built, even when it is relative |
| RepositoryConfiguration.SettersCommute | com.io7m.rivershark.obrcontrol.api/src/main/java/com/io7m/rivershark/obrcontrol/api/RSRepositoryConfiguration.java:102-122 | the two setters can be applied in either order |
| LauncherConfiguration.IndexKey | com.io7m.rivershark.launcher.api/src/main/java/com/io7m/rivershark/launcher/api/RSLauncherConfiguration.java:94-95 | a numbered key starts with its family's prefix |
| LauncherConfiguration.IndexKeyInjective | com.io7m.rivershark.launcher.api/src/main/java/com/io7m/rivershark/launcher/api/RSLauncherConfiguration.java:93-103 | distinct indices give distinct keys, so no entry overwrites another |
| LauncherConfiguration.PrefixesExclusive | com.io7m.rivershark.launcher.api/src/main/java/com/io7m/rivershark/launcher/api/RSLauncherConfiguration.java:81-112 | keys of prefixes that differ at some position never collide |
| LauncherConfiguration.NewBuilder | com.io7m.rivershark.launcher.api/src/main/java/com/io7m/rivershark/launcher/api/RSLauncherConfiguration.java:362-373 | a new builder holds the absolute runtime directory and empty collections |
| LauncherConfiguration.AddParameter | com.io7m.rivershark.launcher.api/src/main/java/com/io7m/rivershark/launcher/api/RSLauncherConfiguration.java:400-409 | the key maps to the value; every other parameter and field is unchanged |
| LauncherConfiguration.AddParameters | com.io7m.rivershark.launcher.api/src/main/java/com/io7m/rivershark/launcher/api/RSLauncherConfiguration.java:383-389 | `putAll`: the keys are the union, the new values win, others keep theirs |
| LauncherConfiguration.AddJavaModule | com.io7m.rivershark.launcher.api/src/main/java/com/io7m/rivershark/launcher/api/RSLauncherConfiguration.java:419-427 | the absolute path is appended, the earlier modules and other fields are unchanged |
| LauncherConfiguration.AddOSGIBundle | com.io7m.rivershark.launcher.api/src/main/java/com/io7m/rivershark/launcher/api/RSLauncherConfiguration.java:437-445 | the absolute path is appended, the earlier bundles and other fields are unchanged |
| LauncherConfiguration.AddSunburstPackage | com.io7m.rivershark.launcher.api/src/main/java/com/io7m/rivershark/launcher/api/RSLauncherConfiguration.java:456-463 | the package is added to the set; nothing else changes |
| LauncherConfiguration.SetRuntimeDirectory | com.io7m.rivershark.launcher.api/src/main/java/com/io7m/rivershark/launcher/api/RSLauncherConfiguration.java:488-495 | the runtime directory becomes the absolute path; nothing else changes |
| LauncherConfiguration.Build | com.io7m.rivershark.launcher.api/src/main/java/com/io7m/rivershark/launcher/api/RSLauncherConfiguration.java:469-478 | the configuration holds copies of the builder's fields |
| LauncherConfiguration.Equals | com.io7m.rivershark.launcher.api/src/main/java/com/io7m/rivershark/launcher/api/RSLauncherConfiguration.java:118-132 | `equals` holds exactly for configurations with the same five fields |
| LauncherConfiguration.IndexedProperties | com.io7m.rivershark.launcher.api/src/main/java/com/io7m/rivershark/launcher/api/RSLauncherConfiguration.java:93-112 | entry i of a list is stored under `prefix + i`, and these are the only keys written |
| LauncherConfiguration.IndexKeysDistinct | com.io7m.rivershark.launcher.api/src/main/java/com/io7m/rivershark/launcher/api/RSLauncherConfiguration.java:94-95 | two different list indices never give the same `prefix + index` key |
| LauncherConfiguration.ToProperties | com.io7m.rivershark.launcher.api/src/main/java/com/io7m/rivershark/launcher/api/RSLauncherConfiguration.java:79-115 | the runtime directory key holds the configuration's directory, and every key written belongs to one of the five families (its per-family content is stated by `ToPropertiesLookup`) |
| LauncherConfiguration.ParameterProperties | com.io7m.rivershark.launcher.api/src/main/java/com/io7m/rivershark/launcher/api/RSLauncherConfiguration.java:82-86 | each parameter is stored under `rivershark.parameters.` plus its key, and nothing else is written |
| LauncherConfiguration.ShowAll | com.io7m.rivershark.launcher.api/src/main/java/com/io7m/rivershark/launcher/api/RSLauncherConfiguration.java:108-112 | each sorted package is written as its string form, in order |
| LauncherConfiguration.LoadIndexedFrom | com.io7m.rivershark.launcher.api/src/main/java/com/io7m/rivershark/launcher/api/RSLauncherConfiguration.java:269-285 | from a start index, reads consecutive numbered keys and stops at the first missing one (or at `Integer.MAX_VALUE`) |
| LauncherConfiguration.LoadIndexed | com.io7m.rivershark.launcher.api/src/main/java/com/io7m/rivershark/launcher/api/RSLauncherConfiguration.java:311-327 | the values are those of keys 0, 1, … up to the first missing index |
| LauncherConfiguration.LoadIndexedExactly | com.io7m.rivershark.launcher.api/src/main/java/com/io7m/rivershark/launcher/api/RSLauncherConfiguration.java:292-303 | a list whose keys are present, followed by a missing key, is what the loader reads |
| LauncherConfiguration.AddJavaModules | com.io7m.rivershark.launcher.api/src/main/java/com/io7m/rivershark/launcher/api/RSLauncherConfiguration.java:279-284 | each value read becomes a module path made absolute and normalised, appended in order |
| LauncherConfiguration.AddOSGIBundles | com.io7m.rivershark.launcher.api/src/main/java/com/io7m/rivershark/launcher/api/RSLauncherConfiguration.java:321-326 | each value read becomes a bundle path made absolute and normalised, appended in order |
| LauncherConfiguration.AddSunburstPackages | com.io7m.rivershark.launcher.api/src/main/java/com/io7m/rivershark/launcher/api/RSLauncherConfiguration.java:288-304 | succeeds exactly when every value parses; a failure names the FIRST value that does not parse, every earlier value having parsed; on success the set gains exactly the parsed packages and nothing else changes |
| LauncherConfiguration.LoadedPaths | com.io7m.rivershark.launcher.api/src/main/java/com/io7m/rivershark/launcher/api/RSLauncherConfiguration.java:279-284 | the loaded paths are the indexed values, in order, each made absolute and normalised, then made absolute again by the builder |
| LauncherConfiguration.ParsedPackages | com.io7m.rivershark.launcher.api/src/main/java/com/io7m/rivershark/launcher/api/RSLauncherConfiguration.java:293-303 | the packages loaded are exactly those some indexed value parses to |
| LauncherConfiguration.AddJavaModulesToEmpty | com.io7m.rivershark.launcher.api/src/main/java/com/io7m/rivershark/launcher/api/RSLauncherConfiguration.java:279-284 | into an empty module list the loop adds exactly the loaded paths, in order |
| LauncherConfiguration.AddOSGIBundlesToEmpty | com.io7m.rivershark.launcher.api/src/main/java/com/io7m/rivershark/launcher/api/RSLauncherConfiguration.java:321-326 | into an empty bundle list the loop adds exactly the loaded paths, in order |
| LauncherConfiguration.AddSunburstPackagesToEmpty | com.io7m.rivershark.launcher.api/src/main/java/com/io7m/rivershark/launcher/api/RSLauncherConfiguration.java:293-303 | into an empty package set the loop adds exactly the parsed packages |
| LauncherConfiguration.AddParametersToEmpty | com.io7m.rivershark.launcher.api/src/main/java/com/io7m/rivershark/launcher/api/RSLauncherConfiguration.java:383-389 | adding parameters to a builder that has none gives exactly those parameters |
| LauncherConfiguration.StripParameters | com.io7m.rivershark.launcher.api/src/main/java/com/io7m/rivershark/launcher/api/RSLauncherConfiguration.java:220-233 | the parameters are exactly the keys under `rivershark.parameters.` with the prefix removed, with their values |
| LauncherConfiguration.ParseFile | com.io7m.rivershark.launcher.api/src/main/java/com/io7m/rivershark/launcher/api/RSLauncherConfiguration.java:192-218 | succeeds exactly when the runtime directory key exists and every sunburst value parses; a bad package fails first and names the first indexed sunburst value that does not parse, and otherwise a missing directory is reported (lines 241-249). On success the directory is the key's value made absolute, the parameters are the stripped `rivershark.parameters.*` entries, the modules and bundles are the indexed values resolved in order, and the sunburst packages are exactly those the indexed values parse to |
| LauncherConfiguration.LoadFamilies | com.io7m.rivershark.launcher.api/src/main/java/com/io7m/rivershark/launcher/api/RSLauncherConfiguration.java:210-213 | the loaders fail exactly when a sunburst value does not parse, and the failure names the first such value |
| LauncherConfiguration.FamiliesExclusive | com.io7m.rivershark.launcher.api/src/main/java/com/io7m/rivershark/launcher/api/RSLauncherConfiguration.java:79-115 | no key belongs to two of the five key families |
| LauncherConfiguration.ToPropertiesLookup | com.io7m.rivershark.launcher.api/src/main/java/com/io7m/rivershark/launcher/api/RSLauncherConfiguration.java:79-115 | within each family, `toProperties` holds exactly that family's entries: later families do not overwrite earlier ones |
| LauncherConfiguration.IndexedReadBack | com.io7m.rivershark.launcher.api/src/main/java/com/io7m/rivershark/launcher/api/RSLauncherConfiguration.java:311-327 | a list written under a prefix is read back unchanged |
| LauncherConfiguration.StripParameterProperties | com.io7m.rivershark.launcher.api/src/main/java/com/io7m/rivershark/launcher/api/RSLauncherConfiguration.java:220-233 | parameters written with the prefix are read back as the same map |
| LauncherConfiguration.LoadedCanonicalPath | com.io7m.rivershark.launcher.api/src/main/java/com/io7m/rivershark/launcher/api/RSLauncherConfiguration.java:279-284 | an absolute, normalised path survives being loaded |
| LauncherConfiguration.AddCanonicalModules | com.io7m.rivershark.launcher.api/src/main/java/com/io7m/rivershark/launcher/api/RSLauncherConfiguration.java:264-286 | canonical module paths are appended unchanged |
| LauncherConfiguration.AddCanonicalBundles | com.io7m.rivershark.launcher.api/src/main/java/com/io7m/rivershark/launcher/api/RSLauncherConfiguration.java:306-328 | canonical bundle paths are appended unchanged |
| LauncherConfiguration.SunburstReadBack | com.io7m.rivershark.launcher.api/src/main/java/com/io7m/rivershark/launcher/api/RSLauncherConfiguration.java:288-304 | packages written sorted are parsed back to the same set, given that `parse` inverts `toString` |
| LauncherConfiguration.SortedPackagesParse | com.io7m.rivershark.launcher.api/src/main/java/com/io7m/rivershark/launcher/api/RSLauncherConfiguration.java:105-112 | every package written from the sorted list parses back to the package at that position, given that `parse` inverts `toString` |
| LauncherConfiguration.AddParsedPackages | com.io7m.rivershark.launcher.api/src/main/java/com/io7m/rivershark/launcher/api/RSLauncherConfiguration.java:293-303 | reading a list of strings that each parse to a package adds exactly those packages to the builder |
| LauncherConfiguration.ToPropertiesReadBack | com.io7m.rivershark.launcher.api/src/main/java/com/io7m/rivershark/launcher/api/RSLauncherConfiguration.java:79-115 | every family `toProperties` writes is read back by its loader |
| LauncherConfiguration.LoadFamiliesReadBack | com.io7m.rivershark.launcher.api/src/main/java/com/io7m/rivershark/launcher/api/RSLauncherConfiguration.java:210-213 | given the families of a recoverable configuration, the loaders rebuild its directory, paths and packages |
| LauncherConfiguration.ParseFileReadBack | com.io7m.rivershark.launcher.api/src/main/java/com/io7m/rivershark/launcher/api/RSLauncherConfiguration.java:192-218 | with the families and parameters of a configuration present, `parseFile` returns that configuration |
| LauncherConfiguration.ParseFileToProperties | com.io7m.rivershark.tests/src/test/java/com/io7m/rivershark/tests/RSLauncherConfigurationTest.java:94-119 | `parseFile(toProperties(c)) == c` for every configuration with absolute, normalised paths and packages whose string form parses back |
| LauncherConfiguration.LoadIndexedIgnoresAfterGap | com.io7m.rivershark.launcher.api/src/main/java/com/io7m/rivershark/launcher/api/RSLauncherConfiguration.java:275-277 | an entry numbered after a missing index is never read |
| Repository.InvalidMessage | com.io7m.rivershark.obrcontrol/src/main/java/com/io7m/rivershark/obrcontrol/internal/RSRepository.java:192-217 | the message of a missing file is the file system's, of an unreadable one the reader's; an unparseable version and a missing identity start with `File '<file>' `, and an unparseable version ends with the parser's message |
| Repository.MissingIdentityMessage | com.io7m.rivershark.obrcontrol/src/main/java/com/io7m/rivershark/obrcontrol/internal/RSRepository.java:214-218 | the error for a file that is not a bundle names the missing `osgi.identity` |
| Repository.UnparseableVersionMessage | com.io7m.rivershark.obrcontrol/src/main/java/com/io7m/rivershark/obrcontrol/internal/RSRepository.java:192-200 | the message for a version that does not parse quotes the version text; with the prefix and suffix `InvalidMessage` states, it names the file, the text and the parser's message |
| Repository.IdentityAttributes | com.io7m.rivershark.obrcontrol/src/main/java/com/io7m/rivershark/obrcontrol/internal/RSRepository.java:171-178 | the attributes scanned are exactly those of the capabilities in the `osgi.identity` namespace (their order is stated by `IdentityAttributesSingle` and `IdentityAttributesAppend`) |
| Repository.IdentityAttributesSingle | com.io7m.rivershark.obrcontrol/src/main/java/com/io7m/rivershark/obrcontrol/internal/RSRepository.java:177-178 | one capability contributes its own attributes, in order, when it is in the identity namespace, and nothing otherwise |
| Repository.IdentityAttributesAppend | com.io7m.rivershark.obrcontrol/src/main/java/com/io7m/rivershark/obrcontrol/internal/RSRepository.java:177-178 | capabilities are visited in order: the attributes of a concatenation are those of its parts, concatenated |
| Repository.Scan | com.io7m.rivershark.obrcontrol/src/main/java/com/io7m/rivershark/obrcontrol/internal/RSRepository.java:177-212 | the loop fails only with an unparseable version or a missing identity |
| Repository.ScanWitnesses | com.io7m.rivershark.obrcontrol/src/main/java/com/io7m/rivershark/obrcontrol/internal/RSRepository.java:177-212 | a rejected version is the text of a `version` attribute the parser refuses, with the parser's message; an accepted name was held on entry or is the value of an `osgi.identity` attribute |
| Repository.LastValue | com.io7m.rivershark.obrcontrol/src/main/java/com/io7m/rivershark/obrcontrol/internal/RSRepository.java:184-187 | the value kept for a key is that of its last occurrence, and there is one exactly when the key occurs |
| Repository.FirstBadVersion | com.io7m.rivershark.obrcontrol/src/main/java/com/io7m/rivershark/obrcontrol/internal/RSRepository.java:188-201 | the position of the first `version` attribute the parser rejects, if any |
| Repository.FirstBadVersionStep | com.io7m.rivershark.obrcontrol/src/main/java/com/io7m/rivershark/obrcontrol/internal/RSRepository.java:188-201 | a good first attribute does not change which version attribute is first bad |
| Repository.SpecStepIdentity | com.io7m.rivershark.obrcontrol/src/main/java/com/io7m/rivershark/obrcontrol/internal/RSRepository.java:185-187 | an `osgi.identity` attribute only replaces the identifier seen so far |
| Repository.SpecStepVersion | com.io7m.rivershark.obrcontrol/src/main/java/com/io7m/rivershark/obrcontrol/internal/RSRepository.java:188-190 | a parseable `version` attribute only replaces the version seen so far |
| Repository.SpecStepOther | com.io7m.rivershark.obrcontrol/src/main/java/com/io7m/rivershark/obrcontrol/internal/RSRepository.java:203-205 | any other attribute changes nothing |
| Repository.ScanMatchesSpec | com.io7m.rivershark.obrcontrol/src/main/java/com/io7m/rivershark/obrcontrol/internal/RSRepository.java:177-212 | the attribute loop equals the declarative rule: the first bad version fails, otherwise the last identity and last version win |
| Repository.LastVersionParses | com.io7m.rivershark.obrcontrol/src/main/java/com/io7m/rivershark/obrcontrol/internal/RSRepository.java:188-201 | with no bad version, the last version attribute parses |
| Repository.FindIdentity | com.io7m.rivershark.obrcontrol/src/main/java/com/io7m/rivershark/obrcontrol/internal/RSRepository.java:166-219 | fails with an unparseable version exactly when some version attribute is bad; otherwise fails as "not a bundle" exactly when the name or version is missing; on success gives the last name and the last version parsed |
| Repository.ScanIgnoresOtherAttributes | com.io7m.rivershark.obrcontrol/src/main/java/com/io7m/rivershark/obrcontrol/internal/RSRepository.java:203-205 | inserting an unrelated attribute anywhere does not change the outcome |
| Repository.IdentityAttributesIgnoreOtherNamespaces | com.io7m.rivershark.obrcontrol/src/main/java/com/io7m/rivershark/obrcontrol/internal/RSRepository.java:171-172 | capabilities of other namespaces contribute nothing |
| Repository.CheckFile | com.io7m.rivershark.obrcontrol/src/main/java/com/io7m/rivershark/obrcontrol/internal/RSRepository.java:147-159 | a failure names the file; a missing file fails as such; a success implies the file exists |
| Repository.CheckFileValid | com.io7m.rivershark.obrcontrol/src/main/java/com/io7m/rivershark/obrcontrol/internal/RSRepository.java:147-159 | a file is accepted exactly when it exists, is readable as a resource and has an identity, and its identifier is that identity |
| Repository.CheckAll | com.io7m.rivershark.obrcontrol/src/main/java/com/io7m/rivershark/obrcontrol/internal/RSRepository.java:142-160 | the map holds exactly the valid files with their identities; failures are empty exactly when every file is valid |
| Repository.CheckAllCollectsFailures | com.io7m.rivershark.obrcontrol/src/main/java/com/io7m/rivershark/obrcontrol/internal/RSRepository.java:157-159 | every file's failure is recorded, and nothing else is |
| Repository.CheckAllFirstFailure | com.io7m.rivershark.obrcontrol/src/main/java/com/io7m/rivershark/obrcontrol/internal/RSRepository.java:157-162 | the first failure recorded is that of the first invalid file, which is the one reported |
| Repository.CheckAllOutcomes | com.io7m.rivershark.obrcontrol/src/main/java/com/io7m/rivershark/obrcontrol/internal/RSRepository.java:147-159 | the failures collected are the errors of the files that fail, in input order |
| Repository.CheckAllHead | com.io7m.rivershark.obrcontrol/src/main/java/com/io7m/rivershark/obrcontrol/internal/RSRepository.java:147-159 | a valid first file records no failure; an invalid one records its failure before those of the rest |
| Repository.CheckBundles | com.io7m.rivershark.obrcontrol/src/main/java/com/io7m/rivershark/obrcontrol/internal/RSRepository.java:138-164 | succeeds exactly when every file is valid, mapping each file of the batch to its identity; otherwise throws with all failures |
| Repository.ErrorMessage | com.io7m.rivershark.obrcontrol/src/main/java/com/io7m/rivershark/obrcontrol/internal/RSRepository.java:157-162 | a rejected batch reports the first failure's message; a failed file operation reports the file system's message |
| Repository.Create | com.io7m.rivershark.obrcontrol/src/main/java/com/io7m/rivershark/obrcontrol/internal/RSRepository.java:96-128 | the four paths sit in the configured directory; the base directory exists and the lock file is empty; `bundles/` and the index are untouched |
| Repository.CreatePathsDistinct | com.io7m.rivershark.obrcontrol/src/main/java/com/io7m/rivershark/obrcontrol/internal/RSRepository.java:103-110 | the lock, index, staging index and bundles paths are pairwise distinct |
| Repository.IsJarFile | com.io7m.rivershark.obrcontrol/src/main/java/com/io7m/rivershark/obrcontrol/internal/RSRepository.java:130-136 | a name is taken for the index exactly when it ends in `.jar`; its partners `StagingNameNotJar` and `IndexHasNoStagingFiles` prove that a `.jar.tmp` staging file is never taken |
| Repository.JarName | com.io7m.rivershark.obrcontrol/src/main/java/com/io7m/rivershark/obrcontrol/internal/RSRepository.java:272-273 | an installed bundle's name is a `.jar` name |
| Repository.TmpName | com.io7m.rivershark.obrcontrol/src/main/java/com/io7m/rivershark/obrcontrol/internal/RSRepository.java:274-275 | the staging name is the jar name plus `.tmp` |
| Repository.StagingNameNotJar | com.io7m.rivershark.obrcontrol/src/main/java/com/io7m/rivershark/obrcontrol/internal/RSRepository.java:245-246 | a staging file is never taken for a jar by the index filter |
| Repository.JarNameNotStaging | com.io7m.rivershark.obrcontrol/src/main/java/com/io7m/rivershark/obrcontrol/internal/RSRepository.java:272-275 | no bundle's jar name is any bundle's staging name |
| Repository.Place | com.io7m.rivershark.obrcontrol/src/main/java/com/io7m/rivershark/obrcontrol/internal/RSRepository.java:267-292 | after a copy the jar holds the source bytes, the staging file is gone, and every other file is unchanged |
| Repository.PlaceAll | com.io7m.rivershark.obrcontrol/src/main/java/com/io7m/rivershark/obrcontrol/internal/RSRepository.java:231-233 | after the copies every copied bundle has its `.jar` file and no `.jar.tmp` staging file is left |
| Repository.PlaceKeepsNames | com.io7m.rivershark.obrcontrol/src/main/java/com/io7m/rivershark/obrcontrol/internal/RSRepository.java:267-292 | placing one more copy keeps the earlier copies' jar files and brings no staging file back |
| Repository.LastWriter | com.io7m.rivershark.obrcontrol/src/main/java/com/io7m/rivershark/obrcontrol/internal/RSRepository.java:231-233 | the last copy of a batch written to a name, if any |
| Repository.StagedNotWritten | com.io7m.rivershark.obrcontrol/src/main/java/com/io7m/rivershark/obrcontrol/internal/RSRepository.java:272-275 | no copy writes a staging name as its jar |
| Repository.LastCopyStep | com.io7m.rivershark.obrcontrol/src/main/java/com/io7m/rivershark/obrcontrol/internal/RSRepository.java:231-233 | how one more copy changes the last writer and the staged names |
| Repository.PlaceAllAt | com.io7m.rivershark.obrcontrol/src/main/java/com/io7m/rivershark/obrcontrol/internal/RSRepository.java:231-233 | after the copy loop, a name holds its last writer's bytes; a staged name with no writer is gone; any other file is unchanged |
| Repository.PlaceAllIdempotent | com.io7m.rivershark.obrcontrol/src/main/java/com/io7m/rivershark/obrcontrol/internal/RSRepository.java:231-233 | copying the same batch twice leaves the directory as copying it once |
| Repository.UniqueLastWriter | com.io7m.rivershark.obrcontrol/src/main/java/com/io7m/rivershark/obrcontrol/internal/RSRepository.java:231-233 | with distinct names, each copy is the last writer of its own name |
| Repository.PlaceAllOrderIndependent | com.io7m.rivershark.obrcontrol/src/main/java/com/io7m/rivershark/obrcontrol/internal/RSRepository.java:231-233 | with distinct names, the order of the copies does not matter |
| Repository.SameStaged | com.io7m.rivershark.obrcontrol/src/main/java/com/io7m/rivershark/obrcontrol/internal/RSRepository.java:274-278 | batches with the same copies stage the same names |
| Repository.SameLastWriter | com.io7m.rivershark.obrcontrol/src/main/java/com/io7m/rivershark/obrcontrol/internal/RSRepository.java:231-233 | batches with the same uniquely named copies have the same writer for every name |
| Repository.WriterTransfers | com.io7m.rivershark.obrcontrol/src/main/java/com/io7m/rivershark/obrcontrol/internal/RSRepository.java:231-233 | a name written by a batch is written by any batch containing its copies |
| Repository.JarFiles | com.io7m.rivershark.obrcontrol/src/main/java/com/io7m/rivershark/obrcontrol/internal/RSRepository.java:244-248 | the index lists exactly the `.jar` files of the directory, with their contents |
| Repository.GenerateIndex | com.io7m.rivershark.obrcontrol/src/main/java/com/io7m/rivershark/obrcontrol/internal/RSRepository.java:241-265 | fails with an I/O error on `bundles/` exactly when it is missing; otherwise the index names the repository, its base URI and its jar files, the staging index is gone, and nothing else changes |
| Repository.GenerateIndexIdempotent | com.io7m.rivershark.obrcontrol/src/main/java/com/io7m/rivershark/obrcontrol/internal/RSRepository.java:241-265 | regenerating the index changes nothing |
| Repository.IndexHasNoStagingFiles | com.io7m.rivershark.obrcontrol/src/main/java/com/io7m/rivershark/obrcontrol/internal/RSRepository.java:245-246 | no staging file is ever listed in the index |
| Repository.Copies | com.io7m.rivershark.obrcontrol/src/main/java/com/io7m/rivershark/obrcontrol/internal/RSRepository.java:231-233 | one copy per file in iteration order, with its identity and bytes |
| Repository.CopyBatch | com.io7m.rivershark.obrcontrol/src/main/java/com/io7m/rivershark/obrcontrol/internal/RSRepository.java:282 | `bundles/` exists after the loop unless it was missing and nothing was copied |
| Repository.Install | com.io7m.rivershark.obrcontrol/src/main/java/com/io7m/rivershark/obrcontrol/internal/RSRepository.java:221-239 | the batch is rejected exactly when some file is invalid, carrying every failure; an I/O error concerns `bundles/`; success keeps the lock and clears the staging index |
| Repository.BatchCopies | com.io7m.rivershark.obrcontrol/src/main/java/com/io7m/rivershark/obrcontrol/internal/RSRepository.java:228-233 | an accepted batch copies each file with the identity its check found |
| Repository.InstallOutcome | com.io7m.rivershark.obrcontrol/src/main/java/com/io7m/rivershark/obrcontrol/internal/RSRepository.java:221-239 | after success every file was valid, the bundles are the batch copied in, the index lists their jars, and nothing else changed |
| Repository.InstallIoErrorIff | com.io7m.rivershark.obrcontrol/src/main/java/com/io7m/rivershark/obrcontrol/internal/RSRepository.java:241-244 | install fails on I/O exactly when the batch is empty and `bundles/` does not exist |
| Repository.FreshRepositoryEmptyInstall | com.io7m.rivershark.obrcontrol/src/main/java/com/io7m/rivershark/obrcontrol/internal/RSRepository.java:96-128 | an empty batch installed into a freshly created repository fails on the missing `bundles/` |
| Repository.InstallErrorMessage | com.io7m.rivershark.obrcontrol/src/main/java/com/io7m/rivershark/obrcontrol/internal/RSRepository.java:157-162 | the message of a rejected batch is that of its first invalid file |
| Repository.InstallPlacesBundle | com.io7m.rivershark.obrcontrol/src/main/java/com/io7m/rivershark/obrcontrol/internal/RSRepository.java:221-239 | each accepted file is installed under its canonical name and listed in the index, holding the bytes of a batch file with that name: its own when names are unique |
| Repository.InstallKeepsOtherFiles | com.io7m.rivershark.obrcontrol/src/main/java/com/io7m/rivershark/obrcontrol/internal/RSRepository.java:221-239 | files of other bundles survive an install unchanged, and are indexed exactly when they are jars |
| Repository.InstallRemovesStagingFiles | com.io7m.rivershark.obrcontrol/src/main/java/com/io7m/rivershark/obrcontrol/internal/RSRepository.java:284-291 | no staging file of the batch is left behind |
| Repository.InstallIdempotent | com.io7m.rivershark.obrcontrol/src/main/java/com/io7m/rivershark/obrcontrol/internal/RSRepository.java:221-239 | installing the same batch again changes nothing |
| Repository.BatchCopiesUnique | com.io7m.rivershark.obrcontrol/src/main/java/com/io7m/rivershark/obrcontrol/internal/RSRepository.java:231-233 | distinct files with distinct identities give copies with distinct names |
| Repository.BatchCopiesSameElements | com.io7m.rivershark.obrcontrol/src/main/java/com/io7m/rivershark/obrcontrol/internal/RSRepository.java:231 | every enumeration of the batch gives the same copies |
| Repository.BatchCopiesIncluded | com.io7m.rivershark.obrcontrol/src/main/java/com/io7m/rivershark/obrcontrol/internal/RSRepository.java:231 | every copy made from one enumeration of the batch is also made from any other enumeration |
| Repository.InstallOrderIndependent | com.io7m.rivershark.obrcontrol/src/main/java/com/io7m/rivershark/obrcontrol/internal/RSRepository.java:231 | with distinct names, the outcome does not depend on the `HashMap` iteration order |
| DependencyCollector.Put | com.io7m.rivershark.maven_plugin/src/main/java/com/io7m/rivershark/maven_plugin/RSDependencyCollector.java:128 | the artifact is stored under its coordinates, and no other entry changes |
| DependencyCollector.IsDesirable | com.io7m.rivershark.maven_plugin/src/main/java/com/io7m/rivershark/maven_plugin/RSDependencyCollector.java:136-141 | an artifact is kept exactly when its type is `jar` or `bundle`; its partners `Desirables` (only desirable artifacts are reached) and `UndesirableSubtreeSkipped` (an undesirable node's subtree is never visited) state what this means for the walk |
| DependencyCollector.Coordinates | com.io7m.rivershark.maven_plugin/src/main/java/com/io7m/rivershark/maven_plugin/RSDependencyCollector.java:143-152 | `group:artifact:version`; its layout is stated by `CoordinatesShape`, and `CoordinatesDetermineArtifact` proves that equal coordinates mean equal group, artifact and version when the first two hold no `:` |
| DependencyCollector.CoordinatesShape | com.io7m.rivershark.maven_plugin/src/main/java/com/io7m/rivershark/maven_plugin/RSDependencyCollector.java:143-152 | the coordinates are the group, `:`, the artifact, `:` and the version, in that order |
| DependencyCollector.FirstColon | com.io7m.rivershark.maven_plugin/src/main/java/com/io7m/rivershark/maven_plugin/RSDependencyCollector.java:146-151 | in coordinates whose first part has no colon, the first colon ends that part |
| DependencyCollector.SplitAtColon | com.io7m.rivershark.maven_plugin/src/main/java/com/io7m/rivershark/maven_plugin/RSDependencyCollector.java:146-151 | joining with a colon is injective when the left part has no colon |
| DependencyCollector.CoordinatesDetermineArtifact | com.io7m.rivershark.maven_plugin/src/main/java/com/io7m/rivershark/maven_plugin/RSDependencyCollector.java:143-152 | for colon-free group and artifact ids, equal coordinates exactly when group, artifact and version agree |
| DependencyCollector.LaterDuplicateWins | com.io7m.rivershark.maven_plugin/src/main/java/com/io7m/rivershark/maven_plugin/RSDependencyCollector.java:93-103 | of two artifacts with the same coordinates, the later one is kept |
| DependencyCollector.LastWith | com.io7m.rivershark.maven_plugin/src/main/java/com/io7m/rivershark/maven_plugin/RSDependencyCollector.java:93-97 | the last desirable artifact with given coordinates, if any |
| DependencyCollector.AddArtifacts | com.io7m.rivershark.maven_plugin/src/main/java/com/io7m/rivershark/maven_plugin/RSDependencyCollector.java:93-97 | keys gain exactly the desirable artifacts' coordinates; each holds its last desirable artifact, or its old value |
| DependencyCollector.Desirables | com.io7m.rivershark.maven_plugin/src/main/java/com/io7m/rivershark/maven_plugin/RSDependencyCollector.java:136-141 | every artifact reached in a walk is a `jar` or `bundle` |
| DependencyCollector.DesirablesOf | com.io7m.rivershark.maven_plugin/src/main/java/com/io7m/rivershark/maven_plugin/RSDependencyCollector.java:130-132 | every artifact reached from children is a `jar` or `bundle` |
| DependencyCollector.CollectNode | com.io7m.rivershark.maven_plugin/src/main/java/com/io7m/rivershark/maven_plugin/RSDependencyCollector.java:123-134 | the walk from a node removes no entry and keeps every entry a desirable artifact under its own coordinates |
| DependencyCollector.CollectChildren | com.io7m.rivershark.maven_plugin/src/main/java/com/io7m/rivershark/maven_plugin/RSDependencyCollector.java:130-132 | the walk over the children removes no entry and keeps every entry a desirable artifact under its own coordinates |
| DependencyCollector.CollectNodeSpec | com.io7m.rivershark.maven_plugin/src/main/java/com/io7m/rivershark/maven_plugin/RSDependencyCollector.java:123-134 | the walk keeps every old key, adds every reachable desirable artifact, and every entry is old or such an artifact under its coordinates |
| DependencyCollector.CollectChildrenSpec | com.io7m.rivershark.maven_plugin/src/main/java/com/io7m/rivershark/maven_plugin/RSDependencyCollector.java:130-132 | the same for a sequence of children |
| DependencyCollector.Collect | com.io7m.rivershark.maven_plugin/src/main/java/com/io7m/rivershark/maven_plugin/RSDependencyCollector.java:81-121 | the map returned is a copy of the collector's results |
| DependencyCollector.AddArtifactsSet | com.io7m.rivershark.maven_plugin/src/main/java/com/io7m/rivershark/maven_plugin/RSDependencyCollector.java:93-103 | the entries added are exactly the desirable artifacts of the collection under their coordinates |
| DependencyCollector.CollectFlatSpec | com.io7m.rivershark.maven_plugin/src/main/java/com/io7m/rivershark/maven_plugin/RSDependencyCollector.java:84-103 | after clearing, the keys are exactly the coordinates of the desirable project, resolved and attached artifacts, each holding one of them |
| DependencyCollector.CollectSpec | com.io7m.rivershark.maven_plugin/src/main/java/com/io7m/rivershark/maven_plugin/RSDependencyCollector.java:81-121 | the result is well keyed, its keys are exactly the coordinates of the desirable sources, and every value is a source |
| DependencyCollector.CollectForgetsEarlierResults | com.io7m.rivershark.maven_plugin/src/main/java/com/io7m/rivershark/maven_plugin/RSDependencyCollector.java:84 | results of an earlier call never leak into a later one |
| DependencyCollector.DesirablesOfIndex | com.io7m.rivershark.maven_plugin/src/main/java/com/io7m/rivershark/maven_plugin/RSDependencyCollector.java:130-132 | an artifact is reached from children exactly when it is reached from one of them |
| DependencyCollector.ReachedHasPath | com.io7m.rivershark.maven_plugin/src/main/java/com/io7m/rivershark/maven_plugin/RSDependencyCollector.java:123-134 | every collected graph artifact lies at the end of some path |
| DependencyCollector.PathIsReached | com.io7m.rivershark.maven_plugin/src/main/java/com/io7m/rivershark/maven_plugin/RSDependencyCollector.java:123-134 | the artifact at the end of a path through desirable nodes is collected |
| DependencyCollector.DesirablesByPath | com.io7m.rivershark.maven_plugin/src/main/java/com/io7m/rivershark/maven_plugin/RSDependencyCollector.java:123-134 | a graph artifact is collected exactly when a path of `jar`/`bundle` nodes leads from the root to it |
| DependencyCollector.UndesirableSubtreeSkipped | com.io7m.rivershark.maven_plugin/src/main/java/com/io7m/rivershark/maven_plugin/RSDependencyCollector.java:127-133 | the children of an undesirable node are never visited: replacing them changes nothing |
| DependencyCollector.OverlayAssociative | com.io7m.rivershark.maven_plugin/src/main/java/com/io7m/rivershark/maven_plugin/RSDependencyCollector.java:128 | successive `put` overlays compose |
| DependencyCollector.CollectChildrenOverlay | com.io7m.rivershark.maven_plugin/src/main/java/com/io7m/rivershark/maven_plugin/RSDependencyCollector.java:130-132 | walking children over earlier results overlays the walk from empty on them |
| DependencyCollector.CollectNodeOverlay | com.io7m.rivershark.maven_plugin/src/main/java/com/io7m/rivershark/maven_plugin/RSDependencyCollector.java:123-134 | walking a graph over earlier results overlays the walk from empty on them |
| DependencyCollector.CollectNodeIdempotent | com.io7m.rivershark.maven_plugin/src/main/java/com/io7m/rivershark/maven_plugin/RSDependencyCollector.java:123-134 | walking the same graph twice gives the result of walking it once |

## Left out

- Foreign libraries are parameters, not models:
  - the bnd `ResourceBuilder` (a file's bytes to capabilities or a failure);
  - `SimpleIndexer` (the index is its inputs: name, base URI and jar files, not XML bytes);
  - verona's `VersionParser` and `Version.toString`;
  - `SBPackageIdentifier` parse, print and order;
  - `Path.toAbsolutePath`, `normalize` and `toUri`.
- The XML documents: JAXB marshalling, the XSD schema check and the product's XML text are outside the model. The model works on the JAXB binding tree. `Execute` takes the unmarshal outcome and the reported statuses as inputs.
- The `.properties` file format and its escapes: a properties file is its key/value map. `Properties.load` and `store` are left out.
- The `FileChannel` lock taken by `install`, and concurrency in general: a single process is modelled.
- I/O faults other than a missing `bundles/` directory. This leaves out a full disk, permission errors and a failing `createDirectories`. An unreadable source file is a failure of the bundle reader.
- `Files.move` atomicity: the staging then move sequence is modelled by its end state.
- Source files are assumed to lie outside the repository's `bundles/` directory. The directory is modelled as a map of regular files.
- `RSHash.hashOf` (a `MessageDigest` over a stream) is left out.
- `RSNames`, the command-line and Maven plugin front ends, and the Felix launcher are not part of this model.
- The dependency graph builder, with its runtime-scope filter, is left out. The graph it returns is an input to `Collect`. Artifacts with `null` fields are not modelled.
- String order is Dafny's character order, which agrees with Java's UTF-16 code-unit order for characters of the Basic Multilingual Plane.
- `RSRepository.close` does nothing and has no model.
- Decimal.NatToString: the index is written with the ASCII digits `0`-`9`. `String.format("%d", …)` uses the JVM's default format locale, whose zero digit need not be `0` (Persian, for example). Under such a locale the source writes, and looks for, keys in that locale's digits. A hand-written file with ASCII-numbered keys then loads as empty lists. The model always uses ASCII digits.
- Paths.Resolve: always inserts one `/` between the directory and the name. `Path.resolve` adds no separator when the directory is the root `/` or the empty path. The repository directory is an absolute directory made by `toAbsolutePath`, and the model does not cover the root or empty directory.
- Hashes.HashCode: `Objects.hash(algorithm)` depends on the enum constant's identity hash code, which the virtual machine chooses, so that hash code is a parameter.
- Repository.JarName: the version's text comes from the version library's `toString`. Only the `.jar` suffix is stated, not the `{name}-{version}` layout.
- Repository.Install: the `HashMap` iteration order of the checked batch is a parameter (any duplicate-free enumeration of the batch). Order independence is proved only when the batch's jar names are distinct.
- ProductParsers.ParseDependency: the checks made by the domain constructors are not modelled. `RSArtifactDependencyOSGi` runs `RSNames.check` on the group and the artifact (RSArtifactDependencyOSGi.java:56-57), and `new VersionQualifier(v)` (RSProductParsers.java:223) can reject a qualifier; the JPMS and Sunburst constructors and `VersionQualifier` are not part of this model. The model succeeds on elements these checks reject, so its success condition does not match the source's.
- ProductParsers.ParseProduct: it inherits the gap of `ParseDependency` and of the version qualifier. It fails only when a hash value fails, while the source also fails on any name or qualifier the domain constructors reject.
- ProductParsers.Execute: every exception from the unmarshaller or from rebuilding ends in `ParseException("Parsing failed.", errors)` (RSProductParsers.java:288-290). A document that fails the schema, or lacks a required element so that rebuilding meets `null`, is given to the model as `unmarshalled == None`; the domain constructors' checks are not modelled, so a tree they reject succeeds here.
- ProductParsers.ParseMetadata: its own contract only bounds the size. `ParseMetadataKeys` and `ParseMetadataLastWins` state the keys and values.
- DependencyCollector.Collect: its own contract only relates the copy to the results. `CollectSpec` states the contents.
- LauncherConfiguration.ParseFileToProperties: holds only for configurations whose paths are already absolute and normalised, and whose packages print and parse back faithfully. The loaders normalise paths, which the builder does not.

=== FILE: decimal.dfy ===
/** Decimal rendering of non-negative numbers, as `String.format("%d", i)`
    writes a property index. */
module Decimal {

  predicate IsDigit(c: char) {
    '0' <= c <= '9'
  }

  function DigitChar(d: nat): (c: char)
    requires d < 10
    ensures IsDigit(c)
    ensures c as int - '0' as int == d
  {
    ('0' as int + d) as char
  }

  /** The decimal digits of `n`, most significant first, without leading zeros. */
  function NatToString(n: nat): (r: string)
    ensures |r| > 0
    ensures forall i :: 0 <= i < |r| ==> IsDigit(r[i])
    decreases n
  {
    if n < 10 then [DigitChar(n)]
    else NatToString(n / 10) + [DigitChar(n % 10)]
  }

  /** The number a string of digits denotes. */
  function DigitsValue(s: string): nat
    requires forall i :: 0 <= i < |s| ==> IsDigit(s[i])
  {
    if s == [] then 0
    else
      assert IsDigit(s[|s| - 1]);
      10 * DigitsValue(s[..|s| - 1]) + (s[|s| - 1] as int - '0' as int)
  }

  lemma {:induction false} DigitsValueOfNatToString(n: nat)
    ensures DigitsValue(NatToString(n)) == n
    decreases n
  {
    if n >= 10 {
      var r := NatToString(n);
      assert r[..|r| - 1] == NatToString(n / 10);
      DigitsValueOfNatToString(n / 10);
    }
  }

  /** Different indices give different keys. */
  lemma NatToStringInjective(m: nat, n: nat)
    requires NatToString(m) == NatToString(n)
    ensures m == n
  {
    DigitsValueOfNatToString(m);
    DigitsValueOfNatToString(n);
  }
}

=== FILE: dependency_collector.dfy ===
/** The Maven plugin's dependency collector: a walk over the project's own
    artifact, its resolved and attached artifacts and its runtime dependency
    graph, keeping the `jar` and `bundle` artifacts keyed by their
    `group:artifact:version` coordinates. */
module DependencyCollector {
  import opened Wrappers

  /** The parts of a Maven artifact the collector reads. */
  datatype Artifact = Artifact(groupId: string, artifactId: string, version: string, artifactType: string)

  /** A node of the dependency graph the graph builder returns: its artifact
      and its children, in order. */
  datatype Node = Node(artifact: Artifact, children: seq<Node>)

  /** The artifacts of the project: its own, the resolved ones and the
      attached ones, each collection in iteration order. */
  datatype Project = Project(artifact: Artifact, artifacts: seq<Artifact>, attached: seq<Artifact>)

  /** The collected artifacts by coordinates. */
  type Results = map<string, Artifact>

  /** `isDesirableArtifact`: the artifact is a `jar` or a `bundle`. */
  predicate IsDesirable(a: Artifact) {
    a.artifactType == "jar" || a.artifactType == "bundle"
  }

  /** `coordinatesOf`: `group:artifact:version`. */
  function Coordinates(a: Artifact): string {
    a.groupId + ":" + a.artifactId + ":" + a.version
  }

  /** Every entry is a desirable artifact stored under its own coordinates. */
  predicate WellKeyed(m: Results) {
    forall k :: k in m ==> Coordinates(m[k]) == k && IsDesirable(m[k])
  }

  /** `results.put(coordinatesOf(a), a)`. */
  function Put(m: Results, a: Artifact): (r: Results)
    ensures Coordinates(a) in r && r[Coordinates(a)] == a
    ensures forall k :: k != Coordinates(a) ==> (k in r <==> k in m) && (k in m ==> r[k] == m[k])
  {
    m[Coordinates(a) := a]
  }

  // ---------------------------------------------------------------------------
  // Coordinates

  /** The coordinates hold the group, a `:`, the artifact, a `:` and the
      version, in that order and nothing else. */
  lemma CoordinatesShape(a: Artifact)
    ensures var r := Coordinates(a);
      && |r| == |a.groupId| + |a.artifactId| + |a.version| + 2
      && r[..|a.groupId|] == a.groupId && r[|a.groupId|] == ':'
      && r[|a.groupId| + 1..|a.groupId| + 1 + |a.artifactId|] == a.artifactId
      && r[|r| - |a.version| - 1] == ':' && r[|r| - |a.version|..] == a.version
  {
  }

  /** The first `:` of `x + ":" + y` is the one after `x`. */
  lemma FirstColon(x: string, y: string)
    requires ':' !in x
    ensures (x + ":" + y)[|x|] == ':'
    ensures forall i :: 0 <= i < |x| ==> (x + ":" + y)[i] != ':'
  {
    forall i | 0 <= i < |x| ensures (x + ":" + y)[i] != ':' {
      assert (x + ":" + y)[i] == x[i];
    }
  }

  /** Splitting at the first `:` recovers both parts when the first contains
      no `:`. */
  lemma SplitAtColon(x: string, y: string, z: string, w: string)
    requires ':' !in x && ':' !in z
    requires x + ":" + y == z + ":" + w
    ensures x == z && y == w
  {
    var s := x + ":" + y;
    FirstColon(x, y);
    FirstColon(z, w);
    assert |x| == |z|;
    assert x == s[..|x|] == z;
    assert y == s[|x| + 1..] == w;
  }

  /** With no `:` in group and artifact identifiers, equal coordinates mean
      equal group, artifact and version, so artifacts collapse into one entry
      exactly when those three agree. */
  lemma CoordinatesDetermineArtifact(a: Artifact, b: Artifact)
    requires ':' !in a.groupId && ':' !in a.artifactId
    requires ':' !in b.groupId && ':' !in b.artifactId
    ensures Coordinates(a) == Coordinates(b) <==>
      a.groupId == b.groupId && a.artifactId == b.artifactId && a.version == b.version
  {
    if Coordinates(a) == Coordinates(b) {
      assert Coordinates(a) == a.groupId + ":" + (a.artifactId + ":" + a.version);
      assert Coordinates(b) == b.groupId + ":" + (b.artifactId + ":" + b.version);
      SplitAtColon(a.groupId, a.artifactId + ":" + a.version, b.groupId, b.artifactId + ":" + b.version);
      SplitAtColon(a.artifactId, a.version, b.artifactId, b.version);
    }
  }

  /** Of two artifacts with the same coordinates, the later one is kept, in a
      single entry. */
  lemma LaterDuplicateWins(m: Results, a: Artifact, b: Artifact)
    requires Coordinates(a) == Coordinates(b)
    ensures Put(Put(m, a), b) == Put(m, b)
    ensures Put(Put(m, a), b).Keys == m.Keys + {Coordinates(a)}
  {
  }

  // ---------------------------------------------------------------------------
  // The flat collections

  /** The position of the last desirable artifact of `xs` with coordinates
      `k`. */
  function LastWith(xs: seq<Artifact>, k: string): (r: Option<nat>)
    ensures r.Some? ==> r.value < |xs| && IsDesirable(xs[r.value]) && Coordinates(xs[r.value]) == k
    ensures r.Some? ==> forall j :: r.value < j < |xs| ==> !(IsDesirable(xs[j]) && Coordinates(xs[j]) == k)
    ensures r.None? ==> forall j :: 0 <= j < |xs| ==> !(IsDesirable(xs[j]) && Coordinates(xs[j]) == k)
    decreases |xs|
  {
    if xs == [] then None
    else if IsDesirable(xs[|xs| - 1]) && Coordinates(xs[|xs| - 1]) == k then Some(|xs| - 1)
    else LastWith(xs[..|xs| - 1], k)
  }

  /** Dropping the last artifact changes the last position only for its own
      coordinates, and only if it is desirable. */
  lemma LastWithStep(xs: seq<Artifact>, k: string)
    requires xs != []
    ensures var last := xs[|xs| - 1];
      !(IsDesirable(last) && Coordinates(last) == k) ==> LastWith(xs, k) == LastWith(xs[..|xs| - 1], k)
  {
  }

  /** Whether some desirable artifact of `xs` has coordinates `k`. */
  predicate Occurs(xs: seq<Artifact>, k: string) {
    exists i :: 0 <= i < |xs| && IsDesirable(xs[i]) && Coordinates(xs[i]) == k
  }

  lemma OccursStep(xs: seq<Artifact>, k: string)
    requires xs != []
    ensures var last := xs[|xs| - 1];
      Occurs(xs, k) <==> Occurs(xs[..|xs| - 1], k) || (IsDesirable(last) && Coordinates(last) == k)
  {
    var init := xs[..|xs| - 1];
    if Occurs(xs, k) {
      var i :| 0 <= i < |xs| && IsDesirable(xs[i]) && Coordinates(xs[i]) == k;
      if i < |init| {
        assert init[i] == xs[i];
      }
    }
    if Occurs(init, k) {
      var i :| 0 <= i < |init| && IsDesirable(init[i]) && Coordinates(init[i]) == k;
      assert xs[i] == init[i];
    }
  }

  /** The loops over the resolved and the attached artifacts: each desirable
      artifact is put in turn, so an entry holds the last desirable artifact
      with its coordinates, and the entries already present are otherwise
      kept. */
  function AddArtifacts(m: Results, xs: seq<Artifact>): (r: Results)
    ensures forall k :: k in r <==> k in m || Occurs(xs, k)
    ensures forall k :: k in r ==>
      match LastWith(xs, k)
      case Some(i) => r[k] == xs[i]
      case None => k in m && r[k] == m[k]
    decreases |xs|
  {
    if xs == [] then m
    else
      var init := AddArtifacts(m, xs[..|xs| - 1]);
      var last := xs[|xs| - 1];
      assert forall k :: Occurs(xs, k) <==> Occurs(xs[..|xs| - 1], k) || (IsDesirable(last) && Coordinates(last) == k) by {
        forall k ensures Occurs(xs, k) <==> Occurs(xs[..|xs| - 1], k) || (IsDesirable(last) && Coordinates(last) == k) {
          OccursStep(xs, k);
        }
      }
      assert forall k :: !(IsDesirable(last) && Coordinates(last) == k) ==> LastWith(xs, k) == LastWith(xs[..|xs| - 1], k) by {
        forall k ensures !(IsDesirable(last) && Coordinates(last) == k) ==> LastWith(xs, k) == LastWith(xs[..|xs| - 1], k) {
          LastWithStep(xs, k);
        }
      }
      if IsDesirable(last) then Put(init, last) else init
  }

  // ---------------------------------------------------------------------------
  // The dependency graph

  /** The artifacts the walk reaches: a desirable node's artifact and those of
      its children; an undesirable node contributes nothing, and neither do
      its descendants. */
  function Desirables(n: Node): (r: set<Artifact>)
    ensures forall a :: a in r ==> IsDesirable(a)
    decreases n
  {
    if IsDesirable(n.artifact) then {n.artifact} + DesirablesOf(n.children) else {}
  }

  function DesirablesOf(ns: seq<Node>): (r: set<Artifact>)
    ensures forall a :: a in r ==> IsDesirable(a)
    decreases ns
  {
    if ns == [] then {} else Desirables(ns[0]) + DesirablesOf(ns[1..])
  }

  /** `collectDependencies`: put a desirable node's artifact, then walk its
      children in order; skip an undesirable node together with its
      subtree. */
  function CollectNode(m: Results, n: Node): (r: Results)
    ensures forall k :: k in m ==> k in r
    ensures WellKeyed(m) ==> WellKeyed(r)
    decreases n
  {
    if IsDesirable(n.artifact) then CollectChildren(Put(m, n.artifact), n.children) else m
  }

  function CollectChildren(m: Results, ns: seq<Node>): (r: Results)
    ensures forall k :: k in m ==> k in r
    ensures WellKeyed(m) ==> WellKeyed(r)
    decreases ns
  {
    if ns == [] then m else CollectChildren(CollectNode(m, ns[0]), ns[1..])
  }

  /** The walk from a node keeps every entry present, gives every reached
      artifact an entry, and leaves every entry either as it was or holding a
      reached artifact under its coordinates. */
  lemma {:induction false} CollectNodeSpec(m: Results, n: Node)
    ensures var r := CollectNode(m, n);
      && (forall k :: k in m ==> k in r)
      && (forall a :: a in Desirables(n) ==> Coordinates(a) in r)
      && (forall k :: k in r ==> (k in m && r[k] == m[k]) || (r[k] in Desirables(n) && Coordinates(r[k]) == k))
    decreases n, 1
  {
    if IsDesirable(n.artifact) {
      CollectChildrenSpec(Put(m, n.artifact), n.children);
    }
  }

  lemma {:induction false} CollectChildrenSpec(m: Results, ns: seq<Node>)
    ensures var r := CollectChildren(m, ns);
      && (forall k :: k in m ==> k in r)
      && (forall a :: a in DesirablesOf(ns) ==> Coordinates(a) in r)
      && (forall k :: k in r ==> (k in m && r[k] == m[k]) || (r[k] in DesirablesOf(ns) && Coordinates(r[k]) == k))
    decreases ns, 0
  {
    if ns != [] {
      CollectNodeSpec(m, ns[0]);
      CollectChildrenSpec(CollectNode(m, ns[0]), ns[1..]);
    }
  }

  // ---------------------------------------------------------------------------
  // `collect`

  /** The desirable artifacts `collect` draws from: the project's own, the
      resolved and attached ones, and those the graph walk reaches. */
  function Sources(project: Project, graph: Node): set<Artifact> {
    FlatSources(project) + Desirables(graph)
  }

  /** `collect`: clear the results of any earlier call, then put the
      project's artifact, the resolved artifacts, the attached artifacts and
      the runtime graph (built by the graph builder and given here), and
      return an immutable copy. Returns the collector's new results and the
      copy handed back. The entries are exactly the coordinates of the
      sources, each holding a source artifact with those coordinates. */
  function Collect(previous: Results, project: Project, graph: Node): (r: (Results, Results))
    ensures r.1 == r.0
  {
    var cleared: Results := map[];
    var own := if IsDesirable(project.artifact) then Put(cleared, project.artifact) else cleared;
    var resolved := AddArtifacts(own, project.artifacts);
    var attached := AddArtifacts(resolved, project.attached);
    var walked := CollectNode(attached, graph);
    (walked, walked)
  }

  /** The flat part of `collect`, before the graph walk. */
  function CollectFlat(project: Project): Results {
    var cleared: Results := map[];
    var own := if IsDesirable(project.artifact) then Put(cleared, project.artifact) else cleared;
    AddArtifacts(AddArtifacts(own, project.artifacts), project.attached)
  }

  /** The flat sources, as a set. */
  function FlatSources(project: Project): set<Artifact> {
    (if IsDesirable(project.artifact) then {project.artifact} else {})
    + DesirableSet(project.artifacts)
    + DesirableSet(project.attached)
  }

  /** The desirable artifacts of a collection, as a set. */
  function DesirableSet(xs: seq<Artifact>): set<Artifact> {
    set a | a in xs && IsDesirable(a)
  }

  /** `AddArtifacts` in terms of sets: the entries are the old ones and the
      coordinates of the desirable artifacts; each is old or one of those. */
  lemma AddArtifactsSet(m: Results, xs: seq<Artifact>)
    ensures var r := AddArtifacts(m, xs);
      && (forall k :: k in r <==> k in m || exists a :: a in DesirableSet(xs) && Coordinates(a) == k)
      && (forall k :: k in r ==> (k in m && r[k] == m[k]) || (r[k] in DesirableSet(xs) && Coordinates(r[k]) == k))
  {
    var r := AddArtifacts(m, xs);
    forall a | a in DesirableSet(xs) ensures Coordinates(a) in r {
      var i :| 0 <= i < |xs| && xs[i] == a;
    }
  }

  /** Before the walk, the entries are exactly the coordinates of the flat
      sources, each holding one of them. */
  lemma CollectFlatSpec(project: Project)
    ensures var r := CollectFlat(project);
      && (forall k :: k in r <==> exists a :: a in FlatSources(project) && Coordinates(a) == k)
      && (forall k :: k in r ==> r[k] in FlatSources(project) && Coordinates(r[k]) == k)
  {
    var cleared: Results := map[];
    var own := if IsDesirable(project.artifact) then Put(cleared, project.artifact) else cleared;
    var resolved := AddArtifacts(own, project.artifacts);
    AddArtifactsSet(own, project.artifacts);
    AddArtifactsSet(resolved, project.attached);
  }

  /** The entries `collect` returns are exactly the coordinates of its
      sources, each holding a source artifact with those coordinates. */
  lemma CollectSpec(previous: Results, project: Project, graph: Node)
    ensures var r := Collect(previous, project, graph).1;
      && WellKeyed(r)
      && (forall k :: k in r <==> exists a :: a in Sources(project, graph) && Coordinates(a) == k)
      && (forall k :: k in r ==> r[k] in Sources(project, graph))
  {
    CollectFlatSpec(project);
    CollectNodeSpec(CollectFlat(project), graph);
  }

  /** Results of an earlier call have no influence on a later one. */
  lemma CollectForgetsEarlierResults(first: Results, second: Results, project: Project, graph: Node)
    ensures Collect(first, project, graph) == Collect(second, project, graph)
  {
  }

  // ---------------------------------------------------------------------------
  // The walk, seen from the root

  /** The node at the end of `path` (child indices from the root), if every
      node on the way, the last included, is desirable. */
  function Reach(n: Node, path: seq<nat>): Option<Node>
    decreases |path|
  {
    if !IsDesirable(n.artifact) then None
    else if path == [] then Some(n)
    else if path[0] < |n.children| then Reach(n.children[path[0]], path[1..])
    else None
  }

  /** An artifact of a child list comes from one of the children. */
  lemma DesirablesOfIndex(ns: seq<Node>, a: Artifact)
    ensures a in DesirablesOf(ns) <==> exists i :: 0 <= i < |ns| && a in Desirables(ns[i])
    decreases ns
  {
    if ns != [] {
      DesirablesOfIndex(ns[1..], a);
      if exists i :: 0 <= i < |ns| && a in Desirables(ns[i]) {
        var i :| 0 <= i < |ns| && a in Desirables(ns[i]);
        if i > 0 {
          assert ns[1..][i - 1] == ns[i];
        }
      }
    }
  }

  /** Every artifact the walk reaches is at the end of a path of desirable
      nodes. */
  lemma {:induction false} ReachedHasPath(n: Node, a: Artifact)
    requires a in Desirables(n)
    ensures exists path :: Reach(n, path).Some? && Reach(n, path).value.artifact == a
    decreases n
  {
    if a != n.artifact {
      DesirablesOfIndex(n.children, a);
      var i :| 0 <= i < |n.children| && a in Desirables(n.children[i]);
      ReachedHasPath(n.children[i], a);
      var p :| Reach(n.children[i], p).Some? && Reach(n.children[i], p).value.artifact == a;
      assert ([i] + p)[1..] == p;
      assert Reach(n, [i] + p) == Reach(n.children[i], p);
    } else {
      assert Reach(n, []) == Some(n);
    }
  }

  /** Every artifact at the end of a path of desirable nodes is reached. */
  lemma {:induction false} PathIsReached(n: Node, path: seq<nat>)
    requires Reach(n, path).Some?
    ensures Reach(n, path).value.artifact in Desirables(n)
    decreases |path|
  {
    if path != [] {
      var i := path[0];
      assert i < |n.children|;
      PathIsReached(n.children[i], path[1..]);
      DesirablesOfIndex(n.children, Reach(n, path).value.artifact);
    }
  }

  /** The walk reaches an artifact exactly when it sits at the end of a path
      of desirable nodes from the root: the children of an undesirable node
      are never visited. */
  lemma DesirablesByPath(n: Node, a: Artifact)
    ensures a in Desirables(n) <==> exists path :: Reach(n, path).Some? && Reach(n, path).value.artifact == a
  {
    if a in Desirables(n) {
      ReachedHasPath(n, a);
    }
    forall path | Reach(n, path).Some? && Reach(n, path).value.artifact == a ensures a in Desirables(n) {
      PathIsReached(n, path);
    }
  }

  /** Replacing the subtree below an undesirable child changes nothing. */
  lemma {:induction false} UndesirableSubtreeSkipped(m: Results, ns: seq<Node>, i: nat, other: seq<Node>)
    requires i < |ns| && !IsDesirable(ns[i].artifact)
    ensures CollectChildren(m, ns) == CollectChildren(m, ns[i := Node(ns[i].artifact, other)])
    decreases i
  {
    var replaced := ns[i := Node(ns[i].artifact, other)];
    if i == 0 {
      assert replaced[1..] == ns[1..];
    } else {
      assert replaced[1..] == ns[1..][i - 1 := Node(ns[i].artifact, other)];
      UndesirableSubtreeSkipped(CollectNode(m, ns[0]), ns[1..], i - 1, other);
    }
  }

  /** Overlaying maps is associative. */
  lemma OverlayAssociative(a: Results, b: Results, c: Results)
    ensures a + b + c == a + (b + c)
  {
  }

  /** The walk overwrites: its outcome is the earlier entries overlaid with
      what the walk alone collects. */
  lemma {:induction false} CollectChildrenOverlay(m: Results, ns: seq<Node>)
    ensures CollectChildren(m, ns) == m + CollectChildren(map[], ns)
    decreases ns, 0
  {
    if ns != [] {
      var first := CollectNode(map[], ns[0]);
      var rest := CollectChildren(map[], ns[1..]);
      calc {
        CollectChildren(m, ns);
        CollectChildren(CollectNode(m, ns[0]), ns[1..]);
        { CollectChildrenOverlay(CollectNode(m, ns[0]), ns[1..]); }
        CollectNode(m, ns[0]) + rest;
        { CollectNodeOverlay(m, ns[0]); }
        m + first + rest;
        { OverlayAssociative(m, first, rest); }
        m + (first + rest);
        { CollectChildrenOverlay(first, ns[1..]); }
        m + CollectChildren(first, ns[1..]);
      }
    }
  }

  lemma {:induction false} CollectNodeOverlay(m: Results, n: Node)
    ensures CollectNode(m, n) == m + CollectNode(map[], n)
    decreases n, 1
  {
    if IsDesirable(n.artifact) {
      var single: Results := map[Coordinates(n.artifact) := n.artifact];
      var walked := CollectChildren(map[], n.children);
      calc {
        CollectNode(m, n);
        CollectChildren(Put(m, n.artifact), n.children);
        { CollectChildrenOverlay(Put(m, n.artifact), n.children); }
        Put(m, n.artifact) + walked;
        { assert Put(m, n.artifact) == m + single; }
        m + single + walked;
        { OverlayAssociative(m, single, walked); }
        m + (single + walked);
        { CollectChildrenOverlay(single, n.children); assert Put(map[], n.artifact) == single; }
        m + CollectNode(map[], n);
      }
    }
  }

  /** Walking the same graph twice collects nothing new. */
  lemma CollectNodeIdempotent(m: Results, n: Node)
    ensures CollectNode(CollectNode(m, n), n) == CollectNode(m, n)
  {
    CollectNodeOverlay(m, n);
    CollectNodeOverlay(CollectNode(m, n), n);
    var w := CollectNode(map[], n);
    assert m + w + w == m + w;
  }
}

=== FILE: hash.dfy ===
/** Hash values: an algorithm and the digest bytes, with Java's ordering,
    equality, hash code and text form. */
module Hashes {
  import opened Wrappers
  import opened JavaInts
  import opened HashAlgorithms
  import opened Hex

  datatype Hash = Hash(algorithm: HashAlgorithm, value: seq<int8>)

  /** `Arrays.compare(byte[], byte[])`: at the first index where the arrays
      differ, `Byte.compare` of the two (signed) bytes; otherwise the
      difference of the lengths. */
  function ArraysCompare(a: seq<int8>, b: seq<int8>): (r: int)
    ensures r == 0 <==> a == b
  {
    if |a| == 0 || |b| == 0 then |a| - |b|
    else if a[0] != b[0] then a[0] - b[0]
    else
      assert a == [a[0]] + a[1..] && b == [b[0]] + b[1..];
      ArraysCompare(a[1..], b[1..])
  }

  /** `compareTo`: algorithms by ordinal first, then the bytes. */
  function CompareTo(h: Hash, other: Hash): (r: int)
    ensures r == 0 <==> h == other
    ensures h.algorithm != other.algorithm ==> (r < 0 <==> Ordinal(h.algorithm) < Ordinal(other.algorithm))
  {
    var ac := Ordinal(h.algorithm) - Ordinal(other.algorithm);
    if ac == 0 then ArraysCompare(h.value, other.value) else ac
  }

  /** `Arrays.equals(byte[], byte[])`. */
  predicate ArraysEquals(a: seq<int8>, b: seq<int8>): (r: bool)
    ensures r <==> a == b
  {
    |a| == |b| && forall i :: 0 <= i < |a| ==> a[i] == b[i]
  }

  /** `equals`: the same algorithm and element-wise equal bytes. */
  predicate Equals(h: Hash, other: Hash): (r: bool)
    ensures r <==> h == other
  {
    h.algorithm == other.algorithm && ArraysEquals(h.value, other.value)
  }

  /** Lexicographic order on signed bytes, stated without recursion: either
      the first difference is smaller in `a`, or `a` is a proper prefix of `b`. */
  ghost predicate LexLess(a: seq<int8>, b: seq<int8>) {
    || (exists k :: 0 <= k < |a| && k < |b| && a[..k] == b[..k] && a[k] < b[k])
    || (|a| < |b| && a == b[..|a|])
  }

  lemma LexLessTail(a: seq<int8>, b: seq<int8>)
    requires |a| > 0 && |b| > 0 && a[0] == b[0]
    ensures LexLess(a, b) <==> LexLess(a[1..], b[1..])
  {
    if LexLess(a[1..], b[1..]) {
      if k :| 0 <= k < |a| - 1 && k < |b| - 1 && a[1..][..k] == b[1..][..k] && a[1..][k] < b[1..][k] {
        assert a[..k + 1] == [a[0]] + a[1..][..k];
        assert b[..k + 1] == [b[0]] + b[1..][..k];
        assert a[k + 1] < b[k + 1];
      } else {
        assert a == [a[0]] + a[1..];
        assert b[..|a|] == [b[0]] + b[1..][..|a| - 1];
      }
    }
    if LexLess(a, b) {
      if k :| 0 <= k < |a| && k < |b| && a[..k] == b[..k] && a[k] < b[k] {
        assert k > 0;
        assert a[1..][..k - 1] == a[..k][1..];
        assert b[1..][..k - 1] == b[..k][1..];
        assert a[1..][k - 1] < b[1..][k - 1];
      } else {
        assert a[1..] == b[..|a|][1..];
        assert b[1..][..|a| - 1] == b[..|a|][1..];
      }
    }
  }

  /** `Arrays.compare` is negative exactly for lexicographically smaller
      arrays, where a proper prefix sorts first. */
  lemma {:induction false} ArraysCompareNegativeIffLexLess(a: seq<int8>, b: seq<int8>)
    ensures ArraysCompare(a, b) < 0 <==> LexLess(a, b)
  {
    if |a| == 0 {
      assert a == b[..0];
    } else if |b| == 0 {
    } else if a[0] != b[0] {
      if a[0] < b[0] {
        assert a[..0] == b[..0];
      }
      if LexLess(a, b) {
        if k :| 0 <= k < |a| && k < |b| && a[..k] == b[..k] && a[k] < b[k] {
          if k > 0 {
            assert a[..k][0] == b[..k][0];
          }
        } else {
          assert a[0] == b[..|a|][0];
        }
      }
    } else {
      ArraysCompareNegativeIffLexLess(a[1..], b[1..]);
      LexLessTail(a, b);
    }
  }

  lemma {:induction false} ArraysCompareZeroIffEqual(a: seq<int8>, b: seq<int8>)
    ensures ArraysCompare(a, b) == 0 <==> ArraysEquals(a, b)
  {
    if |a| > 0 && |b| > 0 && a[0] == b[0] {
      ArraysCompareZeroIffEqual(a[1..], b[1..]);
      if ArraysEquals(a[1..], b[1..]) {
        forall i | 0 <= i < |a| ensures a[i] == b[i] {
          if i > 0 {
            assert a[i] == a[1..][i - 1];
          }
        }
      }
    } else if |a| > 0 && |b| > 0 {
      assert !ArraysEquals(a, b) by { assert a[0] != b[0]; }
    }
  }

  lemma {:induction false} ArraysCompareAntisymmetric(a: seq<int8>, b: seq<int8>)
    ensures ArraysCompare(a, b) == -ArraysCompare(b, a)
  {
    if |a| > 0 && |b| > 0 && a[0] == b[0] {
      ArraysCompareAntisymmetric(a[1..], b[1..]);
    }
  }

  lemma {:induction false} ArraysCompareTransitive(a: seq<int8>, b: seq<int8>, c: seq<int8>)
    requires ArraysCompare(a, b) < 0 && ArraysCompare(b, c) < 0
    ensures ArraysCompare(a, c) < 0
  {
    if |a| > 0 && |b| > 0 && |c| > 0 && a[0] == b[0] == c[0] {
      ArraysCompareTransitive(a[1..], b[1..], c[1..]);
    }
  }

  /** `compareTo` returns 0 exactly when `equals` holds. */
  lemma CompareToZeroIffEquals(h: Hash, other: Hash)
    ensures CompareTo(h, other) == 0 <==> Equals(h, other)
  {
    ArraysCompareZeroIffEqual(h.value, other.value);
  }

  /** `equals` is value equality of the record. */
  lemma EqualsIsIdentity(h: Hash, other: Hash)
    ensures Equals(h, other) <==> h == other
  {
    if Equals(h, other) {
      assert h.value == other.value;
    }
  }

  /** Swapping the arguments of `compareTo` negates its result. */
  lemma CompareToAntisymmetric(h: Hash, other: Hash)
    ensures CompareTo(h, other) == -CompareTo(other, h)
  {
    ArraysCompareAntisymmetric(h.value, other.value);
  }

  lemma CompareToTransitive(a: Hash, b: Hash, c: Hash)
    requires CompareTo(a, b) < 0 && CompareTo(b, c) < 0
    ensures CompareTo(a, c) < 0
  {
    ArraysCompareTransitive(a.value, b.value, c.value);
  }

  /** `compareTo` is lexicographic in (algorithm, bytes). */
  lemma CompareToIsLexicographic(h: Hash, other: Hash)
    ensures CompareTo(h, other) < 0 <==>
      || Ordinal(h.algorithm) < Ordinal(other.algorithm)
      || (h.algorithm == other.algorithm && LexLess(h.value, other.value))
  {
    ArraysCompareNegativeIffLexLess(h.value, other.value);
  }

  /** `Arrays.hashCode(byte[])`: starting from 1, each byte updates the
      result to `31 * result + b` in 32-bit arithmetic. */
  function ArraysHashCode(a: seq<int8>): (r: int32)
    ensures r == Wrap32(HashPolynomial(a))
  {
    if a == [] then 1
    else
      var init := a[..|a| - 1];
      var b: int := a[|a| - 1];
      var w: int := ArraysHashCode(init);
      StepCongruent(w, HashPolynomial(init), b, b);
      WrapCongruent(31 * w + b, 31 * HashPolynomial(init) + b);
      Wrap32(31 * w + b)
  }

  /** The same recurrence over unbounded integers. */
  function HashPolynomial(a: seq<int8>): int {
    if a == [] then 1
    else 31 * HashPolynomial(a[..|a| - 1]) + a[|a| - 1]
  }

  lemma WrapCongruent(x: int, y: int)
    requires (x - y) % TWO_32 == 0
    ensures Wrap32(x) == Wrap32(y)
  {
    CongruentInt32AreEqual(Wrap32(x), Wrap32(y));
  }

  /** One step of the recurrence keeps congruent values congruent. */
  lemma StepCongruent(w: int, p: int, u: int, v: int)
    requires (w - p) % TWO_32 == 0 && (u - v) % TWO_32 == 0
    ensures ((31 * w + u) - (31 * p + v)) % TWO_32 == 0
  {
    var q := (w - p) / TWO_32;
    var s := (u - v) / TWO_32;
    assert w - p == q * TWO_32;
    assert u - v == s * TWO_32;
    assert (31 * w + u) - (31 * p + v) == (31 * q + s) * TWO_32;
  }

  /** `hashCode`: `31 * Objects.hash(algorithm) + Arrays.hashCode(value)`.
      The enum constant's own hash code is an identity hash chosen by the
      virtual machine, so it is a parameter. */
  function HashCode(h: Hash, algorithmHash: int32): (r: int32)
    ensures r == Wrap32(31 * (31 + algorithmHash) + HashPolynomial(h.value))
  {
    var first := Wrap32(31 + algorithmHash);
    var bytes := ArraysHashCode(h.value);
    StepCongruent(first, 31 + algorithmHash, bytes, HashPolynomial(h.value));
    WrapCongruent(31 * first + bytes, 31 * (31 + algorithmHash) + HashPolynomial(h.value));
    Wrap32(31 * first + bytes)
  }

  /** Equal hashes have equal hash codes. */
  lemma HashCodeConsistentWithEquals(h: Hash, other: Hash, algorithmHash: int32)
    requires Equals(h, other)
    ensures HashCode(h, algorithmHash) == HashCode(other, algorithmHash)
  {
    EqualsIsIdentity(h, other);
  }

  /** `toString`: the algorithm's enum name, a colon, and the bytes in
      upper-case hexadecimal. */
  function ToString(h: Hash): (r: string)
    ensures |r| == |EnumName(h.algorithm)| + 1 + 2 * |h.value|
    ensures r[..|EnumName(h.algorithm)| + 1] == EnumName(h.algorithm) + ":"
    ensures ParseHex(r[|EnumName(h.algorithm)| + 1..]) == Success(h.value)
    ensures forall i :: |EnumName(h.algorithm)| + 1 <= i < |r| ==> IsUpperHexDigit(r[i])
  {
    var prefix := EnumName(h.algorithm) + ":";
    var r := prefix + FormatHex(h.value);
    assert r[|prefix|..] == FormatHex(h.value);
    ParseFormatHex(h.value);
    r
  }
}

=== FILE: hash_algorithm.dfy ===
/** The supported hash algorithms and the lookup of an algorithm by its
    Java Security API name. */
module HashAlgorithms {
  import opened Wrappers

  datatype HashAlgorithm = SHA2_256

  /** `values()`, in declaration order. */
  const ALL_ALGORITHMS: seq<HashAlgorithm> := [SHA2_256]

  /** The enum constant's name, as `toString` prints it. A Java identifier
      holds no `:`, so a hash's text form splits at its first colon. */
  function EnumName(a: HashAlgorithm): (r: string)
    ensures |r| > 0
    ensures forall i :: 0 <= i < |r| ==> r[i] != ':'
  {
    match a
    case SHA2_256 => "SHA2_256"
  }

  /** The position in the declaration, which `compareTo` subtracts. */
  function Ordinal(a: HashAlgorithm): (r: nat)
    ensures r < |ALL_ALGORITHMS| && ALL_ALGORITHMS[r] == a
  {
    match a
    case SHA2_256 => 0
  }

  /** The `MessageDigest` algorithm names that every Java platform must
      support, from the Java Security Standard Algorithm Names specification. */
  const STANDARD_DIGEST_NAMES: set<string> := {"MD5", "SHA-1", "SHA-256"}

  /** `jssAlgorithmName`: a name `MessageDigest.getInstance` accepts on every
      Java platform. */
  function JssAlgorithmName(a: HashAlgorithm): (r: string)
    ensures r in STANDARD_DIGEST_NAMES
    ensures a == SHA2_256 ==> r == "SHA-256"
  {
    match a
    case SHA2_256 => "SHA-256"
  }

  /** `Collectors.toMap(jssAlgorithmName, identity())`: the stream is folded
      into a map, and a repeated key throws `IllegalStateException`. */
  function NameTable(values: seq<HashAlgorithm>): (r: Result<map<string, HashAlgorithm>, string>)
    ensures r.Success? <==>
      forall i, j :: 0 <= i < j < |values| ==> JssAlgorithmName(values[i]) != JssAlgorithmName(values[j])
    ensures r.Success? ==>
      && (forall a :: a in values ==> JssAlgorithmName(a) in r.value && r.value[JssAlgorithmName(a)] == a)
      && (forall n :: n in r.value ==> r.value[n] in values && JssAlgorithmName(r.value[n]) == n)
  {
    if values == [] then Success(map[])
    else
      var last := values[|values| - 1];
      var key := JssAlgorithmName(last);
      match NameTable(values[..|values| - 1])
      case Failure(e) => Failure(e)
      case Success(table) =>
        if key in table then Failure("Duplicate key " + key)
        else Success(table[key := last])
  }

  /** The table `VALUES`, built once when the enum is initialised. */
  function Values(): (r: map<string, HashAlgorithm>)
    ensures forall a :: JssAlgorithmName(a) in r && r[JssAlgorithmName(a)] == a
    ensures forall n :: n in r ==> JssAlgorithmName(r[n]) == n
  {
    var table := NameTable(ALL_ALGORITHMS);
    assert forall a :: a in ALL_ALGORITHMS by {
      forall a ensures a in ALL_ALGORITHMS { assert ALL_ALGORITHMS[Ordinal(a)] == a; }
    }
    table.value
  }

  /** `ofJSSName`: the algorithm with exactly that name, or an
      `IllegalArgumentException` message. */
  function OfJssName(name: string): (r: Result<HashAlgorithm, string>)
    ensures r.Success? <==> exists a :: JssAlgorithmName(a) == name
    ensures r.Success? ==> JssAlgorithmName(r.value) == name
    ensures r.Failure? ==> r.error == "Unrecognized hash algorithm value: " + name
  {
    var table := Values();
    if name in table then Success(table[name])
    else Failure("Unrecognized hash algorithm value: " + name)
  }

  /** Looking an algorithm up by its own name finds it. */
  lemma OfJssNameRoundTrip(a: HashAlgorithm)
    ensures OfJssName(JssAlgorithmName(a)) == Success(a)
  {
  }

  /** The names are pairwise distinct, so building `VALUES` cannot throw. */
  lemma AlgorithmNamesDistinct()
    ensures NameTable(ALL_ALGORITHMS).Success?
    ensures forall a, b :: JssAlgorithmName(a) == JssAlgorithmName(b) ==> a == b
  {
  }
}

=== FILE: hex.dfy ===
/** Upper-case hexadecimal text of byte arrays, as produced by
    `HexFormat.of().withUpperCase().formatHex` and read back by `parseHex`. */
module Hex {
  import opened Wrappers
  import opened JavaInts

  const UPPER_DIGITS: string := "0123456789ABCDEF"

  predicate IsUpperHexDigit(c: char) {
    ('0' <= c <= '9') || ('A' <= c <= 'F')
  }

  /** `parseHex` accepts digits of either case. */
  predicate IsHexDigit(c: char) {
    IsUpperHexDigit(c) || ('a' <= c <= 'f')
  }

  function HexChar(v: nat): (c: char)
    requires v < 16
    ensures IsUpperHexDigit(c)
  {
    UPPER_DIGITS[v]
  }

  function DigitValue(c: char): (v: nat)
    requires IsHexDigit(c)
    ensures v < 16
  {
    if '0' <= c <= '9' then c as int - '0' as int
    else if 'A' <= c <= 'F' then c as int - 'A' as int + 10
    else c as int - 'a' as int + 10
  }

  /** The digit of either case, in upper case; other characters are kept. */
  function UpperDigit(c: char): (u: char)
    ensures IsHexDigit(c) ==> IsUpperHexDigit(u)
    ensures !('a' <= c <= 'f') ==> u == c
  {
    if 'a' <= c <= 'f' then (c as int - 'a' as int + 'A' as int) as char else c
  }

  lemma DigitValueOfHexChar(v: nat)
    requires v < 16
    ensures DigitValue(HexChar(v)) == v
  {
  }

  lemma HexCharOfDigitValue(c: char)
    requires IsHexDigit(c)
    ensures HexChar(DigitValue(c)) == UpperDigit(c)
  {
  }

  /** The two digits of one byte, high nibble first. */
  function FormatByte(b: int8): (r: string)
    ensures |r| == 2
  {
    var u := ByteToUnsigned(b);
    [HexChar(u / 16), HexChar(u % 16)]
  }

  function FormatHex(bytes: seq<int8>): (r: string)
    ensures |r| == 2 * |bytes|
    ensures forall i :: 0 <= i < |r| ==> IsUpperHexDigit(r[i])
  {
    if bytes == [] then []
    else FormatByte(bytes[0]) + FormatHex(bytes[1..])
  }

  datatype HexError = OddLength(length: nat) | NotHexDigit(c: char)

  /** Digit pairs of an even-length string, front to back; the first
      character that is not a digit fails the parse. */
  function ParsePairs(s: string): (r: Result<seq<int8>, HexError>)
    requires |s| % 2 == 0
    ensures r.Success? <==> forall i :: 0 <= i < |s| ==> IsHexDigit(s[i])
    ensures r.Success? ==> 2 * |r.value| == |s|
    decreases |s|
  {
    if s == [] then Success([])
    else if !IsHexDigit(s[0]) then Failure(NotHexDigit(s[0]))
    else if !IsHexDigit(s[1]) then Failure(NotHexDigit(s[1]))
    else
      match ParsePairs(s[2..])
      case Failure(e) => Failure(e)
      case Success(rest) =>
        Success([UnsignedToByte(16 * DigitValue(s[0]) + DigitValue(s[1]))] + rest)
  }

  /** `HexFormat.parseHex`: an odd length or a non-digit is an error. */
  function ParseHex(s: string): (r: Result<seq<int8>, HexError>)
    ensures r.Success? <==> |s| % 2 == 0 && forall i :: 0 <= i < |s| ==> IsHexDigit(s[i])
    ensures r.Success? ==> 2 * |r.value| == |s|
  {
    if |s| % 2 != 0 then Failure(OddLength(|s|)) else ParsePairs(s)
  }

  /** A leading digit pair in front of a parseable string is parsed as one
      more byte. */
  lemma ParsePairsCons(c0: char, c1: char, t: string)
    requires IsHexDigit(c0) && IsHexDigit(c1) && ParseHex(t).Success?
    ensures ParseHex([c0, c1] + t)
         == Success([UnsignedToByte(16 * DigitValue(c0) + DigitValue(c1))] + ParseHex(t).value)
  {
    assert ([c0, c1] + t)[2..] == t;
  }

  /** Parsing undoes formatting. */
  lemma {:induction false} ParseFormatHex(bytes: seq<int8>)
    ensures ParseHex(FormatHex(bytes)) == Success(bytes)
  {
    if bytes != [] {
      var b := bytes[0];
      var u := ByteToUnsigned(b);
      ParseFormatHex(bytes[1..]);
      ParsePairsCons(HexChar(u / 16), HexChar(u % 16), FormatHex(bytes[1..]));
      DigitValueOfHexChar(u / 16);
      DigitValueOfHexChar(u % 16);
      ByteRoundTrip(b);
      assert bytes == [b] + bytes[1..];
    }
  }

  /** The upper-case spelling of a string of digits. */
  function UpperHex(s: string): (r: string)
    ensures |r| == |s|
    ensures forall i :: 0 <= i < |s| ==> r[i] == UpperDigit(s[i])
  {
    seq(|s|, i requires 0 <= i < |s| => UpperDigit(s[i]))
  }

  /** One digit pair parsed and formatted again comes back in upper case. */
  lemma FormatParsedByte(c0: char, c1: char)
    requires IsHexDigit(c0) && IsHexDigit(c1)
    ensures FormatByte(UnsignedToByte(16 * DigitValue(c0) + DigitValue(c1)))
         == [UpperDigit(c0), UpperDigit(c1)]
  {
    var hi := DigitValue(c0);
    var lo := DigitValue(c1);
    var u := 16 * hi + lo;
    assert ByteToUnsigned(UnsignedToByte(u)) == u;
    assert u / 16 == hi && u % 16 == lo;
    HexCharOfDigitValue(c0);
    HexCharOfDigitValue(c1);
  }

  /** Parsing consumes the first digit pair as one byte. */
  lemma ParseHexStep(s: string)
    requires s != [] && ParseHex(s).Success?
    ensures |s| >= 2 && ParseHex(s[2..]).Success?
    ensures ParseHex(s).value
         == [UnsignedToByte(16 * DigitValue(s[0]) + DigitValue(s[1]))] + ParseHex(s[2..]).value
  {
    assert forall i :: 0 <= i < |s[2..]| ==> s[2..][i] == s[i + 2];
  }

  lemma UpperHexStep(s: string)
    requires |s| >= 2
    ensures UpperHex(s) == [UpperDigit(s[0]), UpperDigit(s[1])] + UpperHex(s[2..])
  {
    var rhs := [UpperDigit(s[0]), UpperDigit(s[1])] + UpperHex(s[2..]);
    assert forall i :: 2 <= i < |s| ==> rhs[i] == UpperHex(s[2..])[i - 2];
  }

  lemma FormatHexStep(b: int8, rest: seq<int8>)
    ensures FormatHex([b] + rest) == FormatByte(b) + FormatHex(rest)
  {
    assert ([b] + rest)[1..] == rest;
  }

  /** Formatting what was parsed gives the input back in upper case: the
      formatter's output is the only spelling it produces for each array. */
  lemma {:induction false} FormatParseHex(s: string)
    requires ParseHex(s).Success?
    ensures FormatHex(ParseHex(s).value) == UpperHex(s)
    decreases |s|
  {
    if s != [] {
      ParseHexStep(s);
      var b := UnsignedToByte(16 * DigitValue(s[0]) + DigitValue(s[1]));
      FormatHexStep(b, ParseHex(s[2..]).value);
      FormatParsedByte(s[0], s[1]);
      FormatParseHex(s[2..]);
      UpperHexStep(s);
    }
  }
}

=== FILE: java_ints.dfy ===
/** Java's fixed-width integers, written out over Dafny's unbounded `int`. */
module JavaInts {

  const TWO_8: int := 0x100
  const TWO_32: int := 0x1_0000_0000

  /** `Integer.MAX_VALUE`. */
  const INT_MAX: int := 0x7fff_ffff

  /** A Java `byte`: signed, two's complement. */
  type int8 = x: int | -0x80 <= x < 0x80

  /** A Java `int`. */
  type int32 = x: int | -0x8000_0000 <= x < 0x8000_0000

  /** A Java `long`. */
  type int64 = x: int | -0x8000_0000_0000_0000 <= x < 0x8000_0000_0000_0000

  /** The `int` that Java's 32-bit arithmetic produces for the mathematical
      value `x`: the unique `int32` congruent to `x` modulo 2^32. */
  function Wrap32(x: int): (r: int32)
    ensures (r - x) % TWO_32 == 0
  {
    (x + 0x8000_0000) % TWO_32 - 0x8000_0000
  }

  /** `Integer.toUnsignedLong`: reads the 32 bits of `i` as an unsigned number. */
  function ToUnsignedLong(i: int32): (r: int64)
    ensures 0 <= r < TWO_32
    ensures (r - i) % TWO_32 == 0
  {
    if i < 0 then i + TWO_32 else i
  }

  /** The narrowing cast `(int) l`: keeps the low 32 bits of `l`. */
  function LongToInt(l: int64): (r: int32)
    ensures (r - l) % TWO_32 == 0
  {
    Wrap32(l)
  }

  /** `(byte) (u & 0xFF)` read back as a signed byte, for `u` in 0..255. */
  function UnsignedToByte(u: nat): (r: int8)
    requires u < TWO_8
    ensures (r - u) % TWO_8 == 0
  {
    if u < 0x80 then u else u - TWO_8
  }

  /** `Byte.toUnsignedInt`: `b & 0xFF`. */
  function ByteToUnsigned(b: int8): (r: nat)
    ensures r < TWO_8
    ensures (r - b) % TWO_8 == 0
  {
    if b < 0 then b + TWO_8 else b
  }

  /** Two 32-bit values congruent modulo 2^32 are the same value. */
  lemma CongruentInt32AreEqual(a: int32, b: int32)
    requires (a - b) % TWO_32 == 0
    ensures a == b
  {
  }

  /** The cast `(int)` undoes `Integer.toUnsignedLong` for every `int`. */
  lemma CastUndoesToUnsignedLong(i: int32)
    ensures LongToInt(ToUnsignedLong(i)) == i
  {
    CongruentInt32AreEqual(LongToInt(ToUnsignedLong(i)), i);
  }

  /** Reading a byte as unsigned and back is the identity. */
  lemma ByteRoundTrip(b: int8)
    ensures UnsignedToByte(ByteToUnsigned(b)) == b
  {
  }
}

=== FILE: launcher_configuration.dfy ===
/** The launcher configuration and its flattening into, and recovery from,
    string-keyed properties. Reading and writing the properties file (escapes
    included) is outside the model: a file is its key/value map. */
module LauncherConfiguration {
  import opened Wrappers
  import opened JavaInts
  import opened Strings
  import opened Orders
  import opened Decimal
  import opened Paths

  /** A sunburst package identifier: a name and a version. */
  datatype PackageVersion = PackageVersion(major: nat, minor: nat, patch: nat, qualifier: string)
  datatype PackageIdentifier = PackageIdentifier(name: string, version: PackageVersion)

  /** `SBPackageIdentifier.toString`, `SBPackageIdentifier.parse` (which may
      throw) and the identifier's natural order, all supplied by the
      package library. */
  datatype PackageCodec = PackageCodec(
    show: PackageIdentifier -> string,
    parse: string -> Option<PackageIdentifier>,
    le: (PackageIdentifier, PackageIdentifier) -> bool)

  datatype Configuration = Configuration(
    javaModules: seq<Path>,
    osgiBundles: seq<Path>,
    parameters: map<string, string>,
    runtimeDirectory: Path,
    sunburstPackages: set<PackageIdentifier>)

  type Properties = map<string, string>

  const PARAMETERS_PREFIX: string := "rivershark.parameters."
  const RUNTIME_DIRECTORY_KEY: string := "rivershark.runtimeDirectory"
  const MODULES_PREFIX: string := "rivershark.modules."
  const BUNDLES_PREFIX: string := "rivershark.bundles."
  const SUNBURST_PREFIX: string := "rivershark.sunburst."

  /** The key of entry `index` of a numbered list, as `"%s%d"` writes it. */
  function IndexKey(prefix: string, index: nat): (r: string)
    ensures StartsWith(r, prefix)
  {
    prefix + NatToString(index)
  }

  lemma IndexKeyInjective(prefix: string, i: nat, j: nat)
    requires IndexKey(prefix, i) == IndexKey(prefix, j)
    ensures i == j
  {
    assert IndexKey(prefix, i)[|prefix|..] == NatToString(i);
    assert IndexKey(prefix, j)[|prefix|..] == NatToString(j);
    NatToStringInjective(i, j);
  }

  /** Distinct entries of a list have distinct keys. */
  lemma IndexKeysDistinct(prefix: string)
    ensures forall i: nat, j: nat :: IndexKey(prefix, i) == IndexKey(prefix, j) ==> i == j
  {
    forall i: nat, j: nat | IndexKey(prefix, i) == IndexKey(prefix, j) ensures i == j {
      IndexKeyInjective(prefix, i, j);
    }
  }

  /** Two prefixes that differ at some position never start the same string. */
  lemma PrefixesExclusive(s: string, p: string, q: string, at: nat)
    requires at < |p| && at < |q| && p[at] != q[at]
    requires StartsWith(s, p)
    ensures !StartsWith(s, q)
  {
    assert s[at] == s[..|p|][at];
    if |q| <= |s| {
      assert s[..|q|][at] == s[at];
    }
  }

  // ---------------------------------------------------------------------------
  // The builder

  datatype Builder = Builder(
    runtimeDirectory: Path,
    javaModules: seq<Path>,
    osgiBundles: seq<Path>,
    parameters: map<string, string>,
    sunburstPackages: set<PackageIdentifier>)

  /** `new Builder(runtimeDirectory)`: the directory made absolute, all
      collections empty. */
  function NewBuilder(runtimeDirectory: Path, ops: PathOps): (b: Builder)
    ensures b.runtimeDirectory == ops.absolute(runtimeDirectory)
    ensures b.javaModules == [] && b.osgiBundles == []
    ensures b.parameters == map[] && b.sunburstPackages == {}
  {
    Builder(ops.absolute(runtimeDirectory), [], [], map[], {})
  }

  /** `addParameter`: a new key is added, an existing key is overwritten, and
      nothing else changes. */
  function AddParameter(b: Builder, key: string, value: string): (r: Builder)
    ensures key in r.parameters && r.parameters[key] == value
    ensures forall k :: k != key ==> (k in r.parameters <==> k in b.parameters)
    ensures forall k :: k != key && k in b.parameters ==> r.parameters[k] == b.parameters[k]
    ensures r.(parameters := b.parameters) == b
  {
    b.(parameters := b.parameters[key := value])
  }

  /** `addParameters`: `putAll`, the given values winning. */
  function AddParameters(b: Builder, params: map<string, string>): (r: Builder)
    ensures r.parameters.Keys == b.parameters.Keys + params.Keys
    ensures forall k :: k in params ==> r.parameters[k] == params[k]
    ensures forall k :: k in b.parameters && k !in params ==> r.parameters[k] == b.parameters[k]
    ensures r.(parameters := b.parameters) == b
  {
    b.(parameters := b.parameters + params)
  }

  /** `addJavaModule`: appends the path, made absolute. */
  function AddJavaModule(b: Builder, path: Path, ops: PathOps): (r: Builder)
    ensures |r.javaModules| == |b.javaModules| + 1
    ensures r.javaModules[..|b.javaModules|] == b.javaModules
    ensures r.javaModules[|b.javaModules|] == ops.absolute(path)
    ensures r.(javaModules := b.javaModules) == b
  {
    b.(javaModules := b.javaModules + [ops.absolute(path)])
  }

  /** `addOSGIBundle`: appends the path, made absolute. */
  function AddOSGIBundle(b: Builder, path: Path, ops: PathOps): (r: Builder)
    ensures |r.osgiBundles| == |b.osgiBundles| + 1
    ensures r.osgiBundles[..|b.osgiBundles|] == b.osgiBundles
    ensures r.osgiBundles[|b.osgiBundles|] == ops.absolute(path)
    ensures r.(osgiBundles := b.osgiBundles) == b
  {
    b.(osgiBundles := b.osgiBundles + [ops.absolute(path)])
  }

  function AddSunburstPackage(b: Builder, pack: PackageIdentifier): (r: Builder)
    ensures r.sunburstPackages == b.sunburstPackages + {pack}
    ensures r.(sunburstPackages := b.sunburstPackages) == b
  {
    b.(sunburstPackages := b.sunburstPackages + {pack})
  }

  /** `setRuntimeDirectory`: replaces the directory, made absolute. */
  function SetRuntimeDirectory(b: Builder, path: Path, ops: PathOps): (r: Builder)
    ensures r.runtimeDirectory == ops.absolute(path)
    ensures r.(runtimeDirectory := b.runtimeDirectory) == b
  {
    b.(runtimeDirectory := ops.absolute(path))
  }

  function Build(b: Builder): (c: Configuration)
    ensures c.runtimeDirectory == b.runtimeDirectory
    ensures c.javaModules == b.javaModules && c.osgiBundles == b.osgiBundles
    ensures c.parameters == b.parameters && c.sunburstPackages == b.sunburstPackages
  {
    Configuration(b.javaModules, b.osgiBundles, b.parameters, b.runtimeDirectory, b.sunburstPackages)
  }

  /** `equals`: exactly the five fields are compared, so it is value equality. */
  predicate Equals(c: Configuration, other: Configuration)
    ensures Equals(c, other) <==> c == other
  {
    && c.javaModules == other.javaModules
    && c.osgiBundles == other.osgiBundles
    && c.parameters == other.parameters
    && c.runtimeDirectory == other.runtimeDirectory
    && c.sunburstPackages == other.sunburstPackages
  }

  // ---------------------------------------------------------------------------
  // Writing

  /** The entries `prefix.0 .. prefix.(n-1)` of a list, in list order. */
  function IndexedProperties(prefix: string, values: seq<string>): (r: Properties)
    ensures forall i :: 0 <= i < |values| ==> IndexKey(prefix, i) in r && r[IndexKey(prefix, i)] == values[i]
    ensures forall k :: k in r ==> exists i :: 0 <= i < |values| && k == IndexKey(prefix, i)
    ensures forall k :: k in r ==> StartsWith(k, prefix)
  {
    IndexKeysDistinct(prefix);
    map i | 0 <= i < |values| :: IndexKey(prefix, i) := values[i]
  }

  /** The parameters under `rivershark.parameters.`. */
  function ParameterProperties(params: map<string, string>): (r: Properties)
    ensures forall k :: k in params ==> PARAMETERS_PREFIX + k in r && r[PARAMETERS_PREFIX + k] == params[k]
    ensures forall key :: key in r ==> StartsWith(key, PARAMETERS_PREFIX) && key[|PARAMETERS_PREFIX|..] in params
  {
    forall a, b | PARAMETERS_PREFIX + a == PARAMETERS_PREFIX + b ensures a == b {
      assert (PARAMETERS_PREFIX + a)[|PARAMETERS_PREFIX|..] == a;
      assert (PARAMETERS_PREFIX + b)[|PARAMETERS_PREFIX|..] == b;
    }
    var r := map k | k in params :: PARAMETERS_PREFIX + k := params[k];
    assert forall k :: k in params ==> (PARAMETERS_PREFIX + k)[|PARAMETERS_PREFIX|..] == k;
    r
  }

  function ShowAll(packs: seq<PackageIdentifier>, codec: PackageCodec): (r: seq<string>)
    ensures |r| == |packs|
    ensures forall i :: 0 <= i < |r| ==> r[i] == codec.show(packs[i])
  {
    if packs == [] then [] else [codec.show(packs[0])] + ShowAll(packs[1..], codec)
  }

  /** `toProperties`. Sunburst packages are sorted before they are numbered. */
  function ToProperties(c: Configuration, codec: PackageCodec): (r: Properties)
    requires TotalOrder(codec.le)
    ensures RUNTIME_DIRECTORY_KEY in r && r[RUNTIME_DIRECTORY_KEY] == c.runtimeDirectory
    ensures forall k :: k in r ==>
      || k == RUNTIME_DIRECTORY_KEY
      || StartsWith(k, PARAMETERS_PREFIX)
      || StartsWith(k, MODULES_PREFIX)
      || StartsWith(k, BUNDLES_PREFIX)
      || StartsWith(k, SUNBURST_PREFIX)
  {
    FamiliesExclusive(RUNTIME_DIRECTORY_KEY);
    var sunbursts := ShowAll(SortSet(c.sunburstPackages, codec.le), codec);
    ParameterProperties(c.parameters)
      + map[RUNTIME_DIRECTORY_KEY := c.runtimeDirectory]
      + IndexedProperties(MODULES_PREFIX, c.javaModules)
      + IndexedProperties(BUNDLES_PREFIX, c.osgiBundles)
      + IndexedProperties(SUNBURST_PREFIX, sunbursts)
  }

  // ---------------------------------------------------------------------------
  // Reading

  /** The values under `prefix.index`, `prefix.(index + 1)`, ... up to the
      first missing index; the loop gives up at `Integer.MAX_VALUE`. */
  function LoadIndexedFrom(props: Properties, prefix: string, index: nat): (r: seq<string>)
    requires index <= INT_MAX
    ensures index + |r| <= INT_MAX
    ensures forall i :: index <= i < index + |r| ==>
      IndexKey(prefix, i) in props && r[i - index] == props[IndexKey(prefix, i)]
    ensures index + |r| < INT_MAX ==> IndexKey(prefix, index + |r|) !in props
    decreases INT_MAX - index
  {
    if index == INT_MAX then []
    else
      var key := IndexKey(prefix, index);
      if key !in props then []
      else [props[key]] + LoadIndexedFrom(props, prefix, index + 1)
  }

  /** The loop of `loadModules`, `loadBundles` and `loadSunbursts`: entries
      from index 0 until the first gap; anything after the gap is ignored. */
  function LoadIndexed(props: Properties, prefix: string): (r: seq<string>)
    ensures |r| <= INT_MAX
    ensures forall i :: 0 <= i < |r| ==> IndexKey(prefix, i) in props && r[i] == props[IndexKey(prefix, i)]
    ensures |r| < INT_MAX ==> IndexKey(prefix, |r|) !in props
  {
    LoadIndexedFrom(props, prefix, 0)
  }

  /** A list written at indices `0 .. n-1` with nothing at `n` reads back whole. */
  lemma LoadIndexedExactly(props: Properties, prefix: string, xs: seq<string>)
    requires |xs| <= INT_MAX
    requires forall j :: 0 <= j < |xs| ==> IndexKey(prefix, j) in props && props[IndexKey(prefix, j)] == xs[j]
    requires |xs| < INT_MAX ==> IndexKey(prefix, |xs|) !in props
    ensures LoadIndexed(props, prefix) == xs
  {
  }

  /** The path a loader adds: `getPath(value).toAbsolutePath().normalize()`. */
  function LoadedPath(value: string, ops: PathOps): Path {
    ops.normalize(ops.absolute(value))
  }

  /** The paths the loaders add for the values read, in order: each made
      absolute and normalised, then made absolute again by the builder. */
  function LoadedPaths(values: seq<string>, ops: PathOps): (r: seq<Path>)
    ensures |r| == |values|
    ensures forall i :: 0 <= i < |values| ==> r[i] == ops.absolute(LoadedPath(values[i], ops))
  {
    seq(|values|, i requires 0 <= i < |values| => ops.absolute(LoadedPath(values[i], ops)))
  }

  /** The body of `loadModules` for each value read. */
  function AddJavaModules(b: Builder, values: seq<string>, ops: PathOps): (r: Builder)
    ensures |r.javaModules| == |b.javaModules| + |values|
    ensures r.javaModules[..|b.javaModules|] == b.javaModules
    ensures forall i :: 0 <= i < |values| ==>
      r.javaModules[|b.javaModules| + i] == ops.absolute(LoadedPath(values[i], ops))
    ensures r.(javaModules := b.javaModules) == b
    decreases |values|
  {
    if values == [] then b
    else AddJavaModules(AddJavaModule(b, LoadedPath(values[0], ops), ops), values[1..], ops)
  }

  /** The body of `loadBundles` for each value read. */
  function AddOSGIBundles(b: Builder, values: seq<string>, ops: PathOps): (r: Builder)
    ensures |r.osgiBundles| == |b.osgiBundles| + |values|
    ensures r.osgiBundles[..|b.osgiBundles|] == b.osgiBundles
    ensures forall i :: 0 <= i < |values| ==>
      r.osgiBundles[|b.osgiBundles| + i] == ops.absolute(LoadedPath(values[i], ops))
    ensures r.(osgiBundles := b.osgiBundles) == b
    decreases |values|
  {
    if values == [] then b
    else AddOSGIBundles(AddOSGIBundle(b, LoadedPath(values[0], ops), ops), values[1..], ops)
  }

  /** Why `parseFile` fails: a required property is missing (an
      `IOException`), or a package identifier does not parse (the package
      library's exception, which escapes at once). */
  datatype LauncherError = MissingProperty(key: string) | UnparseableSunburst(text: string)

  /** Every value is a package identifier the library accepts. */
  predicate AllParse(values: seq<string>, codec: PackageCodec) {
    forall i :: 0 <= i < |values| ==> codec.parse(values[i]).Some?
  }

  /** The packages that the values read parse to. */
  function ParsedPackages(values: seq<string>, codec: PackageCodec): (r: set<PackageIdentifier>)
    ensures forall p :: p in r <==> exists i :: 0 <= i < |values| && codec.parse(values[i]) == Some(p)
  {
    set i | 0 <= i < |values| && codec.parse(values[i]).Some? :: codec.parse(values[i]).value
  }

  /** The body of `loadSunbursts` for each value read: the first value that
      does not parse ends the load. */
  function AddSunburstPackages(b: Builder, values: seq<string>, codec: PackageCodec): (r: Result<Builder, LauncherError>)
    ensures r.Success? <==> AllParse(values, codec)
    ensures r.Failure? ==>
      exists i :: 0 <= i < |values| && AllParse(values[..i], codec) &&
        codec.parse(values[i]).None? && r.error == UnparseableSunburst(values[i])
    ensures r.Success? ==> forall p :: p in r.value.sunburstPackages <==>
      p in b.sunburstPackages || exists i :: 0 <= i < |values| && codec.parse(values[i]) == Some(p)
    ensures r.Success? ==> r.value.(sunburstPackages := b.sunburstPackages) == b
    decreases |values|
  {
    if values == [] then Success(b)
    else
      match codec.parse(values[0])
      case None => Failure(UnparseableSunburst(values[0]))
      case Some(pack) =>
        var r := AddSunburstPackages(AddSunburstPackage(b, pack), values[1..], codec);
        assert forall i :: 1 <= i < |values| ==> values[i] == values[1..][i - 1];
        assert r.Success? ==> forall i :: 0 <= i < |values| - 1 ==> codec.parse(values[1..][i]).Some?;
        if r.Failure? then
          var i :| 0 <= i < |values| - 1 && AllParse(values[1..][..i], codec) &&
            codec.parse(values[1..][i]).None? && r.error == UnparseableSunburst(values[1..][i]);
          assert values[..i + 1] == [values[0]] + values[1..][..i];
          r
        else r
  }

  /** The parameters: exactly the keys under `rivershark.parameters.`, with the
      prefix removed once. */
  function StripParameters(props: Properties): (r: map<string, string>)
    ensures forall s :: s in r <==> PARAMETERS_PREFIX + s in props
    ensures forall s :: s in r ==> r[s] == props[PARAMETERS_PREFIX + s]
  {
    var n := |PARAMETERS_PREFIX|;
    forall k1, k2 | StartsWith(k1, PARAMETERS_PREFIX) && StartsWith(k2, PARAMETERS_PREFIX) && k1[n..] == k2[n..]
      ensures k1 == k2
    {
      assert k1 == k1[..n] + k1[n..];
      assert k2 == k2[..n] + k2[n..];
    }
    var r := map k | k in props && StartsWith(k, PARAMETERS_PREFIX) :: k[n..] := props[k];
    forall s ensures s in r <==> PARAMETERS_PREFIX + s in props {
      var k := PARAMETERS_PREFIX + s;
      assert k[n..] == s && StartsWith(k, PARAMETERS_PREFIX);
      if s in r {
        var k' :| k' in props && StartsWith(k', PARAMETERS_PREFIX) && k'[n..] == s;
        assert k' == k' [..n] + k'[n..];
      }
    }
    r
  }

  /** `parseFile`, after `Properties.load`. The loaders run in the source's
      order: the missing run-time directory is only recorded, an unparseable
      package identifier escapes at once, and the recorded error is thrown
      after all loaders have run. */
  function ParseFile(props: Properties, ops: PathOps, codec: PackageCodec): (r: Result<Configuration, LauncherError>)
    ensures r.Success? <==>
      RUNTIME_DIRECTORY_KEY in props && AllParse(LoadIndexed(props, SUNBURST_PREFIX), codec)
    ensures !AllParse(LoadIndexed(props, SUNBURST_PREFIX), codec) ==> r.Failure? && r.error.UnparseableSunburst?
    ensures var values := LoadIndexed(props, SUNBURST_PREFIX);
      r.Failure? && r.error.UnparseableSunburst? ==>
        exists i :: 0 <= i < |values| && AllParse(values[..i], codec) &&
          codec.parse(values[i]).None? && r.error == UnparseableSunburst(values[i])
    ensures RUNTIME_DIRECTORY_KEY !in props && AllParse(LoadIndexed(props, SUNBURST_PREFIX), codec) ==>
      r == Failure(MissingProperty(RUNTIME_DIRECTORY_KEY))
    ensures r.Success? ==> r.value.runtimeDirectory == ops.absolute(props[RUNTIME_DIRECTORY_KEY])
    ensures r.Success? ==> r.value.parameters == StripParameters(props)
    ensures r.Success? ==> r.value.javaModules == LoadedPaths(LoadIndexed(props, MODULES_PREFIX), ops)
    ensures r.Success? ==> r.value.osgiBundles == LoadedPaths(LoadIndexed(props, BUNDLES_PREFIX), ops)
    ensures r.Success? ==> r.value.sunburstPackages == ParsedPackages(LoadIndexed(props, SUNBURST_PREFIX), codec)
  {
    var loaded := LoadFamilies(props, ops, codec);
    if loaded.Failure? then Failure(loaded.error)
    else
      var params := StripParameters(props);
      var b5 := AddParameters(loaded.value, params);
      AddParametersToEmpty(loaded.value, params);
      if RUNTIME_DIRECTORY_KEY !in props then Failure(MissingProperty(RUNTIME_DIRECTORY_KEY)) else Success(Build(b5))
  }

  /** The loaders of `parseFile` up to and including `loadSunbursts`, on a
      builder for the empty path. */
  function LoadFamilies(props: Properties, ops: PathOps, codec: PackageCodec): (r: Result<Builder, LauncherError>)
    ensures r.Success? <==> AllParse(LoadIndexed(props, SUNBURST_PREFIX), codec)
    ensures r.Failure? ==> r.error.UnparseableSunburst?
    ensures var values := LoadIndexed(props, SUNBURST_PREFIX);
      r.Failure? ==>
        exists i :: 0 <= i < |values| && AllParse(values[..i], codec) &&
          codec.parse(values[i]).None? && r.error == UnparseableSunburst(values[i])
    ensures r.Success? && RUNTIME_DIRECTORY_KEY in props ==>
      r.value.runtimeDirectory == ops.absolute(props[RUNTIME_DIRECTORY_KEY])
    ensures r.Success? ==> r.value.parameters == map[]
    ensures r.Success? ==> r.value.javaModules == LoadedPaths(LoadIndexed(props, MODULES_PREFIX), ops)
    ensures r.Success? ==> r.value.osgiBundles == LoadedPaths(LoadIndexed(props, BUNDLES_PREFIX), ops)
    ensures r.Success? ==> r.value.sunburstPackages == ParsedPackages(LoadIndexed(props, SUNBURST_PREFIX), codec)
  {
    var b0 := NewBuilder("", ops);
    var b1 := if RUNTIME_DIRECTORY_KEY !in props then b0 else SetRuntimeDirectory(b0, props[RUNTIME_DIRECTORY_KEY], ops);
    var modules := LoadIndexed(props, MODULES_PREFIX);
    var bundles := LoadIndexed(props, BUNDLES_PREFIX);
    var packs := LoadIndexed(props, SUNBURST_PREFIX);
    var b2 := AddJavaModules(b1, modules, ops);
    var b3 := AddOSGIBundles(b2, bundles, ops);
    AddJavaModulesToEmpty(b1, modules, ops);
    AddOSGIBundlesToEmpty(b2, bundles, ops);
    AddSunburstPackagesToEmpty(b3, packs, codec);
    AddSunburstPackages(b3, packs, codec)
  }

  /** Adding parameters to a builder that has none gives exactly those
      parameters. */
  lemma AddParametersToEmpty(b: Builder, params: map<string, string>)
    requires b.parameters == map[]
    ensures AddParameters(b, params).parameters == params
  {
    assert map[] + params == params;
  }

  /** Loading modules into a builder that has none gives exactly the loaded
      paths. */
  lemma AddJavaModulesToEmpty(b: Builder, values: seq<string>, ops: PathOps)
    requires b.javaModules == []
    ensures AddJavaModules(b, values, ops).javaModules == LoadedPaths(values, ops)
  {
    var r := AddJavaModules(b, values, ops);
    assert forall i :: 0 <= i < |values| ==> r.javaModules[i] == LoadedPaths(values, ops)[i];
  }

  /** Loading bundles into a builder that has none gives exactly the loaded
      paths. */
  lemma AddOSGIBundlesToEmpty(b: Builder, values: seq<string>, ops: PathOps)
    requires b.osgiBundles == []
    ensures AddOSGIBundles(b, values, ops).osgiBundles == LoadedPaths(values, ops)
  {
    var r := AddOSGIBundles(b, values, ops);
    assert forall i :: 0 <= i < |values| ==> r.osgiBundles[i] == LoadedPaths(values, ops)[i];
  }

  /** Loading packages into a builder that has none gives exactly the parsed
      packages. */
  lemma AddSunburstPackagesToEmpty(b: Builder, values: seq<string>, codec: PackageCodec)
    requires b.sunburstPackages == {}
    ensures var r := AddSunburstPackages(b, values, codec);
      r.Success? ==> r.value.sunburstPackages == ParsedPackages(values, codec)
  {
  }

  // ---------------------------------------------------------------------------
  // Properties of the codec

  /** The five key families of a properties file differ at the character
      after `rivershark.`. */
  lemma FamiliesExclusive(k: string)
    ensures StartsWith(k, PARAMETERS_PREFIX) ==>
      !StartsWith(k, MODULES_PREFIX) && !StartsWith(k, BUNDLES_PREFIX) && !StartsWith(k, SUNBURST_PREFIX) && k != RUNTIME_DIRECTORY_KEY
    ensures StartsWith(k, MODULES_PREFIX) ==>
      !StartsWith(k, BUNDLES_PREFIX) && !StartsWith(k, SUNBURST_PREFIX) && k != RUNTIME_DIRECTORY_KEY
    ensures StartsWith(k, BUNDLES_PREFIX) ==> !StartsWith(k, SUNBURST_PREFIX) && k != RUNTIME_DIRECTORY_KEY
    ensures StartsWith(k, SUNBURST_PREFIX) ==> k != RUNTIME_DIRECTORY_KEY
  {
    assert PARAMETERS_PREFIX[11] == 'p' && RUNTIME_DIRECTORY_KEY[11] == 'r' && MODULES_PREFIX[11] == 'm';
    assert BUNDLES_PREFIX[11] == 'b' && SUNBURST_PREFIX[11] == 's';
    if |k| > 11 {
      if StartsWith(k, PARAMETERS_PREFIX) { assert k[11] == 'p'; }
      if StartsWith(k, MODULES_PREFIX) { assert k[11] == 'm'; }
      if StartsWith(k, BUNDLES_PREFIX) { assert k[11] == 'b'; }
      if StartsWith(k, SUNBURST_PREFIX) { assert k[11] == 's'; }
    }
  }

  /** A key of one family is looked up in that family's entries only. */
  lemma ToPropertiesLookup(c: Configuration, codec: PackageCodec, k: string)
    requires TotalOrder(codec.le)
    ensures var props := ToProperties(c, codec);
      var sunbursts := ShowAll(SortSet(c.sunburstPackages, codec.le), codec);
      && (k == RUNTIME_DIRECTORY_KEY ==> k in props && props[k] == c.runtimeDirectory)
      && (StartsWith(k, PARAMETERS_PREFIX) ==>
           (k in props <==> k in ParameterProperties(c.parameters))
           && (k in props ==> props[k] == ParameterProperties(c.parameters)[k]))
      && (StartsWith(k, MODULES_PREFIX) ==>
           (k in props <==> k in IndexedProperties(MODULES_PREFIX, c.javaModules))
           && (k in props ==> props[k] == IndexedProperties(MODULES_PREFIX, c.javaModules)[k]))
      && (StartsWith(k, BUNDLES_PREFIX) ==>
           (k in props <==> k in IndexedProperties(BUNDLES_PREFIX, c.osgiBundles))
           && (k in props ==> props[k] == IndexedProperties(BUNDLES_PREFIX, c.osgiBundles)[k]))
      && (StartsWith(k, SUNBURST_PREFIX) ==>
           (k in props <==> k in IndexedProperties(SUNBURST_PREFIX, sunbursts))
           && (k in props ==> props[k] == IndexedProperties(SUNBURST_PREFIX, sunbursts)[k]))
  {
    var sunbursts := ShowAll(SortSet(c.sunburstPackages, codec.le), codec);
    var p := ParameterProperties(c.parameters);
    var m := IndexedProperties(MODULES_PREFIX, c.javaModules);
    var b := IndexedProperties(BUNDLES_PREFIX, c.osgiBundles);
    var s := IndexedProperties(SUNBURST_PREFIX, sunbursts);
    var props := p + map[RUNTIME_DIRECTORY_KEY := c.runtimeDirectory] + m + b + s;
    assert ToProperties(c, codec) == props;
    FamiliesExclusive(k);
    FamiliesExclusive(RUNTIME_DIRECTORY_KEY);
    if k in s { assert StartsWith(k, SUNBURST_PREFIX); }
    if k in b { assert StartsWith(k, BUNDLES_PREFIX); }
    if k in m { assert StartsWith(k, MODULES_PREFIX); }
    if k in p { assert StartsWith(k, PARAMETERS_PREFIX); }
  }

  /** A family whose entries are exactly those `IndexedProperties` writes reads
      back as the list that was written. */
  lemma IndexedReadBack(props: Properties, prefix: string, xs: seq<string>)
    requires |xs| < INT_MAX
    requires forall k :: StartsWith(k, prefix) ==>
      (k in props <==> k in IndexedProperties(prefix, xs))
      && (k in props ==> props[k] == IndexedProperties(prefix, xs)[k])
    ensures LoadIndexed(props, prefix) == xs
  {
    var written := IndexedProperties(prefix, xs);
    forall j | 0 <= j < |xs| ensures IndexKey(prefix, j) in props && props[IndexKey(prefix, j)] == xs[j] {
      assert StartsWith(IndexKey(prefix, j), prefix);
    }
    var gap := IndexKey(prefix, |xs|);
    if gap in written {
      var i :| 0 <= i < |xs| && gap == IndexKey(prefix, i);
      IndexKeyInjective(prefix, i, |xs|);
    }
    assert StartsWith(gap, prefix);
    LoadIndexedExactly(props, prefix, xs);
  }

  /** The parameters written under their prefix are stripped back to the
      original map. */
  lemma StripParameterProperties(props: Properties, params: map<string, string>)
    requires forall k :: StartsWith(k, PARAMETERS_PREFIX) ==>
      (k in props <==> k in ParameterProperties(params))
      && (k in props ==> props[k] == ParameterProperties(params)[k])
    ensures StripParameters(props) == params
  {
    var r := StripParameters(props);
    forall s ensures s in r <==> s in params {
      assert StartsWith(PARAMETERS_PREFIX + s, PARAMETERS_PREFIX);
      var w := ParameterProperties(params);
      if PARAMETERS_PREFIX + s in w {
        assert (PARAMETERS_PREFIX + s)[|PARAMETERS_PREFIX|..] == s;
      }
    }
    forall s | s in r ensures r[s] == params[s] {
      assert StartsWith(PARAMETERS_PREFIX + s, PARAMETERS_PREFIX);
    }
  }

  /** A path the file system already considers absolute and normal. */
  predicate Canonical(p: Path, ops: PathOps) {
    ops.absolute(p) == p && ops.normalize(p) == p
  }

  /** A canonical path is loaded back as itself. */
  lemma LoadedCanonicalPath(p: Path, ops: PathOps)
    requires Canonical(p, ops)
    ensures ops.absolute(LoadedPath(p, ops)) == p
  {
  }

  /** Canonical module paths load back unchanged. */
  lemma AddCanonicalModules(b: Builder, values: seq<string>, ops: PathOps)
    requires forall i :: 0 <= i < |values| ==> Canonical(values[i], ops)
    ensures AddJavaModules(b, values, ops).javaModules == b.javaModules + values
  {
    var r := AddJavaModules(b, values, ops);
    forall i | 0 <= i < |values| ensures r.javaModules[|b.javaModules| + i] == values[i] {
      LoadedCanonicalPath(values[i], ops);
    }
    assert r.javaModules == r.javaModules[..|b.javaModules|] + r.javaModules[|b.javaModules|..];
  }

  /** Canonical bundle paths load back unchanged. */
  lemma AddCanonicalBundles(b: Builder, values: seq<string>, ops: PathOps)
    requires forall i :: 0 <= i < |values| ==> Canonical(values[i], ops)
    ensures AddOSGIBundles(b, values, ops).osgiBundles == b.osgiBundles + values
  {
    var r := AddOSGIBundles(b, values, ops);
    forall i | 0 <= i < |values| ensures r.osgiBundles[|b.osgiBundles| + i] == values[i] {
      LoadedCanonicalPath(values[i], ops);
    }
    assert r.osgiBundles == r.osgiBundles[..|b.osgiBundles|] + r.osgiBundles[|b.osgiBundles|..];
  }

  /** Each package written in sorted order parses back as itself. */
  lemma SortedPackagesParse(packs: set<PackageIdentifier>, codec: PackageCodec)
    requires TotalOrder(codec.le)
    requires forall p :: p in packs ==> codec.parse(codec.show(p)) == Some(p)
    ensures var sorted := SortSet(packs, codec.le);
      var shown := ShowAll(sorted, codec);
      forall i :: 0 <= i < |shown| ==> codec.parse(shown[i]) == Some(sorted[i])
  {
    var sorted := SortSet(packs, codec.le);
    forall i | 0 <= i < |sorted| ensures codec.parse(codec.show(sorted[i])) == Some(sorted[i]) {
      assert sorted[i] in packs;
    }
  }

  /** Every identifier that is written is read back as a member of the set. */
  lemma SunburstReadBack(b: Builder, c: Configuration, codec: PackageCodec)
    requires TotalOrder(codec.le)
    requires forall p :: p in c.sunburstPackages ==> codec.parse(codec.show(p)) == Some(p)
    requires b.sunburstPackages == {}
    ensures var r := AddSunburstPackages(b, ShowAll(SortSet(c.sunburstPackages, codec.le), codec), codec);
      r.Success? && r.value == b.(sunburstPackages := c.sunburstPackages)
  {
    var sorted := SortSet(c.sunburstPackages, codec.le);
    SortedPackagesParse(c.sunburstPackages, codec);
    AddParsedPackages(b, ShowAll(sorted, codec), sorted, codec);
    SortSetElements(c.sunburstPackages, codec.le);
  }

  /** Values that parse, in order, to the given packages add exactly those
      packages. */
  lemma {:induction false} AddParsedPackages(b: Builder, values: seq<string>, packs: seq<PackageIdentifier>, codec: PackageCodec)
    requires |values| == |packs|
    requires forall i :: 0 <= i < |values| ==> codec.parse(values[i]) == Some(packs[i])
    ensures AddSunburstPackages(b, values, codec)
         == Success(b.(sunburstPackages := b.sunburstPackages + (set p | p in packs)))
    decreases |values|
  {
    if values != [] {
      var next := AddSunburstPackage(b, packs[0]);
      assert forall i :: 0 <= i < |values| - 1 ==> values[1..][i] == values[i + 1] && packs[1..][i] == packs[i + 1];
      assert codec.parse(values[0]) == Some(packs[0]);
      assert AddSunburstPackages(b, values, codec) == AddSunburstPackages(next, values[1..], codec);
      AddParsedPackages(next, values[1..], packs[1..], codec);
      assert (set p | p in packs) == {packs[0]} + (set p | p in packs[1..]);
      assert next.sunburstPackages + (set p | p in packs[1..]) == b.sunburstPackages + (set p | p in packs);
    } else {
      assert (set p | p in packs) == {};
      assert b.sunburstPackages + {} == b.sunburstPackages;
    }
  }

  /** Each family of a written configuration reads back as written. */
  lemma ToPropertiesReadBack(c: Configuration, codec: PackageCodec)
    requires TotalOrder(codec.le)
    requires |c.javaModules| < INT_MAX && |c.osgiBundles| < INT_MAX && |c.sunburstPackages| < INT_MAX
    ensures var props := ToProperties(c, codec);
      && RUNTIME_DIRECTORY_KEY in props && props[RUNTIME_DIRECTORY_KEY] == c.runtimeDirectory
      && LoadIndexed(props, MODULES_PREFIX) == c.javaModules
      && LoadIndexed(props, BUNDLES_PREFIX) == c.osgiBundles
      && LoadIndexed(props, SUNBURST_PREFIX) == ShowAll(SortSet(c.sunburstPackages, codec.le), codec)
      && StripParameters(props) == c.parameters
  {
    var props := ToProperties(c, codec);
    var sunbursts := ShowAll(SortSet(c.sunburstPackages, codec.le), codec);
    forall k ensures
      && (StartsWith(k, PARAMETERS_PREFIX) ==>
           (k in props <==> k in ParameterProperties(c.parameters))
           && (k in props ==> props[k] == ParameterProperties(c.parameters)[k]))
      && (StartsWith(k, MODULES_PREFIX) ==>
           (k in props <==> k in IndexedProperties(MODULES_PREFIX, c.javaModules))
           && (k in props ==> props[k] == IndexedProperties(MODULES_PREFIX, c.javaModules)[k]))
      && (StartsWith(k, BUNDLES_PREFIX) ==>
           (k in props <==> k in IndexedProperties(BUNDLES_PREFIX, c.osgiBundles))
           && (k in props ==> props[k] == IndexedProperties(BUNDLES_PREFIX, c.osgiBundles)[k]))
      && (StartsWith(k, SUNBURST_PREFIX) ==>
           (k in props <==> k in IndexedProperties(SUNBURST_PREFIX, sunbursts))
           && (k in props ==> props[k] == IndexedProperties(SUNBURST_PREFIX, sunbursts)[k]))
    {
      ToPropertiesLookup(c, codec, k);
    }
    ToPropertiesLookup(c, codec, RUNTIME_DIRECTORY_KEY);
    IndexedReadBack(props, MODULES_PREFIX, c.javaModules);
    IndexedReadBack(props, BUNDLES_PREFIX, c.osgiBundles);
    IndexedReadBack(props, SUNBURST_PREFIX, sunbursts);
    StripParameterProperties(props, c.parameters);
  }

  /** What a configuration needs in order to survive a write and a read:
      its paths are already absolute (module and bundle paths also normal),
      and the package library reads back every identifier it writes. */
  predicate Recoverable(c: Configuration, ops: PathOps, codec: PackageCodec) {
    && ops.absolute(c.runtimeDirectory) == c.runtimeDirectory
    && (forall i :: 0 <= i < |c.javaModules| ==> Canonical(c.javaModules[i], ops))
    && (forall i :: 0 <= i < |c.osgiBundles| ==> Canonical(c.osgiBundles[i], ops))
    && (forall p :: p in c.sunburstPackages ==> codec.parse(codec.show(p)) == Some(p))
  }

  /** The loaders, given a configuration's families as written, rebuild
      that configuration's directory, paths and packages. */
  lemma LoadFamiliesReadBack(props: Properties, c: Configuration, ops: PathOps, codec: PackageCodec)
    requires TotalOrder(codec.le)
    requires RUNTIME_DIRECTORY_KEY in props && props[RUNTIME_DIRECTORY_KEY] == c.runtimeDirectory
    requires LoadIndexed(props, MODULES_PREFIX) == c.javaModules
    requires LoadIndexed(props, BUNDLES_PREFIX) == c.osgiBundles
    requires LoadIndexed(props, SUNBURST_PREFIX) == ShowAll(SortSet(c.sunburstPackages, codec.le), codec)
    requires Recoverable(c, ops, codec)
    ensures LoadFamilies(props, ops, codec)
      == Success(Builder(c.runtimeDirectory, c.javaModules, c.osgiBundles, map[], c.sunburstPackages))
  {
    var b1 := SetRuntimeDirectory(NewBuilder("", ops), c.runtimeDirectory, ops);
    AddCanonicalModules(b1, c.javaModules, ops);
    var b2 := AddJavaModules(b1, c.javaModules, ops);
    AddCanonicalBundles(b2, c.osgiBundles, ops);
    var b3 := AddOSGIBundles(b2, c.osgiBundles, ops);
    SunburstReadBack(b3, c, codec);
  }

  /** Once the loaders have rebuilt everything but the parameters, and the
      parameters strip back, the whole configuration is recovered. */
  lemma ParseFileReadBack(props: Properties, c: Configuration, ops: PathOps, codec: PackageCodec)
    requires RUNTIME_DIRECTORY_KEY in props
    requires LoadFamilies(props, ops, codec)
      == Success(Builder(c.runtimeDirectory, c.javaModules, c.osgiBundles, map[], c.sunburstPackages))
    requires StripParameters(props) == c.parameters
    ensures ParseFile(props, ops, codec) == Success(c)
  {
    var b4 := Builder(c.runtimeDirectory, c.javaModules, c.osgiBundles, map[], c.sunburstPackages);
    assert AddParameters(b4, c.parameters).parameters == c.parameters;
  }

  /** Writing a configuration and reading the properties back gives the same
      configuration, provided the paths are canonical, the package library
      reads back what it writes, and every list fits the loader's index
      range. */
  lemma ParseFileToProperties(c: Configuration, ops: PathOps, codec: PackageCodec)
    requires TotalOrder(codec.le)
    requires Recoverable(c, ops, codec)
    requires |c.javaModules| < INT_MAX && |c.osgiBundles| < INT_MAX && |c.sunburstPackages| < INT_MAX
    ensures ParseFile(ToProperties(c, codec), ops, codec) == Success(c)
  {
    var props := ToProperties(c, codec);
    ToPropertiesReadBack(c, codec);
    LoadFamiliesReadBack(props, c, ops, codec);
    ParseFileReadBack(props, c, ops, codec);
  }

  /** An entry beyond the first gap in a numbered list has no effect on what
      is loaded. */
  lemma LoadIndexedIgnoresAfterGap(props: Properties, prefix: string, gap: nat, j: nat, value: string)
    requires gap < j && IndexKey(prefix, gap) !in props
    ensures LoadIndexed(props[IndexKey(prefix, j) := value], prefix) == LoadIndexed(props, prefix)
  {
    var xs := LoadIndexed(props, prefix);
    var added := props[IndexKey(prefix, j) := value];
    forall i | 0 <= i <= |xs| ensures IndexKey(prefix, i) != IndexKey(prefix, j) {
      if IndexKey(prefix, i) == IndexKey(prefix, j) {
        IndexKeyInjective(prefix, i, j);
      }
    }
    LoadIndexedExactly(added, prefix, xs);
  }
}

=== FILE: orders.dfy ===
/** Total orders and the sorted enumeration of a finite set, which is what
    `Collections.sort` and `sorted(comparator)` produce for duplicate-free
    collections. */
module Orders {
  import opened Strings

  ghost predicate TotalOrder<T(!new)>(le: (T, T) -> bool) {
    && (forall a :: le(a, a))
    && (forall a, b :: le(a, b) && le(b, a) ==> a == b)
    && (forall a, b, c :: le(a, b) && le(b, c) ==> le(a, c))
    && (forall a, b :: le(a, b) || le(b, a))
  }

  ghost predicate SortedBy<T>(s: seq<T>, le: (T, T) -> bool) {
    forall i, j :: 0 <= i < j < |s| ==> le(s[i], s[j])
  }

  predicate Distinct<T(==)>(s: seq<T>) {
    forall i, j :: 0 <= i < j < |s| ==> s[i] != s[j]
  }

  predicate IsLeast<T>(m: T, s: set<T>, le: (T, T) -> bool) {
    m in s && forall y :: y in s ==> le(m, y)
  }

  lemma {:induction false} LeastExists<T(!new)>(s: set<T>, le: (T, T) -> bool)
    requires TotalOrder(le)
    requires s != {}
    ensures exists m :: IsLeast(m, s, le)
    decreases s
  {
    var x :| x in s;
    if s != {x} {
      LeastExists(s - {x}, le);
      var m :| IsLeast(m, s - {x}, le);
      if le(m, x) {
        assert IsLeast(m, s, le);
      } else {
        assert IsLeast(x, s, le);
      }
    } else {
      assert IsLeast(x, s, le);
    }
  }

  /** The elements of `s` in ascending order. */
  function SortSet<T(!new)>(s: set<T>, le: (T, T) -> bool): (r: seq<T>)
    requires TotalOrder(le)
    ensures |r| == |s|
    ensures forall x :: x in s <==> x in r
    ensures Distinct(r)
    ensures SortedBy(r, le)
    decreases s
  {
    if s == {} then []
    else
      LeastExists(s, le);
      var m :| IsLeast(m, s, le);
      var rest := SortSet(s - {m}, le);
      assert forall i :: 0 <= i < |rest| ==> rest[i] in s - {m};
      [m] + rest
  }

  /** The sorted sequence holds exactly the set's elements. */
  lemma SortSetElements<T(!new)>(s: set<T>, le: (T, T) -> bool)
    requires TotalOrder(le)
    ensures (set x | x in SortSet(s, le)) == s
  {
    var r := SortSet(s, le);
    assert forall x :: x in (set y | y in r) <==> x in r;
  }

  /** Java's natural `String` order is a total order. */
  lemma StrLeIsTotalOrder()
    ensures TotalOrder(StrLe)
  {
    forall a {:trigger StrLe(a, a)} ensures StrLe(a, a) {
      StrLeReflexive(a);
    }
    forall a, b | StrLe(a, b) && StrLe(b, a) ensures a == b {
      StrLeAntisymmetric(a, b);
    }
    forall a, b, c | StrLe(a, b) && StrLe(b, c) ensures StrLe(a, c) {
      StrLeTransitive(a, b, c);
    }
    forall a, b ensures StrLe(a, b) || StrLe(b, a) {
      StrLeTotal(a, b);
    }
  }
}

=== FILE: paths.dfy ===
/** File-system paths. A path is its string form; the platform operations on
    paths are supplied by the caller. */
module Paths {

  type Path = string

  /** `Path.toAbsolutePath`, `Path.normalize` and `Path.toUri` of the platform's
      default file system. */
  datatype PathOps = PathOps(
    absolute: Path -> Path,
    normalize: Path -> Path,
    toUri: Path -> string)

  /** `dir.resolve(name)` for a single-segment `name`. */
  function Resolve(dir: Path, name: string): (r: Path)
    ensures |r| == |dir| + 1 + |name|
    ensures r[..|dir|] == dir && r[|dir|] == '/'
    ensures r[|dir| + 1..] == name
  {
    dir + "/" + name
  }
}

=== FILE: product.dfy ===
/** The product descriptor: an identifier, a version, free-form metadata and
    the artifacts the product depends on. */
module Products {
  import opened Wrappers
  import opened JavaInts
  import opened Hashes

  /** A version with three 32-bit components and an optional qualifier. */
  datatype Version = Version(major: int32, minor: int32, patch: int32, qualifier: Option<string>)

  /** The three kinds of artifact dependency, each with an optional hash. */
  datatype Dependency =
    | JPMS(group: string, artifact: string, version: Version, hash: Option<Hash>)
    | OSGi(group: string, artifact: string, version: Version, hash: Option<Hash>)
    | Sunburst(name: string, version: Version, hash: Option<Hash>)

  datatype Product = Product(
    id: string,
    version: Version,
    metadata: map<string, string>,
    dependencies: seq<Dependency>)
}

/** The XML binding tree of a product document, one datatype per element.
    A field the document may omit is an `Option`; the version components are
    `long` values. */
module ProductTree {
  import opened Wrappers
  import opened JavaInts

  datatype Version = Version(major: int64, minor: int64, patch: int64, qualifier: Option<string>)

  datatype HashAlgorithmT = SHA_2_256

  datatype Hash = Hash(algorithm: HashAlgorithmT, value: string)

  datatype Meta = Meta(key: string, value: string)

  datatype Dependency =
    | OSGIBundle(group: string, name: string, version: Version, hash: Option<Hash>)
    | JPMSModule(group: string, name: string, version: Version, hash: Option<Hash>)
    | SunburstPackage(name: string, version: Version, hash: Option<Hash>)

  datatype Product = Product(
    id: string,
    version: Version,
    metadata: seq<Meta>,
    dependencies: seq<Dependency>)
}

=== FILE: product_parsers.dfy ===
/** The product parser: rebuilds a product from the XML binding tree. Schema
    validation and unmarshalling are outside the model; their outcome and the
    status events they reported are inputs of `Execute`. */
module ProductParsers {
  import opened Wrappers
  import opened JavaInts
  import opened Hex
  import opened HashAlgorithms
  import Hashes
  import D = Products
  import X = ProductTree

  /** A status event reported by the unmarshaller. */
  datatype ParseSeverity = ParseWarning | ParseError
  datatype ParseStatus = ParseStatus(severity: ParseSeverity, message: string, line: int, column: int)

  /** The single exception `execute` throws on any failure. */
  datatype ParseException = ParseException(message: string, statuses: seq<ParseStatus>)

  const PARSING_FAILED: string := "Parsing failed."

  /** `processVersion`: each `long` cast back with `(int)`; a qualifier only
      when the element has one. */
  function ParseVersion(x: X.Version): (r: D.Version)
    ensures (r.major - x.major) % TWO_32 == 0
    ensures (r.minor - x.minor) % TWO_32 == 0
    ensures (r.patch - x.patch) % TWO_32 == 0
    ensures r.qualifier.Some? <==> x.qualifier.Some?
    ensures x.qualifier.Some? ==> r.qualifier.value == x.qualifier.value
  {
    D.Version(LongToInt(x.major), LongToInt(x.minor), LongToInt(x.patch), x.qualifier)
  }

  /** The schema's algorithm constant to the enum. */
  function ParseHashAlgorithm(a: X.HashAlgorithmT): HashAlgorithm {
    match a
    case SHA_2_256 => SHA2_256
  }

  /** `processHashOptional`: no element, no hash; otherwise the algorithm and
      the decoded bytes, where `parseHex` may throw. */
  function ParseHashOptional(h: Option<X.Hash>): (r: Result<Option<Hashes.Hash>, HexError>)
    ensures h.None? ==> r == Success(None)
    ensures h.Some? ==> (r.Success? <==> ParseHex(h.value.value).Success?)
    ensures h.Some? && r.Success? ==>
      r.value == Some(Hashes.Hash(ParseHashAlgorithm(h.value.algorithm), ParseHex(h.value.value).value))
  {
    match h
    case None => Success(None)
    case Some(x) =>
      var bytes :- ParseHex(x.value);
      Success(Some(Hashes.Hash(ParseHashAlgorithm(x.algorithm), bytes)))
  }

  /** No later entry has the same key as entry `i`. */
  ghost predicate LastWithKey(entries: seq<X.Meta>, i: int)
    requires 0 <= i < |entries|
  {
    forall j :: i < j < |entries| ==> entries[j].key != entries[i].key
  }

  /** `processMetadata`: the entries put into a map in document order, so a
      repeated key keeps its last value. */
  function ParseMetadata(entries: seq<X.Meta>): (r: map<string, string>)
    ensures |r| <= |entries|
  {
    if entries == [] then map[]
    else
      var last := entries[|entries| - 1];
      ParseMetadata(entries[..|entries| - 1])[last.key := last.value]
  }

  /** The map's keys are exactly the keys in the document. */
  lemma {:induction false} ParseMetadataKeys(entries: seq<X.Meta>, k: string)
    ensures k in ParseMetadata(entries) <==> exists i :: 0 <= i < |entries| && entries[i].key == k
  {
    if entries != [] {
      var init := entries[..|entries| - 1];
      ParseMetadataKeys(init, k);
      if exists i :: 0 <= i < |init| && init[i].key == k {
        var i :| 0 <= i < |init| && init[i].key == k;
        assert entries[i].key == k;
      }
      if exists i :: 0 <= i < |entries| && entries[i].key == k {
        var i :| 0 <= i < |entries| && entries[i].key == k;
        if i < |init| {
          assert init[i].key == k;
        }
      }
    }
  }

  /** An entry whose key does not occur again later gives that key its value. */
  lemma {:induction false} ParseMetadataLastWins(entries: seq<X.Meta>, i: int)
    requires 0 <= i < |entries| && LastWithKey(entries, i)
    ensures entries[i].key in ParseMetadata(entries)
    ensures ParseMetadata(entries)[entries[i].key] == entries[i].value
  {
    var init := entries[..|entries| - 1];
    if i < |init| {
      assert init[i] == entries[i];
      assert LastWithKey(init, i);
      ParseMetadataLastWins(init, i);
    }
  }

  /** `processOSGIBundle`, `processJPMSModule`, `processSunburstPackage`. */
  function ParseDependency(x: X.Dependency): (r: Result<D.Dependency, HexError>)
    ensures r.Success? <==> ParseHashOptional(x.hash).Success?
    ensures r.Success? ==> r.value.hash == ParseHashOptional(x.hash).value
    ensures r.Success? ==> (x.JPMSModule? <==> r.value.JPMS?) && (x.OSGIBundle? <==> r.value.OSGi?)
    ensures r.Success? && !x.SunburstPackage? ==> r.value.group == x.group && r.value.artifact == x.name
    ensures r.Success? && x.SunburstPackage? ==> r.value.Sunburst? && r.value.name == x.name
    ensures r.Success? ==> r.value.version == ParseVersion(x.version)
  {
    var hash :- ParseHashOptional(x.hash);
    match x
    case OSGIBundle(group, name, version, _) => Success(D.OSGi(group, name, ParseVersion(version), hash))
    case JPMSModule(group, name, version, _) => Success(D.JPMS(group, name, ParseVersion(version), hash))
    case SunburstPackage(name, version, _) => Success(D.Sunburst(name, ParseVersion(version), hash))
  }

  /** `processDependencies`: in document order; the first failure propagates. */
  function ParseDependencies(xs: seq<X.Dependency>): (r: Result<seq<D.Dependency>, HexError>)
    ensures r.Success? <==> forall i :: 0 <= i < |xs| ==> ParseDependency(xs[i]).Success?
    ensures r.Success? ==> |r.value| == |xs|
    ensures r.Success? ==> forall i :: 0 <= i < |xs| ==> r.value[i] == ParseDependency(xs[i]).value
  {
    if xs == [] then Success([])
    else
      var d :- ParseDependency(xs[0]);
      var rest :- ParseDependencies(xs[1..]);
      Success([d] + rest)
  }

  /** `processProduct`: field by field. */
  function ParseProduct(x: X.Product): (r: Result<D.Product, HexError>)
    ensures r.Success? <==> ParseDependencies(x.dependencies).Success?
    ensures r.Success? ==> r.value.id == x.id && r.value.metadata == ParseMetadata(x.metadata)
    ensures r.Success? ==> r.value.version == ParseVersion(x.version)
    ensures r.Success? ==> r.value.dependencies == ParseDependencies(x.dependencies).value
  {
    var deps :- ParseDependencies(x.dependencies);
    Success(D.Product(x.id, ParseVersion(x.version), ParseMetadata(x.metadata), deps))
  }

  /** `execute`: `unmarshalled` is the tree the unmarshaller returned, if any,
      and `statuses` the events it reported along the way. Every failure,
      whether in unmarshalling or in rebuilding the product, becomes one
      `ParseException` carrying all the collected statuses. */
  function Execute(unmarshalled: Option<X.Product>, statuses: seq<ParseStatus>): (r: Result<D.Product, ParseException>)
    ensures r.Success? <==> unmarshalled.Some? && ParseProduct(unmarshalled.value).Success?
    ensures r.Success? ==> r.value == ParseProduct(unmarshalled.value).value
    ensures r.Failure? ==> r.error == ParseException(PARSING_FAILED, statuses)
  {
    match unmarshalled
    case None => Failure(ParseException(PARSING_FAILED, statuses))
    case Some(tree) =>
      match ParseProduct(tree)
      case Failure(_) => Failure(ParseException(PARSING_FAILED, statuses))
      case Success(p) => Success(p)
  }
}

=== FILE: product_round_trip.dfy ===
/** Parsing the tree that the serializer builds gives back the product. */
module ProductRoundTrip {
  import opened Wrappers
  import opened JavaInts
  import opened Hex
  import Hashes
  import HashAlgorithms
  import D = Products
  import X = ProductTree
  import opened ProductSerializers
  import opened ProductParsers

  /** `(int)` undoes `Integer.toUnsignedLong`, and the qualifier survives. */
  lemma VersionRoundTrip(v: D.Version)
    ensures ParseVersion(SerializeVersion(v)) == v
  {
    CastUndoesToUnsignedLong(v.major);
    CastUndoesToUnsignedLong(v.minor);
    CastUndoesToUnsignedLong(v.patch);
  }

  /** The algorithm constant survives the schema in both directions. */
  lemma HashAlgorithmRoundTrip(a: HashAlgorithms.HashAlgorithm, x: X.HashAlgorithmT)
    ensures ParseHashAlgorithm(SerializeHashAlgorithm(a)) == a
    ensures SerializeHashAlgorithm(ParseHashAlgorithm(x)) == x
  {
  }

  lemma HashRoundTrip(h: Option<Hashes.Hash>)
    ensures ParseHashOptional(if h.Some? then Some(SerializeHash(h.value)) else None) == Success(h)
  {
    if h.Some? {
      ParseFormatHex(h.value.value);
      HashAlgorithmRoundTrip(h.value.algorithm, X.SHA_2_256);
    }
  }

  lemma DependencyRoundTrip(d: D.Dependency)
    ensures ParseDependency(SerializeDependency(d)) == Success(d)
  {
    VersionRoundTrip(d.version);
    HashRoundTrip(d.hash);
  }

  lemma {:induction false} DependenciesRoundTrip(ds: seq<D.Dependency>)
    ensures ParseDependencies(SerializeDependencies(ds)) == Success(ds)
  {
    if ds != [] {
      DependencyRoundTrip(ds[0]);
      DependenciesRoundTrip(ds[1..]);
      assert SerializeDependencies(ds)[1..] == SerializeDependencies(ds[1..]);
      assert ds == [ds[0]] + ds[1..];
    }
  }

  /** Folding the serializer's sorted, duplicate-free entries into a map
      reproduces the metadata. */
  lemma MetadataRoundTrip(m: map<string, string>)
    ensures ParseMetadata(SerializeMetadata(m)) == m
  {
    var r := ParseMetadata(SerializeMetadata(m));
    forall k ensures (k in r <==> k in m) && (k in m ==> r[k] == m[k]) {
      MetadataRoundTripAt(m, k);
    }
    SameEntries(r, m);
  }

  /** The round trip, one key at a time. */
  lemma MetadataRoundTripAt(m: map<string, string>, k: string)
    ensures var r := ParseMetadata(SerializeMetadata(m));
      (k in r <==> k in m) && (k in m ==> r[k] == m[k])
  {
    var entries := SerializeMetadata(m);
    ParseMetadataKeys(entries, k);
    if k in m {
      var i :| 0 <= i < |entries| && entries[i].key == k;
      assert LastWithKey(entries, i);
      ParseMetadataLastWins(entries, i);
    }
  }

  lemma SameEntries(r: map<string, string>, m: map<string, string>)
    requires forall k :: (k in r <==> k in m) && (k in m ==> r[k] == m[k])
    ensures r == m
  {
  }

  /** parse∘serialise is the identity on products. */
  lemma ProductRoundTrip(p: D.Product)
    ensures ParseProduct(SerializeProduct(p)) == Success(p)
  {
    VersionRoundTrip(p.version);
    MetadataRoundTrip(p.metadata);
    DependenciesRoundTrip(p.dependencies);
  }

  /** A document the serializer produced parses successfully, whatever
      warnings the unmarshaller reported. */
  lemma ExecuteRoundTrip(p: D.Product, statuses: seq<ParseStatus>)
    ensures Execute(Some(SerializeProduct(p)), statuses) == Success(p)
  {
    ProductRoundTrip(p);
  }
}

=== FILE: product_serializers.dfy ===
/** The product serializer: maps a product onto the XML binding tree. The
    marshalling of the tree to text is not part of this model. */
module ProductSerializers {
  import opened Wrappers
  import opened JavaInts
  import opened Strings
  import opened Orders
  import opened Hex
  import opened HashAlgorithms
  import Hashes
  import D = Products
  import X = ProductTree

  /** The tree element has the same kind as the dependency. */
  predicate SameKind(d: D.Dependency, x: X.Dependency) {
    && (d.JPMS? <==> x.JPMSModule?)
    && (d.OSGi? <==> x.OSGIBundle?)
    && (d.Sunburst? <==> x.SunburstPackage?)
  }

  /** `processVersion`: each component through `Integer.toUnsignedLong`; the
      qualifier only when present. */
  function SerializeVersion(v: D.Version): (r: X.Version)
    ensures 0 <= r.major < TWO_32 && (r.major - v.major) % TWO_32 == 0
    ensures 0 <= r.minor < TWO_32 && (r.minor - v.minor) % TWO_32 == 0
    ensures 0 <= r.patch < TWO_32 && (r.patch - v.patch) % TWO_32 == 0
    ensures r.qualifier.Some? <==> v.qualifier.Some?
    ensures v.qualifier.Some? ==> r.qualifier.value == v.qualifier.value
  {
    X.Version(
      ToUnsignedLong(v.major),
      ToUnsignedLong(v.minor),
      ToUnsignedLong(v.patch),
      v.qualifier)
  }

  /** The enum to the schema's algorithm constant. */
  function SerializeHashAlgorithm(a: HashAlgorithm): X.HashAlgorithmT {
    match a
    case SHA2_256 => X.SHA_2_256
  }

  /** `processHash`: the bytes in upper-case hexadecimal, two digits each. */
  function SerializeHash(h: Hashes.Hash): (r: X.Hash)
    ensures |r.value| == 2 * |h.value|
    ensures forall i :: 0 <= i < |r.value| ==> IsUpperHexDigit(r.value[i])
    ensures ParseHex(r.value) == Success(h.value)
  {
    ParseFormatHex(h.value);
    X.Hash(SerializeHashAlgorithm(h.algorithm), FormatHex(h.value))
  }

  function MetaEntries(keys: seq<string>, m: map<string, string>): (r: seq<X.Meta>)
    requires forall i :: 0 <= i < |keys| ==> keys[i] in m
    ensures |r| == |keys|
    ensures forall i :: 0 <= i < |r| ==> r[i] == X.Meta(keys[i], m[keys[i]])
  {
    if keys == [] then []
    else [X.Meta(keys[0], m[keys[0]])] + MetaEntries(keys[1..], m)
  }

  /** `processMetadata`: one entry per key, in ascending key order. */
  function SerializeMetadata(m: map<string, string>): (r: seq<X.Meta>)
    ensures |r| == |m|
    ensures forall i :: 0 <= i < |r| ==> r[i].key in m && m[r[i].key] == r[i].value
    ensures forall k :: k in m ==> exists i :: 0 <= i < |r| && r[i].key == k
    ensures forall i, j :: 0 <= i < j < |r| ==> r[i].key != r[j].key
  {
    StrLeIsTotalOrder();
    var keys := SortSet(m.Keys, StrLe);
    assert |m.Keys| == |m|;
    MetaEntries(keys, m)
  }

  /** The entries are written in ascending key order. */
  lemma SerializeMetadataSorted(m: map<string, string>)
    ensures var r := SerializeMetadata(m);
      forall i, j :: 0 <= i < j < |r| ==> StrLe(r[i].key, r[j].key)
  {
    StrLeIsTotalOrder();
  }

  /** `processDependency`: the element for the dependency's kind, with the
      artifact written as the element's name and the hash only when present. */
  function SerializeDependency(d: D.Dependency): (r: X.Dependency)
    ensures SameKind(d, r)
    ensures r.hash.Some? <==> d.hash.Some?
    ensures !d.Sunburst? ==> r.group == d.group && r.name == d.artifact
    ensures d.Sunburst? ==> r.name == d.name
    ensures r.version == SerializeVersion(d.version)
    ensures d.hash.Some? ==> r.hash == Some(SerializeHash(d.hash.value))
  {
    var hash := if d.hash.Some? then Some(SerializeHash(d.hash.value)) else None;
    match d
    case JPMS(group, artifact, version, _) =>
      X.JPMSModule(group, artifact, SerializeVersion(version), hash)
    case OSGi(group, artifact, version, _) =>
      X.OSGIBundle(group, artifact, SerializeVersion(version), hash)
    case Sunburst(name, version, _) =>
      X.SunburstPackage(name, SerializeVersion(version), hash)
  }

  /** `processDependencies`: one element per dependency, in input order. */
  function SerializeDependencies(ds: seq<D.Dependency>): (r: seq<X.Dependency>)
    ensures |r| == |ds|
    ensures forall i :: 0 <= i < |r| ==> SameKind(ds[i], r[i]) && r[i] == SerializeDependency(ds[i])
  {
    if ds == [] then []
    else [SerializeDependency(ds[0])] + SerializeDependencies(ds[1..])
  }

  /** `execute`, up to the marshaller. */
  function SerializeProduct(p: D.Product): (r: X.Product)
    ensures r.id == p.id
    ensures r.version == SerializeVersion(p.version)
    ensures |r.metadata| == |p.metadata|
    ensures forall i :: 0 <= i < |r.metadata| ==>
      r.metadata[i].key in p.metadata && p.metadata[r.metadata[i].key] == r.metadata[i].value
    ensures forall k :: k in p.metadata ==> exists i :: 0 <= i < |r.metadata| && r.metadata[i].key == k
    ensures forall i, j :: 0 <= i < j < |r.metadata| ==> r.metadata[i].key != r.metadata[j].key
    ensures |r.dependencies| == |p.dependencies|
    ensures forall i :: 0 <= i < |r.dependencies| ==> r.dependencies[i] == SerializeDependency(p.dependencies[i])
  {
    X.Product(
      p.id,
      SerializeVersion(p.version),
      SerializeMetadata(p.metadata),
      SerializeDependencies(p.dependencies))
  }
}

=== FILE: repository.dfy ===
/** The bundle repository: validation of a batch of candidate bundles, their
    installation under canonical file names, and the rebuilding of the
    repository index. The repository directory is modelled by role: the lock
    file, the `bundles/` directory as a map from file name to contents, and the
    index file with its temporary sibling. */
module Repository {
  import opened Wrappers
  import opened JavaInts
  import opened Strings
  import opened Orders
  import opened Paths
  import RC = RepositoryConfiguration

  type Bytes = seq<int8>

  const IDENTITY_NAMESPACE: string := "osgi.identity"
  const IDENTITY_ATTRIBUTE: string := "osgi.identity"
  const VERSION_ATTRIBUTE: string := "version"
  const JAR_SUFFIX: string := ".jar"
  const TMP_SUFFIX: string := ".tmp"
  const LOCK_FILE_NAME: string := "index.lock"
  const INDEX_FILE_NAME: string := "obr.xml"
  const INDEX_TMP_FILE_NAME: string := "obr.xml.tmp"
  const BUNDLES_DIRECTORY_NAME: string := "bundles"

  // ---------------------------------------------------------------------------
  // Bundles and their identities

  /** An OSGi version as the version library parses it. */
  datatype BundleVersion = BundleVersion(major: nat, minor: nat, patch: nat, qualifier: string)

  /** One attribute of a capability, its value already in string form. */
  datatype Attribute = Attribute(key: string, value: string)

  datatype Capability = Capability(namespace: string, attributes: seq<Attribute>)

  /** The libraries the repository relies on: the bundle reader, from a file's
      bytes to its capabilities or a failure message; the version library's
      `parse` (a failure carries the library's message) and `toString`; and the
      message of the platform's error for a path that does not exist. */
  datatype Collaborators = Collaborators(
    readResource: Bytes -> Result<seq<Capability>, string>,
    parseVersion: string -> Result<BundleVersion, string>,
    showVersion: BundleVersion -> string,
    noSuchFileMessage: Path -> string)

  /** The `Identifier` record: a bundle's symbolic name and version. */
  datatype Identifier = Identifier(name: string, version: BundleVersion)

  /** Why a candidate file is rejected. */
  datatype InvalidReason =
    | NoSuchFile
    | Unreadable(message: string)
    | UnparseableVersion(text: string, detail: string)
    | MissingIdentity

  datatype InvalidBundle = InvalidBundle(file: Path, reason: InvalidReason)

  const MISSING_IDENTITY_DETAIL: string := "missing osgi.identity and/or version"

  /** The message of the exception recorded for a rejected file. */
  function InvalidMessage(b: InvalidBundle, tools: Collaborators): (r: string)
    ensures b.reason.NoSuchFile? ==> r == tools.noSuchFileMessage(b.file)
    ensures b.reason.Unreadable? ==> r == b.reason.message
    ensures b.reason.UnparseableVersion? || b.reason.MissingIdentity? ==> StartsWith(r, "File '" + b.file + "' ")
    ensures b.reason.UnparseableVersion? ==> EndsWith(r, b.reason.detail)
  {
    match b.reason
    case NoSuchFile => tools.noSuchFileMessage(b.file)
    case Unreadable(message) => message
    case UnparseableVersion(text, detail) =>
      var head := "File '" + b.file + "' ";
      var body := head + "has unparseable version '" + text + "': ";
      assert (body + detail)[..|head|] == head;
      assert (body + detail)[|body|..] == detail;
      body + detail
    case MissingIdentity =>
      var head := "File '" + b.file + "' ";
      var tail := "is not an OSGi bundle (" + MISSING_IDENTITY_DETAIL + ")";
      assert (head + tail)[..|head|] == head;
      head + tail
  }

  predicate Contains(s: string, part: string) {
    exists i :: 0 <= i <= |s| && StartsWith(s[i..], part)
  }

  /** The message for a file that is not a bundle names the missing
      attributes. */
  lemma MissingIdentityMessage(file: Path, tools: Collaborators)
    ensures Contains(InvalidMessage(InvalidBundle(file, MissingIdentity), tools), "missing osgi.identity")
  {
    var m := InvalidMessage(InvalidBundle(file, MissingIdentity), tools);
    var head := "File '" + file + "' ";
    var pre := "is not an OSGi bundle (";
    var tail := MISSING_IDENTITY_DETAIL + ")";
    assert m == head + (pre + tail);
    assert m[|head| + |pre|..] == tail;
    assert tail[..|"missing osgi.identity"|] == "missing osgi.identity";
  }

  /** The message for a version that does not parse quotes the version
      text, between single quotes. */
  lemma UnparseableVersionMessage(file: Path, text: string, detail: string, tools: Collaborators)
    ensures Contains(InvalidMessage(InvalidBundle(file, UnparseableVersion(text, detail)), tools), "'" + text + "'")
  {
    var m := InvalidMessage(InvalidBundle(file, UnparseableVersion(text, detail)), tools);
    var pre := "File '" + file + "' " + "has unparseable version ";
    var part := "'" + text + "'";
    assert m == pre + part + ": " + detail;
    assert m[|pre|..] == part + (": " + detail);
    assert m[|pre|..][..|part|] == part;
  }

  /** The attributes of the capabilities in the identity namespace, in order:
      `getCapabilities("osgi.identity")` followed by each capability's
      attributes. */
  function IdentityAttributes(caps: seq<Capability>): (r: seq<Attribute>)
    ensures forall a :: a in r <==>
      exists i :: 0 <= i < |caps| && caps[i].namespace == IDENTITY_NAMESPACE && a in caps[i].attributes
  {
    if caps == [] then []
    else
      var rest := IdentityAttributes(caps[1..]);
      assert forall i :: 1 <= i < |caps| ==> caps[i] == caps[1..][i - 1];
      (if caps[0].namespace == IDENTITY_NAMESPACE then caps[0].attributes else []) + rest
  }

  /** The identity attributes of one capability: its attributes in order if
      it is in the identity namespace, otherwise none. */
  lemma IdentityAttributesSingle(c: Capability)
    ensures IdentityAttributes([c]) == if c.namespace == IDENTITY_NAMESPACE then c.attributes else []
  {
    assert [c][1..] == [];
  }

  /** The attributes are visited capability by capability, in order: the
      attributes of a concatenation are those of its parts, concatenated. */
  lemma {:induction false} IdentityAttributesAppend(a: seq<Capability>, b: seq<Capability>)
    ensures IdentityAttributes(a + b) == IdentityAttributes(a) + IdentityAttributes(b)
  {
    if a == [] {
      assert a + b == b;
    } else {
      var head := if a[0].namespace == IDENTITY_NAMESPACE then a[0].attributes else [];
      assert (a + b)[0] == a[0];
      assert (a + b)[1..] == a[1..] + b;
      assert IdentityAttributes(a + b) == head + IdentityAttributes(a[1..] + b);
      IdentityAttributesAppend(a[1..], b);
      assert IdentityAttributes(a) == head + IdentityAttributes(a[1..]);
    }
  }

  /** The loop of `findIdentity` over the identity attributes: the last
      `osgi.identity` and the last `version` seen are kept, and the first
      `version` that does not parse fails at once. */
  function Scan(attrs: seq<Attribute>, identifier: Option<string>, version: Option<BundleVersion>, tools: Collaborators)
    : (r: Result<Identifier, InvalidReason>)
    ensures r.Failure? ==> r.error.UnparseableVersion? || r.error.MissingIdentity?
    decreases |attrs|
  {
    if attrs == [] then
      if identifier.Some? && version.Some? then Success(Identifier(identifier.value, version.value))
      else Failure(MissingIdentity)
    else
      var a := attrs[0];
      if a.key == IDENTITY_ATTRIBUTE then Scan(attrs[1..], Some(a.value), version, tools)
      else if a.key == VERSION_ATTRIBUTE then
        match tools.parseVersion(a.value)
        case Failure(detail) => Failure(UnparseableVersion(a.value, detail))
        case Success(v) => Scan(attrs[1..], identifier, Some(v), tools)
      else Scan(attrs[1..], identifier, version, tools)
  }
  /** What the loop reports comes from the attributes: a rejected version is
      the text of a `version` attribute the parser refuses, with the parser's
      message, and an accepted name is the one held on entry or the value of
      an `osgi.identity` attribute. */
  lemma {:induction false} ScanWitnesses(attrs: seq<Attribute>, identifier: Option<string>,
                                         version: Option<BundleVersion>, tools: Collaborators)
    ensures var r := Scan(attrs, identifier, version, tools);
      && (r.Failure? && r.error.UnparseableVersion? ==>
           exists i :: 0 <= i < |attrs| && attrs[i].key == VERSION_ATTRIBUTE && attrs[i].value == r.error.text
             && tools.parseVersion(attrs[i].value) == Failure(r.error.detail))
      && (r.Success? ==>
           identifier == Some(r.value.name)
           || exists i :: 0 <= i < |attrs| && attrs[i].key == IDENTITY_ATTRIBUTE && attrs[i].value == r.value.name)
    decreases |attrs|
  {
    if attrs != [] {
      var a := attrs[0];
      var rest := attrs[1..];
      assert forall i :: 0 <= i < |rest| ==> rest[i] == attrs[i + 1];
      if a.key == IDENTITY_ATTRIBUTE {
        ScanWitnesses(rest, Some(a.value), version, tools);
      } else if a.key == VERSION_ATTRIBUTE {
        if tools.parseVersion(a.value).Success? {
          ScanWitnesses(rest, identifier, Some(tools.parseVersion(a.value).value), tools);
        }
      } else {
        ScanWitnesses(rest, identifier, version, tools);
      }
    }
  }


  /** The value of the last attribute with the given key. */
  function LastValue(attrs: seq<Attribute>, key: string): (r: Option<string>)
    ensures r.Some? <==> exists i :: 0 <= i < |attrs| && attrs[i].key == key
    ensures r.Some? ==> exists i :: 0 <= i < |attrs| && attrs[i].key == key && attrs[i].value == r.value
                                   && forall j :: i < j < |attrs| ==> attrs[j].key != key
  {
    if attrs == [] then None
    else
      var rest := LastValue(attrs[1..], key);
      assert forall i :: 1 <= i < |attrs| ==> attrs[i] == attrs[1..][i - 1];
      if rest.Some? then rest
      else if attrs[0].key == key then Some(attrs[0].value)
      else None
  }

  predicate BadVersion(a: Attribute, tools: Collaborators) {
    a.key == VERSION_ATTRIBUTE && tools.parseVersion(a.value).Failure?
  }

  /** The position of the first `version` attribute that does not parse. */
  function FirstBadVersion(attrs: seq<Attribute>, tools: Collaborators): (r: Option<nat>)
    ensures r.Some? ==> r.value < |attrs| && BadVersion(attrs[r.value], tools)
    ensures r.Some? ==> forall j :: 0 <= j < r.value ==> !BadVersion(attrs[j], tools)
    ensures r.None? ==> forall j :: 0 <= j < |attrs| ==> !BadVersion(attrs[j], tools)
  {
    if attrs == [] then None
    else if BadVersion(attrs[0], tools) then Some(0)
    else
      var rest := FirstBadVersion(attrs[1..], tools);
      assert forall i :: 1 <= i < |attrs| ==> attrs[i] == attrs[1..][i - 1];
      if rest.Some? then Some(rest.value + 1) else None
  }

  /** What `findIdentity` computes, stated without its loop: the first
      unparseable version fails; otherwise the last identity and the last
      version (or the ones already held) make the identifier. */
  function IdentitySpec(attrs: seq<Attribute>, identifier: Option<string>, version: Option<BundleVersion>, tools: Collaborators)
    : Result<Identifier, InvalidReason>
  {
    match FirstBadVersion(attrs, tools)
    case Some(i) => Failure(UnparseableVersion(attrs[i].value, tools.parseVersion(attrs[i].value).error))
    case None =>
      var name := if LastValue(attrs, IDENTITY_ATTRIBUTE).Some? then LastValue(attrs, IDENTITY_ATTRIBUTE) else identifier;
      var text := LastValue(attrs, VERSION_ATTRIBUTE);
      var ver := match text
        case None => version
        case Some(t) => (match tools.parseVersion(t) case Success(v) => Some(v) case Failure(_) => None);
      if name.Some? && ver.Some? then Success(Identifier(name.value, ver.value)) else Failure(MissingIdentity)
  }

  /** Past a first attribute that is not a failing version, the search for
      a failing version continues in the rest. */
  lemma FirstBadVersionStep(attrs: seq<Attribute>, tools: Collaborators)
    requires attrs != [] && !BadVersion(attrs[0], tools)
    ensures FirstBadVersion(attrs, tools).None? <==> FirstBadVersion(attrs[1..], tools).None?
    ensures FirstBadVersion(attrs, tools).Some? ==>
      attrs[FirstBadVersion(attrs, tools).value] == attrs[1..][FirstBadVersion(attrs[1..], tools).value]
  {
  }

  /** An `osgi.identity` attribute first is absorbed as the identity held. */
  lemma SpecStepIdentity(attrs: seq<Attribute>, identifier: Option<string>, version: Option<BundleVersion>, tools: Collaborators)
    requires attrs != [] && attrs[0].key == IDENTITY_ATTRIBUTE
    ensures IdentitySpec(attrs, identifier, version, tools) == IdentitySpec(attrs[1..], Some(attrs[0].value), version, tools)
  {
    FirstBadVersionStep(attrs, tools);
  }

  /** A parseable `version` attribute first is absorbed as the version held. */
  lemma SpecStepVersion(attrs: seq<Attribute>, identifier: Option<string>, version: Option<BundleVersion>, tools: Collaborators)
    requires attrs != [] && attrs[0].key == VERSION_ATTRIBUTE && tools.parseVersion(attrs[0].value).Success?
    ensures IdentitySpec(attrs, identifier, version, tools)
      == IdentitySpec(attrs[1..], identifier, Some(tools.parseVersion(attrs[0].value).value), tools)
  {
    FirstBadVersionStep(attrs, tools);
  }

  /** Any other attribute first is skipped. */
  lemma SpecStepOther(attrs: seq<Attribute>, identifier: Option<string>, version: Option<BundleVersion>, tools: Collaborators)
    requires attrs != [] && attrs[0].key != IDENTITY_ATTRIBUTE && attrs[0].key != VERSION_ATTRIBUTE
    ensures IdentitySpec(attrs, identifier, version, tools) == IdentitySpec(attrs[1..], identifier, version, tools)
  {
    FirstBadVersionStep(attrs, tools);
  }

  /** The loop agrees with its loop-free statement, whatever identity and
      version it already holds. */
  lemma {:induction false} ScanMatchesSpec(attrs: seq<Attribute>, identifier: Option<string>,
                                           version: Option<BundleVersion>, tools: Collaborators)
    ensures Scan(attrs, identifier, version, tools) == IdentitySpec(attrs, identifier, version, tools)
    decreases |attrs|
  {
    if attrs != [] {
      var a := attrs[0];
      var rest := attrs[1..];
      if a.key == IDENTITY_ATTRIBUTE {
        SpecStepIdentity(attrs, identifier, version, tools);
        ScanMatchesSpec(rest, Some(a.value), version, tools);
      } else if a.key == VERSION_ATTRIBUTE {
        if tools.parseVersion(a.value).Success? {
          SpecStepVersion(attrs, identifier, version, tools);
          ScanMatchesSpec(rest, identifier, Some(tools.parseVersion(a.value).value), tools);
        }
      } else {
        SpecStepOther(attrs, identifier, version, tools);
        ScanMatchesSpec(rest, identifier, version, tools);
      }
    }
  }

  /** With no unparseable version, the last version text parses. */
  lemma LastVersionParses(attrs: seq<Attribute>, tools: Collaborators)
    ensures FirstBadVersion(attrs, tools).None? && LastValue(attrs, VERSION_ATTRIBUTE).Some? ==>
      tools.parseVersion(LastValue(attrs, VERSION_ATTRIBUTE).value).Success?
  {
    var text := LastValue(attrs, VERSION_ATTRIBUTE);
    if FirstBadVersion(attrs, tools).None? && text.Some? {
      var i :| 0 <= i < |attrs| && attrs[i].key == VERSION_ATTRIBUTE && attrs[i].value == text.value;
      assert !BadVersion(attrs[i], tools);
    }
  }

  /** `findIdentity`: an identifier exactly when no `version` attribute of the
      identity capabilities fails to parse and both an `osgi.identity` and a
      `version` attribute are present; the last of each wins. */
  function FindIdentity(caps: seq<Capability>, tools: Collaborators): (r: Result<Identifier, InvalidReason>)
    ensures var attrs := IdentityAttributes(caps);
      && (r.Failure? && r.error.UnparseableVersion? <==> FirstBadVersion(attrs, tools).Some?)
      && (r == Failure(MissingIdentity) <==>
           FirstBadVersion(attrs, tools).None?
           && (LastValue(attrs, IDENTITY_ATTRIBUTE).None? || LastValue(attrs, VERSION_ATTRIBUTE).None?))
      && (r.Success? ==>
           && LastValue(attrs, IDENTITY_ATTRIBUTE) == Some(r.value.name)
           && LastValue(attrs, VERSION_ATTRIBUTE).Some?
           && tools.parseVersion(LastValue(attrs, VERSION_ATTRIBUTE).value) == Success(r.value.version))
  {
    var attrs := IdentityAttributes(caps);
    ScanMatchesSpec(attrs, None, None, tools);
    LastVersionParses(attrs, tools);
    Scan(attrs, None, None, tools)
  }

  /** An attribute other than `osgi.identity` and `version` is skipped
      wherever it appears. */
  lemma {:induction false} ScanIgnoresOtherAttributes(xs: seq<Attribute>, other: Attribute, ys: seq<Attribute>,
                                                      identifier: Option<string>, version: Option<BundleVersion>,
                                                      tools: Collaborators)
    requires other.key != IDENTITY_ATTRIBUTE && other.key != VERSION_ATTRIBUTE
    ensures Scan(xs + [other] + ys, identifier, version, tools) == Scan(xs + ys, identifier, version, tools)
    decreases |xs|
  {
    if xs == [] {
      assert xs + [other] + ys == [other] + ys;
      assert xs + ys == ys;
      assert ([other] + ys)[1..] == ys;
    } else {
      var a := xs[0];
      assert (xs + [other] + ys)[1..] == xs[1..] + [other] + ys;
      assert (xs + ys)[1..] == xs[1..] + ys;
      if a.key == IDENTITY_ATTRIBUTE {
        ScanIgnoresOtherAttributes(xs[1..], other, ys, Some(a.value), version, tools);
      } else if a.key == VERSION_ATTRIBUTE {
        if tools.parseVersion(a.value).Success? {
          ScanIgnoresOtherAttributes(xs[1..], other, ys, identifier, Some(tools.parseVersion(a.value).value), tools);
        }
      } else {
        ScanIgnoresOtherAttributes(xs[1..], other, ys, identifier, version, tools);
      }
    }
  }

  /** A capability outside the identity namespace contributes nothing. */
  lemma {:induction false} IdentityAttributesIgnoreOtherNamespaces(xs: seq<Capability>, other: Capability, ys: seq<Capability>)
    requires other.namespace != IDENTITY_NAMESPACE
    ensures IdentityAttributes(xs + [other] + ys) == IdentityAttributes(xs + ys)
    decreases |xs|
  {
    if xs == [] {
      assert xs + [other] + ys == [other] + ys;
      assert xs + ys == ys;
      assert ([other] + ys)[1..] == ys;
    } else {
      assert (xs + [other] + ys)[1..] == xs[1..] + [other] + ys;
      assert (xs + ys)[1..] == xs[1..] + ys;
      IdentityAttributesIgnoreOtherNamespaces(xs[1..], other, ys);
    }
  }

  // ---------------------------------------------------------------------------
  // Batch validation

  /** One iteration of `checkBundles`: read the file as a bundle, then find
      its identity; any failure is recorded against the file. */
  function CheckFile(file: Path, sources: map<Path, Bytes>, tools: Collaborators): (r: Result<Identifier, InvalidBundle>)
    ensures r.Failure? ==> r.error.file == file
    ensures file !in sources ==> r == Failure(InvalidBundle(file, NoSuchFile))
    ensures r.Success? ==> file in sources
  {
    if file !in sources then Failure(InvalidBundle(file, NoSuchFile))
    else
      match tools.readResource(sources[file])
      case Failure(message) => Failure(InvalidBundle(file, Unreadable(message)))
      case Success(caps) =>
        match FindIdentity(caps, tools)
        case Failure(reason) => Failure(InvalidBundle(file, reason))
        case Success(id) => Success(id)
  }

  /** A file passes the check exactly when it exists, reads as a bundle and
      has an identity; the identity found is the one recorded. */
  lemma CheckFileValid(file: Path, sources: map<Path, Bytes>, tools: Collaborators)
    ensures CheckFile(file, sources, tools).Success? <==>
      file in sources && tools.readResource(sources[file]).Success?
      && FindIdentity(tools.readResource(sources[file]).value, tools).Success?
    ensures CheckFile(file, sources, tools).Success? ==>
      CheckFile(file, sources, tools).value == FindIdentity(tools.readResource(sources[file]).value, tools).value
  {
  }

  predicate Valid(file: Path, sources: map<Path, Bytes>, tools: Collaborators) {
    CheckFile(file, sources, tools).Success?
  }

  /** The loop of `checkBundles`: the identities of the valid files, and the
      failures of the others. No file stops the loop. */
  function CheckAll(files: seq<Path>, sources: map<Path, Bytes>, tools: Collaborators)
    : (r: (map<Path, Identifier>, seq<InvalidBundle>))
    ensures forall f :: f in r.0 <==> f in files && Valid(f, sources, tools)
    ensures forall f :: f in r.0 ==> CheckFile(f, sources, tools) == Success(r.0[f])
    ensures (r.1 == []) <==> forall i :: 0 <= i < |files| ==> Valid(files[i], sources, tools)
  {
    if files == [] then (map[], [])
    else
      var (identities, failures) := CheckAll(files[1..], sources, tools);
      assert forall i :: 1 <= i < |files| ==> files[i] == files[1..][i - 1];
      match CheckFile(files[0], sources, tools)
      case Success(id) => (identities[files[0] := id], failures)
      case Failure(e) => (identities, [e] + failures)
  }

  /** Every failure of every file is collected, and nothing else. */
  lemma {:induction false} CheckAllCollectsFailures(files: seq<Path>, sources: map<Path, Bytes>, tools: Collaborators, e: InvalidBundle)
    ensures e in CheckAll(files, sources, tools).1 <==>
      exists i :: 0 <= i < |files| && CheckFile(files[i], sources, tools) == Failure(e)
  {
    if files != [] {
      CheckAllCollectsFailures(files[1..], sources, tools, e);
      assert forall i :: 1 <= i < |files| ==> files[i] == files[1..][i - 1];
    }
  }

  /** The failures are reported in input order: the first one belongs to the
      first invalid file. */
  lemma CheckAllFirstFailure(files: seq<Path>, sources: map<Path, Bytes>, tools: Collaborators, k: nat)
    requires k < |files| && !Valid(files[k], sources, tools)
    requires forall j :: 0 <= j < k ==> Valid(files[j], sources, tools)
    ensures CheckAll(files, sources, tools).1 != []
    ensures CheckAll(files, sources, tools).1[0] == CheckFile(files[k], sources, tools).error
  {
    var rs := Outcomes(files, sources, tools);
    CheckAllOutcomes(files, sources, tools);
    FailuresFirst(rs, k);
  }

  /** The outcome of checking each file, in input order. */
  function Outcomes(files: seq<Path>, sources: map<Path, Bytes>, tools: Collaborators)
    : (r: seq<Result<Identifier, InvalidBundle>>)
    ensures |r| == |files|
    ensures forall i :: 0 <= i < |files| ==> r[i] == CheckFile(files[i], sources, tools)
  {
    seq(|files|, i requires 0 <= i < |files| => CheckFile(files[i], sources, tools))
  }

  /** The errors of the failed outcomes, in order. */
  function Failures(rs: seq<Result<Identifier, InvalidBundle>>): seq<InvalidBundle> {
    if rs == [] then []
    else (if rs[0].Failure? then [rs[0].error] else []) + Failures(rs[1..])
  }

  /** The first error collected is that of the first failed outcome. */
  lemma {:induction false} FailuresFirst(rs: seq<Result<Identifier, InvalidBundle>>, k: nat)
    requires k < |rs| && rs[k].Failure?
    requires forall j :: 0 <= j < k ==> rs[j].Success?
    ensures Failures(rs) != [] && Failures(rs)[0] == rs[k].error
  {
    if k > 0 {
      assert forall j :: 0 <= j < |rs| - 1 ==> rs[1..][j] == rs[j + 1];
      FailuresFirst(rs[1..], k - 1);
    }
  }

  /** The failures `checkBundles` collects are the errors of the failed
      outcomes, in input order. */
  lemma {:induction false} CheckAllOutcomes(files: seq<Path>, sources: map<Path, Bytes>, tools: Collaborators)
    ensures CheckAll(files, sources, tools).1 == Failures(Outcomes(files, sources, tools))
  {
    if files != [] {
      var rs := Outcomes(files, sources, tools);
      CheckAllHead(files, sources, tools);
      CheckAllOutcomes(files[1..], sources, tools);
      assert rs[1..] == Outcomes(files[1..], sources, tools);
    }
  }

  /** One step of the loop: a valid first file records no failure, an
      invalid one records its failure before the rest. */
  lemma CheckAllHead(files: seq<Path>, sources: map<Path, Bytes>, tools: Collaborators)
    requires files != []
    ensures Valid(files[0], sources, tools) ==>
      CheckAll(files, sources, tools).1 == CheckAll(files[1..], sources, tools).1
    ensures !Valid(files[0], sources, tools) ==>
      CheckAll(files, sources, tools).1
        == [CheckFile(files[0], sources, tools).error] + CheckAll(files[1..], sources, tools).1
  {
  }

  /** `checkBundles`: every file is checked; if any failed, all the failures
      are reported together, the first one's message being the one shown. */
  function CheckBundles(files: seq<Path>, sources: map<Path, Bytes>, tools: Collaborators)
    : (r: Result<map<Path, Identifier>, seq<InvalidBundle>>)
    ensures r.Success? <==> forall i :: 0 <= i < |files| ==> Valid(files[i], sources, tools)
    ensures r.Success? ==> forall f :: (f in r.value <==> f in files)
    ensures r.Success? ==> forall f :: f in r.value ==> CheckFile(f, sources, tools) == Success(r.value[f])
    ensures r.Failure? ==> r.error == CheckAll(files, sources, tools).1 && r.error != []
  {
    var (identities, failures) := CheckAll(files, sources, tools);
    if failures == [] then Success(identities) else Failure(failures)
  }

  // ---------------------------------------------------------------------------
  // The repository directory

  /** The OBR index as the indexer is asked to write it: the repository name,
      the base URI, and the `.jar` files it indexes with their contents. */
  datatype IndexDocument = IndexDocument(name: string, base: string, files: map<string, Bytes>)

  /** The repository directory: whether it exists, the lock file, the
      `bundles/` directory (absent, or its files by name), `obr.xml` and
      `obr.xml.tmp`. */
  datatype Store = Store(
    baseExists: bool,
    lockFile: Option<Bytes>,
    bundles: Option<map<string, Bytes>>,
    index: Option<IndexDocument>,
    indexTmp: Option<IndexDocument>)

  /** An open repository: its configuration and the four paths it uses. */
  datatype Repository = Repository(
    configuration: RC.Configuration,
    fileIndex: Path,
    fileIndexTmp: Path,
    fileLock: Path,
    fileBundles: Path)

  datatype RepositoryError =
    | BatchInvalid(failures: seq<InvalidBundle>)
    | IoError(path: Path)

  /** The message of the exception `install` throws: for a rejected batch,
      the first failure's (the others are attached as suppressed). */
  function ErrorMessage(e: RepositoryError, tools: Collaborators): (r: string)
    ensures e.BatchInvalid? && e.failures != [] ==> r == InvalidMessage(e.failures[0], tools)
    ensures e.IoError? ==> r == tools.noSuchFileMessage(e.path)
  {
    match e
    case BatchInvalid(failures) => if failures == [] then "" else InvalidMessage(failures[0], tools)
    case IoError(path) => tools.noSuchFileMessage(path)
  }

  /** `create`: the four paths sit directly in the configured directory; the
      directory is created and the lock file is created or truncated. Nothing
      else is touched: in particular `bundles/` is not created. */
  function Create(configuration: RC.Configuration, store: Store): (r: (Repository, Store))
    ensures r.0.configuration == configuration
    ensures r.0.fileLock == Resolve(configuration.directory, LOCK_FILE_NAME)
    ensures r.0.fileIndex == Resolve(configuration.directory, INDEX_FILE_NAME)
    ensures r.0.fileIndexTmp == Resolve(configuration.directory, INDEX_TMP_FILE_NAME)
    ensures r.0.fileBundles == Resolve(configuration.directory, BUNDLES_DIRECTORY_NAME)
    ensures r.1.baseExists && r.1.lockFile == Some([])
    ensures r.1.bundles == store.bundles && r.1.index == store.index && r.1.indexTmp == store.indexTmp
  {
    var directory := configuration.directory;
    var repository := Repository(
      configuration,
      Resolve(directory, INDEX_FILE_NAME),
      Resolve(directory, INDEX_TMP_FILE_NAME),
      Resolve(directory, LOCK_FILE_NAME),
      Resolve(directory, BUNDLES_DIRECTORY_NAME));
    (repository, store.(baseExists := true, lockFile := Some([])))
  }

  /** The four paths of a repository are pairwise distinct. */
  lemma CreatePathsDistinct(configuration: RC.Configuration, store: Store)
    ensures var repo := Create(configuration, store).0;
      && repo.fileLock != repo.fileIndex && repo.fileLock != repo.fileIndexTmp && repo.fileLock != repo.fileBundles
      && repo.fileIndex != repo.fileIndexTmp && repo.fileIndex != repo.fileBundles
      && repo.fileIndexTmp != repo.fileBundles
  {
    var d := configuration.directory;
    var names := [LOCK_FILE_NAME, INDEX_FILE_NAME, INDEX_TMP_FILE_NAME, BUNDLES_DIRECTORY_NAME];
    forall i, j | 0 <= i < j < |names| ensures Resolve(d, names[i]) != Resolve(d, names[j]) {
      assert Resolve(d, names[i])[|d| + 1..] == names[i];
      assert Resolve(d, names[j])[|d| + 1..] == names[j];
    }
  }

  /** `isJarFile`: the file name ends with `.jar`. */
  predicate IsJarFile(name: string) {
    EndsWith(name, JAR_SUFFIX)
  }

  /** The canonical file name `{name}-{version}.jar` of an installed bundle. */
  function JarName(id: Identifier, tools: Collaborators): (r: string)
    ensures IsJarFile(r)
  {
    var r := id.name + "-" + tools.showVersion(id.version) + JAR_SUFFIX;
    assert r[|r| - |JAR_SUFFIX|..] == JAR_SUFFIX;
    r
  }

  /** The staging name `{name}-{version}.jar.tmp`. */
  function TmpName(id: Identifier, tools: Collaborators): (r: string)
    ensures r == JarName(id, tools) + TMP_SUFFIX
    ensures EndsWith(r, TMP_SUFFIX)
  {
    var r := JarName(id, tools) + TMP_SUFFIX;
    assert r[|r| - |TMP_SUFFIX|..] == TMP_SUFFIX;
    r
  }

  /** A staging name is never taken for a jar: it ends in `p`, a jar in `r`. */
  lemma StagingNameNotJar(id: Identifier, tools: Collaborators)
    ensures !IsJarFile(TmpName(id, tools))
  {
    EndsWithLastChar(TmpName(id, tools), TMP_SUFFIX, JAR_SUFFIX);
  }

  /** No canonical name is a staging name. */
  lemma JarNameNotStaging(a: Identifier, b: Identifier, tools: Collaborators)
    ensures JarName(a, tools) != TmpName(b, tools)
  {
    StagingNameNotJar(b, tools);
  }

  // ---------------------------------------------------------------------------
  // Copying bundles into `bundles/`

  /** The contents of the `bundles/` directory, by file name. */
  type Directory = map<string, Bytes>

  /** One accepted bundle, ready to be copied: its identity and its bytes. */
  datatype Copy = Copy(identifier: Identifier, content: Bytes)

  /** `installBundleFile` on an existing `bundles/`: the bytes are written to
      the staging name and then moved over the canonical name. Afterwards the
      canonical name holds the bytes, the staging name is gone, and every other
      file is as it was. */
  function Place(d: Directory, c: Copy, tools: Collaborators): (r: Directory)
    ensures JarName(c.identifier, tools) in r && r[JarName(c.identifier, tools)] == c.content
    ensures TmpName(c.identifier, tools) !in r
    ensures forall k :: k != JarName(c.identifier, tools) && k != TmpName(c.identifier, tools) ==>
      (k in r <==> k in d) && (k in d ==> r[k] == d[k])
  {
    var jar := JarName(c.identifier, tools);
    var tmp := TmpName(c.identifier, tools);
    JarNameNotStaging(c.identifier, c.identifier, tools);
    var staged := d[tmp := c.content];
    (staged - {tmp})[jar := staged[tmp]]
  }

  /** The copies in the order they are made. */
  function PlaceAll(d: Directory, copies: seq<Copy>, tools: Collaborators): (r: Directory)
    ensures forall i :: 0 <= i < |copies| ==> JarName(copies[i].identifier, tools) in r
    ensures forall i :: 0 <= i < |copies| ==> TmpName(copies[i].identifier, tools) !in r
    decreases |copies|
  {
    if copies == [] then d
    else
      var init := copies[..|copies| - 1];
      var c := copies[|copies| - 1];
      var prev := PlaceAll(d, init, tools);
      assert forall i :: 0 <= i < |init| ==> copies[i] == init[i];
      PlaceKeepsNames(prev, copies, tools);
      Place(prev, c, tools)
  }

  /** Placing the last copy keeps the earlier copies' jar names and adds no
      staging name back: a jar name is never a staging name. */
  lemma PlaceKeepsNames(prev: Directory, copies: seq<Copy>, tools: Collaborators)
    requires copies != []
    requires forall i :: 0 <= i < |copies| - 1 ==>
      JarName(copies[i].identifier, tools) in prev && TmpName(copies[i].identifier, tools) !in prev
    ensures var r := Place(prev, copies[|copies| - 1], tools);
      forall i :: 0 <= i < |copies| ==>
        JarName(copies[i].identifier, tools) in r && TmpName(copies[i].identifier, tools) !in r
  {
    var c := copies[|copies| - 1];
    forall i | 0 <= i < |copies| ensures JarName(copies[i].identifier, tools) != TmpName(c.identifier, tools)
      && TmpName(copies[i].identifier, tools) != JarName(c.identifier, tools) {
      JarNameNotStaging(copies[i].identifier, c.identifier, tools);
      JarNameNotStaging(c.identifier, copies[i].identifier, tools);
    }
  }

  /** The position of the last copy whose canonical name is `k`. */
  function LastWriter(copies: seq<Copy>, k: string, tools: Collaborators): (r: Option<nat>)
    ensures r.Some? ==> r.value < |copies| && JarName(copies[r.value].identifier, tools) == k
    ensures r.Some? ==> forall j :: r.value < j < |copies| ==> JarName(copies[j].identifier, tools) != k
    ensures r.None? ==> forall j :: 0 <= j < |copies| ==> JarName(copies[j].identifier, tools) != k
    decreases |copies|
  {
    if copies == [] then None
    else if JarName(copies[|copies| - 1].identifier, tools) == k then Some(|copies| - 1)
    else LastWriter(copies[..|copies| - 1], k, tools)
  }

  /** A staging name of the batch is no copy's canonical name. */
  lemma StagedNotWritten(copies: seq<Copy>, i: nat, tools: Collaborators)
    requires i < |copies|
    ensures LastWriter(copies, TmpName(copies[i].identifier, tools), tools).None?
  {
    forall j | 0 <= j < |copies| ensures JarName(copies[j].identifier, tools) != TmpName(copies[i].identifier, tools) {
      JarNameNotStaging(copies[j].identifier, copies[i].identifier, tools);
    }
  }

  /** Some copy of the batch is staged under the name `k`. */
  predicate Staged(copies: seq<Copy>, k: string, tools: Collaborators) {
    exists i :: 0 <= i < |copies| && TmpName(copies[i].identifier, tools) == k
  }

  /** How the last writer and the staged names of a batch relate to those of
      the batch without its last copy. */
  lemma LastCopyStep(copies: seq<Copy>, k: string, tools: Collaborators)
    requires copies != []
    ensures var init, c := copies[..|copies| - 1], copies[|copies| - 1];
      k != JarName(c.identifier, tools) ==> LastWriter(copies, k, tools) == LastWriter(init, k, tools)
    ensures var init, c := copies[..|copies| - 1], copies[|copies| - 1];
      k != TmpName(c.identifier, tools) ==> (Staged(copies, k, tools) <==> Staged(init, k, tools))
    ensures var init, c := copies[..|copies| - 1], copies[|copies| - 1];
      k == TmpName(c.identifier, tools) ==> Staged(copies, k, tools) && LastWriter(init, k, tools).None?
  {
    var init, c := copies[..|copies| - 1], copies[|copies| - 1];
    if k != TmpName(c.identifier, tools) {
      if Staged(copies, k, tools) {
        var i :| 0 <= i < |copies| && TmpName(copies[i].identifier, tools) == k;
        assert init[i] == copies[i];
      }
      if Staged(init, k, tools) {
        var i :| 0 <= i < |init| && TmpName(init[i].identifier, tools) == k;
        assert copies[i] == init[i];
      }
    } else {
      assert TmpName(copies[|copies| - 1].identifier, tools) == k;
    }
  }

  /** What a file of `bundles/` holds after a batch of copies: the bytes of
      the last copy with that canonical name; nothing, for a staging name of
      the batch; otherwise what it held before. */
  lemma {:induction false} PlaceAllAt(d: Directory, copies: seq<Copy>, k: string, tools: Collaborators)
    ensures var r := PlaceAll(d, copies, tools);
      match LastWriter(copies, k, tools)
      case Some(i) => k in r && r[k] == copies[i].content
      case None =>
        if Staged(copies, k, tools) then k !in r
        else (k in r <==> k in d) && (k in d ==> r[k] == d[k])
    decreases |copies|
  {
    if copies != [] {
      PlaceAllAt(d, copies[..|copies| - 1], k, tools);
      LastCopyStep(copies, k, tools);
    }
  }

  /** Copying a batch a second time changes nothing. */
  lemma PlaceAllIdempotent(d: Directory, copies: seq<Copy>, tools: Collaborators)
    ensures PlaceAll(PlaceAll(d, copies, tools), copies, tools) == PlaceAll(d, copies, tools)
  {
    var once := PlaceAll(d, copies, tools);
    var twice := PlaceAll(once, copies, tools);
    forall k ensures (k in twice <==> k in once) && (k in once ==> twice[k] == once[k]) {
      PlaceAllAt(d, copies, k, tools);
      PlaceAllAt(once, copies, k, tools);
    }
  }

  /** No two copies of the batch share a canonical name. */
  predicate UniqueNames(copies: seq<Copy>, tools: Collaborators) {
    forall i, j :: 0 <= i < j < |copies| ==> JarName(copies[i].identifier, tools) != JarName(copies[j].identifier, tools)
  }

  /** With unique names, the last writer of a name is any copy carrying it. */
  lemma UniqueLastWriter(copies: seq<Copy>, i: nat, tools: Collaborators)
    requires UniqueNames(copies, tools) && i < |copies|
    ensures LastWriter(copies, JarName(copies[i].identifier, tools), tools) == Some(i)
  {
  }

  /** When no two copies share a canonical name, the order in which the
      copies are made does not matter. */
  lemma PlaceAllOrderIndependent(d: Directory, first: seq<Copy>, second: seq<Copy>, tools: Collaborators)
    requires UniqueNames(first, tools) && UniqueNames(second, tools)
    requires forall c :: c in first <==> c in second
    ensures PlaceAll(d, first, tools) == PlaceAll(d, second, tools)
  {
    var a := PlaceAll(d, first, tools);
    var b := PlaceAll(d, second, tools);
    forall k ensures (k in a <==> k in b) && (k in a ==> a[k] == b[k]) {
      PlaceAllAt(d, first, k, tools);
      PlaceAllAt(d, second, k, tools);
      SameLastWriter(first, second, k, tools);
      SameStaged(first, second, k, tools);
    }
  }

  /** Two batches with the same copies stage the same names. */
  lemma SameStaged(first: seq<Copy>, second: seq<Copy>, k: string, tools: Collaborators)
    requires forall c :: c in first <==> c in second
    ensures Staged(first, k, tools) <==> Staged(second, k, tools)
  {
    if Staged(first, k, tools) {
      var i :| 0 <= i < |first| && TmpName(first[i].identifier, tools) == k;
      assert first[i] in second;
      var j :| 0 <= j < |second| && second[j] == first[i];
    }
    if Staged(second, k, tools) {
      var j :| 0 <= j < |second| && TmpName(second[j].identifier, tools) == k;
      assert second[j] in first;
      var i :| 0 <= i < |first| && first[i] == second[j];
    }
  }

  /** Two batches with the same copies and unique names agree on who writes
      each name last, and on what it writes. */
  lemma SameLastWriter(first: seq<Copy>, second: seq<Copy>, k: string, tools: Collaborators)
    requires UniqueNames(first, tools) && UniqueNames(second, tools)
    requires forall c :: c in first <==> c in second
    ensures LastWriter(first, k, tools).Some? <==> LastWriter(second, k, tools).Some?
    ensures LastWriter(first, k, tools).Some? ==>
      first[LastWriter(first, k, tools).value] == second[LastWriter(second, k, tools).value]
  {
    match LastWriter(first, k, tools)
    case Some(i) =>
      assert first[i] in second;
      var j :| 0 <= j < |second| && second[j] == first[i];
      UniqueLastWriter(second, j, tools);
    case None =>
      if LastWriter(second, k, tools).Some? {
        WriterTransfers(second, first, k, tools);
        assert false;
      }
  }

  /** A name some copy of `first` writes is written by a copy of `second`
      when every copy of `first` is in `second`. */
  lemma WriterTransfers(first: seq<Copy>, second: seq<Copy>, k: string, tools: Collaborators)
    requires forall c :: c in first ==> c in second
    requires LastWriter(first, k, tools).Some?
    ensures LastWriter(second, k, tools).Some?
  {
    assert first[LastWriter(first, k, tools).value] in second;
  }

  // ---------------------------------------------------------------------------
  // The index and `install`

  /** The `.jar` files of `bundles/`, which are the files the index lists. */
  function JarFiles(d: Directory): (r: Directory)
    ensures forall k :: k in r <==> k in d && IsJarFile(k)
    ensures forall k :: k in r ==> r[k] == d[k]
  {
    map k | k in d && IsJarFile(k) :: d[k]
  }

  /** `generateIndex`: list `bundles/` (which fails when it does not exist),
      index its `.jar` files into `obr.xml.tmp` under the repository's name
      and base URI, and move the result over `obr.xml`. */
  function GenerateIndex(repo: Repository, store: Store, ops: PathOps): (r: Result<Store, RepositoryError>)
    ensures r.Failure? <==> store.bundles.None?
    ensures r.Failure? ==> r.error == IoError(repo.fileBundles)
    ensures r.Success? ==> r.value.indexTmp.None? && r.value.index.Some?
    ensures r.Success? ==> r.value.index.value.files == JarFiles(store.bundles.value)
    ensures r.Success? ==> r.value.index.value.name == repo.configuration.name
    ensures r.Success? ==> r.value.index.value.base == ops.toUri(repo.configuration.directory)
    ensures r.Success? ==> r.value.(index := store.index, indexTmp := store.indexTmp) == store
  {
    match store.bundles
    case None => Failure(IoError(repo.fileBundles))
    case Some(d) =>
      var document := IndexDocument(repo.configuration.name, ops.toUri(repo.configuration.directory), JarFiles(d));
      var written := store.(indexTmp := Some(document));
      Success(written.(index := written.indexTmp, indexTmp := None))
  }

  /** Regenerating the index of an unchanged directory gives the same
      repository. */
  lemma GenerateIndexIdempotent(repo: Repository, store: Store, ops: PathOps)
    requires GenerateIndex(repo, store, ops).Success?
    ensures GenerateIndex(repo, GenerateIndex(repo, store, ops).value, ops) == GenerateIndex(repo, store, ops)
  {
  }

  /** The index never lists a staging file. */
  lemma IndexHasNoStagingFiles(repo: Repository, store: Store, ops: PathOps, id: Identifier, tools: Collaborators)
    requires GenerateIndex(repo, store, ops).Success?
    ensures TmpName(id, tools) !in GenerateIndex(repo, store, ops).value.index.value.files
  {
    StagingNameNotJar(id, tools);
  }

  /** The copies of an accepted batch, in the order the identity map is
      iterated: each file's identity with the file's bytes. */
  function Copies(order: seq<Path>, identities: map<Path, Identifier>, sources: map<Path, Bytes>): (r: seq<Copy>)
    requires forall p :: p in order ==> p in identities && p in sources
    ensures |r| == |order|
    ensures forall i :: 0 <= i < |order| ==> r[i] == Copy(identities[order[i]], sources[order[i]])
  {
    seq(|order|, i requires 0 <= i < |order| => Copy(identities[order[i]], sources[order[i]]))
  }

  /** The `bundles/` directory after copying an accepted batch: it is created
      by the first copy, so an empty batch leaves it as it was. */
  function CopyBatch(bundles: Option<Directory>, copies: seq<Copy>, tools: Collaborators): (r: Option<Directory>)
    ensures r.None? <==> bundles.None? && copies == []
  {
    if copies == [] then bundles else Some(PlaceAll(bundles.GetOr(map[]), copies, tools))
  }

  /** `install`: check every file, rejecting the whole batch if any is
      invalid; copy the accepted files in `order` (the iteration order of the
      identity map, a permutation of the distinct files); regenerate the index.
      The lock file is only locked, never written. */
  function Install(
    repo: Repository, store: Store, files: seq<Path>, order: seq<Path>,
    sources: map<Path, Bytes>, tools: Collaborators, ops: PathOps)
    : (r: Result<Store, RepositoryError>)
    requires Distinct(order) && forall p :: p in order <==> p in files
    ensures r.Failure? && r.error.BatchInvalid? <==> exists i :: 0 <= i < |files| && !Valid(files[i], sources, tools)
    ensures r.Failure? && r.error.BatchInvalid? ==> r.error.failures == CheckAll(files, sources, tools).1
    ensures r.Failure? && r.error.IoError? ==> r.error.path == repo.fileBundles
    ensures r.Success? ==> r.value.lockFile == store.lockFile && r.value.baseExists == store.baseExists
    ensures r.Success? ==> r.value.indexTmp.None?
  {
    match CheckBundles(files, sources, tools)
    case Failure(failures) => Failure(BatchInvalid(failures))
    case Success(identities) =>
      var copies := Copies(order, identities, sources);
      GenerateIndex(repo, store.(bundles := CopyBatch(store.bundles, copies, tools)), ops)
  }

  /** The copies `install` makes for an accepted batch. */
  function BatchCopies(files: seq<Path>, order: seq<Path>, sources: map<Path, Bytes>, tools: Collaborators): (r: seq<Copy>)
    requires forall p :: p in order <==> p in files
    requires forall i :: 0 <= i < |files| ==> Valid(files[i], sources, tools)
    ensures |r| == |order|
    ensures forall i :: 0 <= i < |order| ==>
      Valid(order[i], sources, tools) && r[i] == Copy(CheckFile(order[i], sources, tools).value, sources[order[i]])
  {
    var identities := CheckBundles(files, sources, tools).value;
    Copies(order, identities, sources)
  }

  /** An accepted batch leaves `bundles/` holding the batch's copies and the
      index listing its `.jar` files. */
  lemma InstallOutcome(
    repo: Repository, store: Store, files: seq<Path>, order: seq<Path>,
    sources: map<Path, Bytes>, tools: Collaborators, ops: PathOps)
    requires Distinct(order) && forall p :: p in order <==> p in files
    requires Install(repo, store, files, order, sources, tools, ops).Success?
    ensures forall i :: 0 <= i < |files| ==> Valid(files[i], sources, tools)
    ensures var r := Install(repo, store, files, order, sources, tools, ops).value;
      && r.bundles == CopyBatch(store.bundles, BatchCopies(files, order, sources, tools), tools)
      && r.bundles.Some?
      && r.index == Some(IndexDocument(repo.configuration.name, ops.toUri(repo.configuration.directory), JarFiles(r.bundles.value)))
      && r.(bundles := store.bundles, index := store.index, indexTmp := store.indexTmp) == store
  {
  }

  /** `install` fails on I/O exactly when the batch is empty and `bundles/`
      has never been created: the index cannot list a missing directory. */
  lemma InstallIoErrorIff(
    repo: Repository, store: Store, files: seq<Path>, order: seq<Path>,
    sources: map<Path, Bytes>, tools: Collaborators, ops: PathOps)
    requires Distinct(order) && forall p :: p in order <==> p in files
    ensures Install(repo, store, files, order, sources, tools, ops) == Failure(IoError(repo.fileBundles))
      <==> files == [] && store.bundles.None?
  {
    var checked := CheckBundles(files, sources, tools);
    if checked.Success? {
      var copies := Copies(order, checked.value, sources);
      if files != [] {
        assert files[0] in order;
      }
      if order != [] {
        assert order[0] in files;
      }
      assert (copies == []) <==> (files == []);
      assert Install(repo, store, files, order, sources, tools, ops)
          == GenerateIndex(repo, store.(bundles := CopyBatch(store.bundles, copies, tools)), ops);
    }
  }

  /** A freshly created repository rejects an empty batch: there is no
      `bundles/` to index yet. */
  lemma FreshRepositoryEmptyInstall(configuration: RC.Configuration, store: Store, sources: map<Path, Bytes>, tools: Collaborators, ops: PathOps)
    requires store.bundles.None?
    ensures var (repo, created) := Create(configuration, store);
      Install(repo, created, [], [], sources, tools, ops)
        == Failure(IoError(Resolve(configuration.directory, BUNDLES_DIRECTORY_NAME)))
  {
    var (repo, created) := Create(configuration, store);
    InstallIoErrorIff(repo, created, [], [], sources, tools, ops);
  }

  /** The message of a rejected batch is that of its first invalid file. */
  lemma InstallErrorMessage(
    repo: Repository, store: Store, files: seq<Path>, order: seq<Path>,
    sources: map<Path, Bytes>, tools: Collaborators, ops: PathOps, k: nat)
    requires Distinct(order) && forall p :: p in order <==> p in files
    requires k < |files| && !Valid(files[k], sources, tools)
    requires forall j :: 0 <= j < k ==> Valid(files[j], sources, tools)
    ensures var r := Install(repo, store, files, order, sources, tools, ops);
      r.Failure? && ErrorMessage(r.error, tools) == InvalidMessage(CheckFile(files[k], sources, tools).error, tools)
  {
    CheckAllFirstFailure(files, sources, tools, k);
  }

  /** Distinct files of the batch have distinct canonical names. */
  predicate BatchNamesUnique(files: seq<Path>, sources: map<Path, Bytes>, tools: Collaborators) {
    forall i, j ::
      (0 <= i < |files| && 0 <= j < |files| && files[i] != files[j]
       && Valid(files[i], sources, tools) && Valid(files[j], sources, tools)) ==>
      JarName(CheckFile(files[i], sources, tools).value, tools) != JarName(CheckFile(files[j], sources, tools).value, tools)
  }

  /** After an accepted batch, every file of it is installed under its
      canonical name and listed in the index, holding the bytes of a file of
      the batch with that name: its own, when names are unique. */
  lemma InstallPlacesBundle(
    repo: Repository, store: Store, files: seq<Path>, order: seq<Path>,
    sources: map<Path, Bytes>, tools: Collaborators, ops: PathOps, f: Path)
    requires Distinct(order) && forall p :: p in order <==> p in files
    requires Install(repo, store, files, order, sources, tools, ops).Success?
    requires f in files
    ensures Valid(f, sources, tools)
    ensures var r := Install(repo, store, files, order, sources, tools, ops).value;
      var jar := JarName(CheckFile(f, sources, tools).value, tools);
      && r.bundles.Some? && jar in r.bundles.value
      && jar in r.index.value.files && r.index.value.files[jar] == r.bundles.value[jar]
      && exists g ::
           && g in files && Valid(g, sources, tools)
           && JarName(CheckFile(g, sources, tools).value, tools) == jar && r.bundles.value[jar] == sources[g]
    ensures BatchNamesUnique(files, sources, tools) ==>
      var r := Install(repo, store, files, order, sources, tools, ops).value;
      r.bundles.value[JarName(CheckFile(f, sources, tools).value, tools)] == sources[f]
  {
    InstallOutcome(repo, store, files, order, sources, tools, ops);
    var r := Install(repo, store, files, order, sources, tools, ops).value;
    var copies := BatchCopies(files, order, sources, tools);
    var i :| 0 <= i < |order| && order[i] == f;
    var jar := JarName(CheckFile(f, sources, tools).value, tools);
    PlaceAllAt(store.bundles.GetOr(map[]), copies, jar, tools);
    assert JarName(copies[i].identifier, tools) == jar;
    var j := LastWriter(copies, jar, tools).value;
    var g := order[j];
    assert g in files;
  }

  /** An accepted batch leaves every other file of `bundles/` as it was, and
      the index lists those that are `.jar` files. */
  lemma InstallKeepsOtherFiles(
    repo: Repository, store: Store, files: seq<Path>, order: seq<Path>,
    sources: map<Path, Bytes>, tools: Collaborators, ops: PathOps, k: string)
    requires Distinct(order) && forall p :: p in order <==> p in files
    requires Install(repo, store, files, order, sources, tools, ops).Success?
    requires store.bundles.Some? && k in store.bundles.value
    requires forall f :: f in files && Valid(f, sources, tools) ==>
      k != JarName(CheckFile(f, sources, tools).value, tools) && k != TmpName(CheckFile(f, sources, tools).value, tools)
    ensures var r := Install(repo, store, files, order, sources, tools, ops).value;
      && k in r.bundles.value && r.bundles.value[k] == store.bundles.value[k]
      && (k in r.index.value.files <==> IsJarFile(k))
  {
    InstallOutcome(repo, store, files, order, sources, tools, ops);
    var copies := BatchCopies(files, order, sources, tools);
    PlaceAllAt(store.bundles.value, copies, k, tools);
  }

  /** An accepted batch leaves none of its staging files behind. */
  lemma InstallRemovesStagingFiles(
    repo: Repository, store: Store, files: seq<Path>, order: seq<Path>,
    sources: map<Path, Bytes>, tools: Collaborators, ops: PathOps, f: Path)
    requires Distinct(order) && forall p :: p in order <==> p in files
    requires Install(repo, store, files, order, sources, tools, ops).Success?
    requires f in files
    ensures Valid(f, sources, tools)
    ensures TmpName(CheckFile(f, sources, tools).value, tools) !in Install(repo, store, files, order, sources, tools, ops).value.bundles.value
  {
    InstallOutcome(repo, store, files, order, sources, tools, ops);
    var copies := BatchCopies(files, order, sources, tools);
    var tmp := TmpName(CheckFile(f, sources, tools).value, tools);
    var i :| 0 <= i < |order| && order[i] == f;
    assert TmpName(copies[i].identifier, tools) == tmp;
    PlaceAllAt(store.bundles.GetOr(map[]), copies, tmp, tools);
    StagedNotWritten(copies, i, tools);
  }

  /** Installing a batch a second time leaves the repository as the first
      installation left it. */
  lemma InstallIdempotent(
    repo: Repository, store: Store, files: seq<Path>, order: seq<Path>,
    sources: map<Path, Bytes>, tools: Collaborators, ops: PathOps)
    requires Distinct(order) && forall p :: p in order <==> p in files
    requires Install(repo, store, files, order, sources, tools, ops).Success?
    ensures var once := Install(repo, store, files, order, sources, tools, ops);
      Install(repo, once.value, files, order, sources, tools, ops) == once
  {
    var once := Install(repo, store, files, order, sources, tools, ops).value;
    InstallOutcome(repo, store, files, order, sources, tools, ops);
    var copies := BatchCopies(files, order, sources, tools);
    if copies != [] {
      PlaceAllIdempotent(store.bundles.GetOr(map[]), copies, tools);
    }
    assert CopyBatch(once.bundles, copies, tools) == once.bundles;
  }

  /** The copies of a batch with unique names have unique names. */
  lemma BatchCopiesUnique(files: seq<Path>, order: seq<Path>, sources: map<Path, Bytes>, tools: Collaborators)
    requires Distinct(order) && forall p :: p in order <==> p in files
    requires forall i :: 0 <= i < |files| ==> Valid(files[i], sources, tools)
    requires BatchNamesUnique(files, sources, tools)
    ensures UniqueNames(BatchCopies(files, order, sources, tools), tools)
  {
    var copies := BatchCopies(files, order, sources, tools);
    forall i, j | 0 <= i < j < |copies|
      ensures JarName(copies[i].identifier, tools) != JarName(copies[j].identifier, tools)
    {
      assert order[i] in files && order[j] in files;
      var a :| 0 <= a < |files| && files[a] == order[i];
      var b :| 0 <= b < |files| && files[b] == order[j];
    }
  }

  /** Two iteration orders of the same batch make the same copies. */
  lemma BatchCopiesSameElements(files: seq<Path>, first: seq<Path>, second: seq<Path>, sources: map<Path, Bytes>, tools: Collaborators)
    requires forall p :: p in first <==> p in files
    requires forall p :: p in second <==> p in files
    requires forall i :: 0 <= i < |files| ==> Valid(files[i], sources, tools)
    ensures forall c :: c in BatchCopies(files, first, sources, tools) <==> c in BatchCopies(files, second, sources, tools)
  {
    BatchCopiesIncluded(files, first, second, sources, tools);
    BatchCopiesIncluded(files, second, first, sources, tools);
  }

  /** One direction of `BatchCopiesSameElements`. */
  lemma BatchCopiesIncluded(files: seq<Path>, first: seq<Path>, second: seq<Path>, sources: map<Path, Bytes>, tools: Collaborators)
    requires forall p :: p in first <==> p in files
    requires forall p :: p in second <==> p in files
    requires forall i :: 0 <= i < |files| ==> Valid(files[i], sources, tools)
    ensures forall c :: c in BatchCopies(files, first, sources, tools) ==> c in BatchCopies(files, second, sources, tools)
  {
    var a := BatchCopies(files, first, sources, tools);
    var b := BatchCopies(files, second, sources, tools);
    forall c | c in a ensures c in b {
      var i :| 0 <= i < |a| && a[i] == c;
      var j :| 0 <= j < |second| && second[j] == first[i];
      assert b[j] == c;
    }
  }

  /** When distinct files of a batch have distinct canonical names, the
      iteration order of the identity map does not affect the outcome. */
  lemma InstallOrderIndependent(
    repo: Repository, store: Store, files: seq<Path>, first: seq<Path>, second: seq<Path>,
    sources: map<Path, Bytes>, tools: Collaborators, ops: PathOps)
    requires Distinct(first) && forall p :: p in first <==> p in files
    requires Distinct(second) && forall p :: p in second <==> p in files
    requires BatchNamesUnique(files, sources, tools)
    ensures Install(repo, store, files, first, sources, tools, ops) == Install(repo, store, files, second, sources, tools, ops)
  {
    if forall i :: 0 <= i < |files| ==> Valid(files[i], sources, tools) {
      var a := BatchCopies(files, first, sources, tools);
      var b := BatchCopies(files, second, sources, tools);
      BatchCopiesUnique(files, first, sources, tools);
      BatchCopiesUnique(files, second, sources, tools);
      BatchCopiesSameElements(files, first, second, sources, tools);
      PlaceAllOrderIndependent(store.bundles.GetOr(map[]), a, b, tools);
      assert |a| == 0 <==> |b| == 0 by {
        if |a| != 0 {
          assert a[0] in b;
        }
        if |b| != 0 {
          assert b[0] in a;
        }
      }
      assert CopyBatch(store.bundles, a, tools) == CopyBatch(store.bundles, b, tools);
    }
  }
}

=== FILE: repository_configuration.dfy ===
/** The configuration of a bundle repository: its base directory and the name
    written into its index, with the builder that assembles it. */
module RepositoryConfiguration {
  import opened Paths

  const DEFAULT_NAME: string := "Rivershark"

  datatype Configuration = Configuration(directory: Path, name: string)

  datatype Builder = Builder(directory: Path, name: string)

  /** `RSRepositoryConfiguration.builder(directory)`: the directory is made
      absolute and the name starts out as the default. */
  function NewBuilder(directory: Path, ops: PathOps): (b: Builder)
    ensures b.directory == ops.absolute(directory)
    ensures b.name == DEFAULT_NAME
  {
    Builder(ops.absolute(directory), DEFAULT_NAME)
  }

  /** `setDirectory`: the directory is stored as given, not made absolute, and
      the name is kept. */
  function SetDirectory(b: Builder, directory: Path): (r: Builder)
    ensures r.directory == directory
    ensures r.name == b.name
  {
    b.(directory := directory)
  }

  /** `setName`: only the name changes. */
  function SetName(b: Builder, name: string): (r: Builder)
    ensures r.name == name
    ensures r.directory == b.directory
  {
    b.(name := name)
  }

  /** `build`: the configuration holds the builder's current fields. */
  function Build(b: Builder): (c: Configuration)
    ensures c.directory == b.directory && c.name == b.name
  {
    Configuration(b.directory, b.name)
  }

  /** Building straight away gives the absolute directory and the default
      name. */
  lemma BuildDefaults(directory: Path, ops: PathOps)
    ensures Build(NewBuilder(directory, ops)) == Configuration(ops.absolute(directory), DEFAULT_NAME)
  {
  }

  /** `setDirectory` overrides the absolute directory chosen at creation: the
      last directory set is the one built, whether or not it is absolute. */
  lemma SetDirectoryOverrides(initial: Path, directory: Path, name: string, ops: PathOps)
    ensures Build(SetName(SetDirectory(NewBuilder(initial, ops), directory), name)) == Configuration(directory, name)
    ensures Build(SetDirectory(SetName(NewBuilder(initial, ops), name), directory)) == Configuration(directory, name)
  {
  }

  /** The two setters touch different fields, so their order does not
      matter. */
  lemma SettersCommute(b: Builder, directory: Path, name: string)
    ensures SetName(SetDirectory(b, directory), name) == SetDirectory(SetName(b, name), directory)
  {
  }
}

=== FILE: strings.dfy ===
/** Java `String` operations the model needs: prefix and suffix tests and the
    natural ordering of `String.compareTo`. */
module Strings {

  /** `s.startsWith(prefix)`. */
  predicate StartsWith(s: string, prefix: string) {
    |prefix| <= |s| && s[..|prefix|] == prefix
  }

  /** `s.endsWith(suffix)`. */
  predicate EndsWith(s: string, suffix: string) {
    |suffix| <= |s| && s[|s| - |suffix|..] == suffix
  }

  /** `a.compareTo(b) <= 0`: characters compared one by one, the first
      difference decides, and a proper prefix sorts first. */
  predicate StrLe(a: string, b: string) {
    if |a| == 0 then true
    else if |b| == 0 then false
    else if a[0] != b[0] then a[0] < b[0]
    else StrLe(a[1..], b[1..])
  }

  lemma {:induction false} StrLeReflexive(a: string)
    ensures StrLe(a, a)
  {
    if |a| > 0 {
      StrLeReflexive(a[1..]);
    }
  }

  lemma {:induction false} StrLeAntisymmetric(a: string, b: string)
    requires StrLe(a, b) && StrLe(b, a)
    ensures a == b
  {
    if |a| > 0 && |b| > 0 {
      StrLeAntisymmetric(a[1..], b[1..]);
      assert a == [a[0]] + a[1..];
      assert b == [b[0]] + b[1..];
    }
  }

  lemma {:induction false} StrLeTransitive(a: string, b: string, c: string)
    requires StrLe(a, b) && StrLe(b, c)
    ensures StrLe(a, c)
  {
    if |a| > 0 && |b| > 0 && |c| > 0 && a[0] == b[0] == c[0] {
      StrLeTransitive(a[1..], b[1..], c[1..]);
    }
  }

  lemma {:induction false} StrLeTotal(a: string, b: string)
    ensures StrLe(a, b) || StrLe(b, a)
  {
    if |a| > 0 && |b| > 0 && a[0] == b[0] {
      StrLeTotal(a[1..], b[1..]);
    }
  }

  /** A string never ends with two suffixes that differ in their last character. */
  lemma EndsWithLastChar(s: string, x: string, y: string)
    requires |x| > 0 && |y| > 0 && x[|x| - 1] != y[|y| - 1]
    requires EndsWith(s, x)
    ensures !EndsWith(s, y)
  {
    assert s[|s| - 1] == s[|s| - |x|..][|x| - 1];
    if |y| <= |s| {
      assert s[|s| - |y|..][|y| - 1] == s[|s| - 1];
    }
  }
}

=== FILE: wrappers.dfy ===
/** Failure-compatible wrappers used throughout the model: `Option` stands for
    a Java reference that may be null or an `Optional`, `Result` for a call
    that either returns a value or throws. */
module Wrappers {

  datatype Option<+T> = None | Some(value: T) {

    /** The value held, or `default` when there is none. */
    function GetOr(default: T): T {
      match this
      case Some(v) => v
      case None => default
    }
  }

  datatype Result<+T, +E> = Success(value: T) | Failure(error: E) {

    predicate IsFailure() {
      Failure?
    }

    function PropagateFailure<U>(): Result<U, E>
      requires Failure?
    {
      Failure(error)
    }

    function Extract(): T
      requires Success?
    {
      value
    }
  }
}
